=== FILE: README.md ===
# Market-data pipeline core, in Dafny

This project models the deterministic core of a single-symbol crypto
market-data pipeline that feeds a small trading bot. It proves properties
about that model.

Raw exchange records (aggregate trades and depth updates) flow through five
stages:
- a data-quality **validator**, an ordered chain of checks with a bounded
  duplicate-id set and error counters;
- a **normalizer**, which derives notional, side, large-trade flag, a trailing
  100-trade VWAP, mid, spread, basis points, level volumes, ratio and
  imbalance;
- a **hot store**, made of two bounded drop-oldest buffers plus two
  timestamp-keyed sorted maps with TTL pruning and range queries;
- a **market-state aggregator**, which keeps rolling 1- and 5-minute volume,
  a 1-minute VWAP, a volume-spike flag, 5-second momentum, a large-trade count
  and a verbatim copy of the book figures;
- a **callback**.

Two position state machines consume the callback.
- The first bot checks the stream price against a REST price before entering
  a position (the **reconciliation** gate).
- The second bot enters without that check.

Also modelled:
- the first-generation **signal engine**;
- the **websocket connector**: its connection state, exponential backoff,
  reconnect budget, stale and lifetime triggers, stream URL and routing;
- the **configuration checks**.

Everything is modelled as immutable datatypes and pure step functions.
Inputs that the program gets from outside are parameters:
- wall-clock readings;
- the outcome of a websocket handshake;
- the reply to a REST ticker request: none, a price that converts, or a
  price that is missing or not a number;
- the member that Python's `set.pop()` happens to remove.

Exceptions that escape a call become `Result`/`Option` values. Prices are
`real`, so floating-point rounding is not modelled.

One module per source component: `Base` (shared vocabulary), `Records`,
`Validator`, `Normalizer`, `TimeIndex`, `HotStorage`, `MarketState`,
`SignalEngine`, `Reconciliation`, `Connector`, `Pipeline`, `Bots`, `Settings`.

Places where the model follows the code rather than its documentation:
- The spread is not forced non-negative. A crossed book that passes
  validation yields a negative spread (`Normalizer.CrossedBookNegativeSpread`).
- The market state's 1-minute VWAP falls back when the quantity sum is not
  positive. The normalizer's VWAP falls back only when it is exactly zero.
- The pre-order price check divides by the REST price. A REST price of zero
  therefore raises, and a negative one is always accepted. The model keeps
  both behaviours.
- The signal engine's exit predicate reads the imbalance only. It is
  modelled as a function of the imbalance and the side.
- Neither bot calls the signal engine's order-book rule. Both use their own
  imbalance rule on books. The engine's rule is modelled on its own.
- Python's set iteration order decides the order of the default streams in
  the URL. It is modelled as a given sequence.

## Model

| member | source | states |
|---|---|---|
| Base.Push | data_collector/data_normalizer.py:73 | a `deque(maxlen)` append keeps at most `cap` items, ends with the new one, and drops exactly the oldest when full |
| Base.PushAllIsLast | storage/hot_storage.py:38-39 | feeding a bounded deque item by item keeps exactly the last `cap` items of everything it was given |
| Base.PySliceFrom | storage/hot_storage.py:99-101 | Python `s[k:]` for negative `k` is the last `min(-k, len)` items, and for non-negative `k` the suffix from `k` |
| Base.PySliceTo | data_collector/data_validator.py:147 | Python `s[:k]` is the first `min(k, len)` items for non-negative `k`, and drops the last `-k` items for negative `k` |
| Base.Contains | data_collector/websocket_connector.py:248-260 | Python's `sub in s` holds exactly when `sub` occurs at some position of `s` |
| Base.WeightedMeanBounds | data_collector/data_normalizer.py:181-192 | a quantity-weighted mean of prices within `[lo, hi]`, with positive quantities, has a positive weight total and lies within `[lo, hi]` |
| Records.ParseLevel | data_collector/data_normalizer.py:122-123 | converting a book level succeeds exactly when it has two entries that both convert, and yields those two numbers |
| Records.ParseLevels | data_collector/data_normalizer.py:122-123 | converting a level list succeeds exactly when every level converts, and yields their figures level by level |
| Validator.Bump | data_collector/data_validator.py:210-211 | recording an error raises the counter of its kind by one and leaves every other kind's counter alone |
| Validator.SumCountsBump | data_collector/data_validator.py:204-211 | the per-kind counters summed over all kinds grow by one with each recorded error, so they always sum to the total |
| Validator.New | data_collector/data_validator.py:35-50 | a fresh validator has zero counters, an empty id set and zero watermarks; a missing or empty symbol set selects the default |
| Validator.RecordError | data_collector/data_validator.py:204-218 | a recorded error yields the invalid verdict of that kind, raises the total and that kind's counter by one, leaves every other kind's counter and every other field as it was, and raises the sum over all kinds by one |
| Validator.TradeCheck | data_collector/data_validator.py:56-104 | the ordered trade checks accept exactly the trades that satisfy every rule; each error kind is reported exactly when all earlier checks passed and its own failed |
| Validator.AddTradeId | data_collector/data_validator.py:195-202 | inserting an id never lets the set exceed 1000; on overflow exactly one member of the enlarged set is dropped |
| Validator.AddTradeIdIsPop | data_collector/data_validator.py:195-202 | the eviction choice reaches exactly the outcomes of `set.pop()`: one arbitrary member, possibly the new id |
| Validator.AcceptLosesAtMostOneId | data_collector/data_validator.py:195-202 | an acceptance loses at most one of the ids recorded before it, so every other earlier id still marks a resubmission as a duplicate |
| Validator.ValidateTrade | data_collector/data_validator.py:52-118 | every call counts once; a trade is valid iff acceptable; a rejection changes only the counters; an acceptance raises the watermark to the max, never rejecting out-of-order times, and records the id: every earlier id is kept while the set stays within 1000, and exactly one member of the enlarged set is dropped beyond that |
| Validator.LevelFault | data_collector/data_validator.py:145-166 | a level that is too short or has a field `float()` rejects is a null value; a level that converts but has a non-positive price or a negative quantity is a negative price; otherwise it is sound |
| Validator.LevelsCheck | data_collector/data_validator.py:145-166 | the levels pass iff every one is sound, and otherwise the first faulty level's kind is reported |
| Validator.BookCheck | data_collector/data_validator.py:124-166 | the ordered book checks accept exactly the books that satisfy every rule; an empty side, then the timestamp, then the symbol are reported first, and a book that passes those gets the first level fault among its first five bids followed by its first five asks |
| Validator.ValidateOrderbook | data_collector/data_validator.py:120-181 | every call counts once; a book is valid iff acceptable; the dedup set and trade watermark never change; a rejection changes only the counters |
| Validator.ErrorRate | data_collector/data_validator.py:220-224 | the error rate is the rejected fraction of calls, 0 before any call, and lies in [0, 1] |
| Validator.ResetStats | data_collector/data_validator.py:239-244 | resetting zeroes every counter but keeps the id set, the expected symbols and both watermarks |
| Validator.ValidateTradeKeepsInv | data_collector/data_validator.py:52-118 | trade validation keeps errors ≤ calls, the kind counters summing to the errors, and the id set within 1000 |
| Validator.ValidateOrderbookKeepsInv | data_collector/data_validator.py:120-181 | book validation keeps the same counter relations and id-set bound |
| Validator.WatermarksNeverReject | data_collector/data_validator.py:106-116 | the verdict on a trade or a book does not depend on the timestamp watermarks |
| Validator.DuplicateResubmission | data_collector/data_validator.py:100-104 | an acceptable trade submitted twice while the id set has room is accepted once and then rejected as a duplicate |
| Validator.ZeroPriceIsNegativePrice | data_collector/data_validator.py:56-72 | the text "0" is not falsy, so a zero price passes the null check and is rejected as a negative price |
| Validator.SixthLevelIgnored | data_collector/data_validator.py:145-166 | a malformed level beyond the fifth never changes the verdict |
| Normalizer.New | data_collector/data_normalizer.py:62-74 | a fresh normalizer has an empty VWAP window and zero cumulative volume, with the given threshold and depth |
| Normalizer.Vwap | data_collector/data_normalizer.py:181-192 | the window VWAP is absent exactly when the window is empty or its quantities sum to 0, and otherwise is the value that times Σqty gives Σprice·qty |
| Normalizer.NormalizeTrade | data_collector/data_normalizer.py:76-117 | a trade normalizes iff both fields convert; notional is price·qty, side is SELL iff buyer-maker, large iff notional ≥ threshold; the VWAP covers only the earlier trades; volume and window grow by this trade |
| Normalizer.EmptyBook | data_collector/data_normalizer.py:194-214 | a book with an empty side yields all-zero figures and empty levels, keeping timestamp, symbol and update id |
| Normalizer.SpreadBps | data_collector/data_normalizer.py:135-137 | the basis points are spread/mid·10000, or 0 when mid is not positive |
| Normalizer.Ratio | data_collector/data_normalizer.py:143-148 | the ratio is bid/ask volume, or 0 when ask volume is not positive |
| Normalizer.Imbalance | data_collector/data_normalizer.py:150-155 | the imbalance is (bid−ask)/(bid+ask), or 0 when the total is not positive |
| Normalizer.Figures | data_collector/data_normalizer.py:131-179 | a book with both sides present gets first-level best prices, mid, spread, bps, depth-limited volumes, ratio and imbalance |
| Normalizer.NormalizeOrderbook | data_collector/data_normalizer.py:119-179 | a book normalizes iff its kept levels convert; an empty side gives the zero record; otherwise best prices, mid, spread, spread in basis points, side volumes, bid/ask ratio and imbalance are those of the kept levels; the trade window is not touched |
| Normalizer.Reset | data_collector/data_normalizer.py:216-220 | reset empties the VWAP window and zeroes the cumulative volume, keeping the configuration |
| Normalizer.ImbalanceBounds | data_collector/data_normalizer.py:150-155 | with non-negative volumes the imbalance lies in [-1, 1], is 0 when balanced, and is positive iff bids outweigh asks |
| Normalizer.ImbalanceFromRatio | data_collector/data_normalizer.py:143-155 | imbalance and ratio carry the same information: imbalance·(ratio+1) = ratio−1 |
| Normalizer.VwapWithinPrices | data_collector/data_normalizer.py:181-192 | the VWAP of a window with positive quantities exists and lies between its lowest and highest price |
| Normalizer.ValidatedBookNormalizes | data_collector/data_normalizer.py:119-179 | a book the validator accepts always normalizes at a depth of at most 5, with imbalance in [-1, 1] |
| Normalizer.ValidatedTradeNormalizes | data_collector/data_normalizer.py:76-117 | a trade the validator accepts always normalizes, with a positive notional |
| Normalizer.CrossedBookNegativeSpread | data_collector/data_normalizer.py:130-137 | a crossed book that passes validation yields a negative spread: the sign is not enforced |
| Normalizer.RunVolume | data_collector/data_normalizer.py:92-108 | after a run of trades the cumulative volume has grown by exactly their quantities |
| Normalizer.RunWindow | data_collector/data_normalizer.py:95 | after a run of trades the VWAP window holds the last 100 entries of everything seen, oldest dropped first |
| Normalizer.FirstTradeHasNoVwap | data_collector/data_normalizer.py:89 | the first trade after a reset has no VWAP and its cumulative volume is its own quantity |
| TimeIndex.Put | storage/hot_storage.py:42-43 | storing under a timestamp keeps the map sorted and overwrites the value of an equal key |
| TimeIndex.PutLookup | storage/hot_storage.py:56 | after storing, the key reads the new value and every other key reads what it read before |
| TimeIndex.Prune | storage/hot_storage.py:165-186 | pruning keeps exactly the entries at or above the cutoff |
| TimeIndex.PruneLookup | storage/hot_storage.py:165-186 | after pruning, keys below the cutoff are gone and the others read as before |
| TimeIndex.Since | storage/hot_storage.py:81-86 | the query from `t` lists exactly the values stored under keys at or above `t`, and never more values than entries |
| TimeIndex.Range | storage/hot_storage.py:88-97 | the range query lists exactly the values stored under keys in `[lo, hi]`, inclusive at both ends, and nothing when `lo > hi` |
| TimeIndex.SinceInKeyOrder | storage/hot_storage.py:81-86 | in a sorted index the query from `t` is the run of values from the first key at or above `t` to the end, one per key, in ascending key order |
| TimeIndex.RangeInKeyOrder | storage/hot_storage.py:88-97 | in a sorted index the range query is the run of values from the first key at or above `lo` up to the first key above `hi`, one per key, in ascending key order |
| TimeIndex.SinceAscending | storage/hot_storage.py:81-86 | when every value is filed under its own key, the query from `t` comes out in strictly ascending key order |
| TimeIndex.RangeAscending | storage/hot_storage.py:88-97 | when every value is filed under its own key, the range query comes out in strictly ascending key order |
| TimeIndex.SinceSplits | storage/hot_storage.py:88-97 | in key order, the values from `lo` are those in `[lo, hi]` followed by those after `hi` |
| TimeIndex.SinceAfterPrune | storage/hot_storage.py:165-186 | pruning at a cutoff never changes a query that starts at or after the cutoff |
| HotStorage.New | storage/hot_storage.py:22-51 | a fresh store has empty buffers, indexes and latest pointers, and zero counters |
| HotStorage.AddTrade | storage/hot_storage.py:53-61 | a trade is pushed to the capped buffer, becomes the latest, is counted, and is indexed unless older than the TTL cutoff; the book channel is untouched |
| HotStorage.AddOrderbook | storage/hot_storage.py:63-71 | a book is pushed, becomes the latest, is counted and indexed the same way; the trade channel is untouched |
| HotStorage.Recent | storage/hot_storage.py:99-101 | a positive count gives the last `min(count, len)` records; a count of 0 gives the whole buffer (Python's `[-0:]`) |
| HotStorage.RecentTrades | storage/hot_storage.py:99-101 | a positive count gives the last `min(count, len)` buffered trades; a count of 0 or less gives the buffer without its first `-count` trades, the whole buffer for 0 |
| HotStorage.RecentOrderbooks | storage/hot_storage.py:110-112 | the same for the buffered books |
| HotStorage.TradesSince | storage/hot_storage.py:81-86 | the trades since `t` are exactly the indexed trades with timestamp at least `t`, in strictly ascending timestamp order, so one per timestamp |
| HotStorage.TradesRange | storage/hot_storage.py:88-97 | the trades in a range are exactly the indexed trades with timestamp in `[lo, hi]`, in strictly ascending timestamp order |
| HotStorage.OrderbooksSince | storage/hot_storage.py:103-108 | the books since `t` are exactly the indexed books with timestamp at least `t`, in strictly ascending timestamp order |
| HotStorage.TradesInWindow | storage/hot_storage.py:114-118 | the trades of the last `windowSeconds` are exactly the indexed trades stamped at or after `nowMs - windowSeconds*1000`, in strictly ascending timestamp order |
| HotStorage.VolumeInWindow | storage/hot_storage.py:120-123 | the window volume is the quantity sum of the window's trades: 0 for an empty window, and never negative when the indexed quantities are not |
| HotStorage.VwapInWindow | storage/hot_storage.py:125-137 | the window VWAP is Σpq/Σq over the window's trades, absent when the window is empty or its volume is 0 |
| HotStorage.LargeTradesInWindow | storage/hot_storage.py:139-145 | the large trades of a window are exactly its trades flagged large, in the window's strictly ascending timestamp order |
| HotStorage.Clear | storage/hot_storage.py:210-218 | clearing empties buffers, indexes and latest pointers but keeps the stored counters, the capacities, the symbol and the TTL |
| HotStorage.StaleTradeBufferedNotIndexed | storage/hot_storage.py:165-186 | a trade older than the TTL when it arrives is buffered and becomes the latest, but is not in the index |
| HotStorage.EqualTimestampOverwrites | storage/hot_storage.py:56 | two trades with the same timestamp are both buffered, but the index keeps only the second |
| HotStorage.BufferKeepsNewest | storage/hot_storage.py:53-61 | after a run of adds the buffer holds the last `max_trades` of everything added, and the counter grew by the run's length |
| HotStorage.RecentTradesBound | storage/hot_storage.py:99-101 | the recent trades are a suffix of the buffer of length `min(count, len)`, never more than were stored |
| HotStorage.RecentZeroIsEverything | storage/hot_storage.py:99-101 | a request for the 0 most recent trades returns the whole buffer |
| HotStorage.WiderWindowMoreVolume | storage/hot_storage.py:120-123 | with non-negative quantities a wider window never has less volume |
| HotStorage.WindowVwapIsVwap | storage/hot_storage.py:125-137 | the store's window VWAP is the normalizer's VWAP of the window's trades |
| HotStorage.ClearThenAdd | storage/hot_storage.py:210-218 | after a clear, one add leaves exactly that trade buffered, the counter one above its value before the clear, and no latest book |
| MarketState.DefaultState | core/market_state_manager.py:13-47 | a default state has zero counters and prices, no spike, for the given symbol and time |
| MarketState.New | core/market_state_manager.py:52-67 | a fresh manager has empty histories and the default state |
| MarketState.Vwap1m | core/market_state_manager.py:173-186 | the 1-minute VWAP is Σpq/Σq over the last minute's trades, 0 when there are none or Σq is not positive |
| MarketState.WindowVolume | core/market_state_manager.py:156-170 | the volume of a window is the sum over the whole history of each entry's quantity when it is at most `windowMs` old and 0 otherwise; hence never negative for non-negative quantities, the whole history's quantity when every entry is fresh, and 0 when none is |
| MarketState.LargeCount | core/market_state_manager.py:217-227 | the large-trade count is the number of large-trade entries at most 60000 ms old, one per entry; it never exceeds the history and is positive exactly when some entry is that fresh |
| MarketState.Spike | core/market_state_manager.py:188-190 | a spike means the last minute's volume exceeds twice the per-minute average of five minutes (average 0 when that volume is 0) |
| MarketState.WithVolumeMetrics | core/market_state_manager.py:156-190 | the volume refresh sets 1m and 5m volume, VWAP and spike from the history, and nothing else |
| MarketState.Momentum | core/market_state_manager.py:192-215 | momentum is (last−first)/first over the prices of the last 5 s in insertion order, 0 with fewer than two or a non-positive first |
| MarketState.UpdateFromTrade | core/market_state_manager.py:69-103 | a trade counts, sets last price and time, enters the capped histories (the large one only if large), refreshes the rolling figures, and leaves the book figures alone |
| MarketState.UpdateFromOrderbook | core/market_state_manager.py:105-123 | a book's figures are copied verbatim and counted; trade-derived figures and histories are untouched |
| MarketState.Reset | core/market_state_manager.py:229-238 | reset gives a fresh manager for the same symbol |
| MarketState.OneMinuteWithinFive | core/market_state_manager.py:158-170 | with non-negative quantities the 1-minute volume never exceeds the 5-minute volume |
| MarketState.Vwap1mWithinPrices | core/market_state_manager.py:173-186 | with positive quantities the 1-minute VWAP lies between that minute's lowest and highest price |
| MarketState.SpikeNeedsVolume | core/market_state_manager.py:188-190 | a spike implies trading in the last minute |
| MarketState.LargeHistoryOnlyLarge | core/market_state_manager.py:91-96 | only large trades enter the large-trade history, and the large-trade count stays at most 100 |
| MarketState.MomentumFlatExample | core/market_state_manager.py:192-215 | prices 100, 101, 102, 101, 100 within the window give momentum 0, since only the first and last price count |
| MarketState.MomentumRiseExample | core/market_state_manager.py:192-215 | a rise from 100 to 102 within the window gives momentum 0.02 |
| MarketState.StalePricesIgnored | core/market_state_manager.py:198-209 | prices older than 5 s do not count, so one fresh price gives momentum 0 however far the price moved |
| MarketState.MomentumOnlyFreshPrices | core/market_state_manager.py:192-215 | momentum depends only on the prices inside the 5 s window: histories with the same fresh prices in the same order have the same momentum |
| MarketState.MomentumIgnoresStale | core/market_state_manager.py:198-209 | a price older than 5 s, at either end of the history, never changes the momentum |
| MarketState.ImbalanceSurvivesTrades | core/market_state_manager.py:105-123 | an imbalance in [-1, 1] from a book stays there across a following trade |
| SignalEngine.New | core/signal_engine_v1.py:16-23 | a fresh engine has an empty history and the configured thresholds |
| SignalEngine.UpdateTrade | core/signal_engine_v1.py:25-38 | a trade is stored only if its notional reaches the minimum; nothing else changes; an unconvertible field raises |
| SignalEngine.CheckPriceChange | core/signal_engine_v1.py:66-97 | with under two recent trades there is no change; otherwise UP iff the relative move reaches the threshold, DOWN iff it reaches its negative, and a zero first price raises |
| SignalEngine.UpdateOrderbook | core/signal_engine_v1.py:40-64 | the book rule signals LONG iff the direction is UP and SHORT iff it is DOWN |
| SignalEngine.CheckExitSignal | core/signal_engine_v1.py:99-104 | a long exits iff imbalance < 0.5, a short iff > 0.5, any other side never |
| SignalEngine.UpdateTradeKeepsInv | core/signal_engine_v1.py:23-38 | the history stays within 1000 entries and holds only trades at or above the minimum notional |
| SignalEngine.DirectionMeansMove | core/signal_engine_v1.py:84-97 | with a positive threshold UP and DOWN are exclusive and each means a move of at least the threshold |
| SignalEngine.AcceptedThresholdSeparatesDirections | config/settings.py:55-58 | a threshold that passes the configuration check is in (0, 1), so UP always means a rise, DOWN a fall, and an unchanged price gives no direction |
| SignalEngine.ExitSignalMirror | core/signal_engine_v1.py:99-104 | the exit rule is symmetric about 0.5: a long exits at `x` iff a short exits at `1 - x`, never both at once, and neither at exactly 0.5 |
| SignalEngine.SpikeHistory | core/signal_engine_v1.py:25-38 | a small trade between two large ones is filtered out of the history |
| SignalEngine.SpikeSignal | core/signal_engine_v1.py:66-97 | a +0.2% move within the window gives UP and LONG, and once the trades age out there is no signal |
| Reconciliation.New | core/data_reconciliation.py:27-43 | a fresh reconciler has no prices and zero counters |
| Reconciliation.VerifyBeforeOrder | core/data_reconciliation.py:137-169 | no reply rejects without a price; a reply whose price is missing or not a number raises a conversion error; a positive REST price accepts iff the relative difference is at most 0.5%; a zero one raises; a negative one accepts |
| Reconciliation.DiffScale | core/data_reconciliation.py:153-157 | comparing the relative difference with a tolerance is comparing the absolute difference with tolerance·price |
| Reconciliation.CheckDataIntegrity | core/data_reconciliation.py:68-111 | no reply, or a reply whose price does not convert, changes nothing; a converted price is recorded and counts a check, and a mismatch is counted iff a nonzero stream price differs by over 0.1% |
| Reconciliation.UpdateWsPrice | core/data_reconciliation.py:133-135 | only the last stream price changes |
| Reconciliation.MismatchRate | core/data_reconciliation.py:171-185 | the mismatch rate is mismatches/checks·100, or 0 before any check |
| Reconciliation.RunKeepsInv | core/data_reconciliation.py:83-88 | any run of updates and checks keeps mismatches ≤ checks |
| Reconciliation.MismatchRateBounds | core/data_reconciliation.py:171-185 | the mismatch rate is a percentage in [0, 100] |
| Reconciliation.ToleranceNesting | core/data_reconciliation.py:153-169 | a price within the 0.1% monitoring tolerance always passes the 0.5% pre-order gate |
| Reconciliation.VerifyExamples | core/data_reconciliation.py:153-169 | 0.6% off rejects, 0.3% and exactly 0.5% off accept, no reply rejects, and a reply without a number raises |
| Reconciliation.MismatchAfterWsUpdate | core/data_reconciliation.py:83-88 | the check compares with the stream price recorded before it: 0.2% off counts a mismatch, 0.05% does not |
| Connector.OrInt | data_collector/websocket_connector.py:80-81 | a missing or zero argument falls back to the default |
| Connector.OrReal | data_collector/websocket_connector.py:74-81 | a missing or zero real argument falls back to the configured default |
| Connector.OrSeq | data_collector/websocket_connector.py:68-69 | a missing or empty collection falls back to the default |
| Connector.Pairs | data_collector/websocket_connector.py:106-114 | one `symbol@stream` name per stream, in order |
| Connector.New | data_collector/websocket_connector.py:45-104 | a fresh connector is disconnected with zero counters, the backoff at its initial value, and each `or`-defaulted setting resolved |
| Connector.BuildUrl | data_collector/websocket_connector.py:106-116 | the URL is the combined-stream prefix followed by the stream names joined by `/`; one symbol with one stream gives `prefix + symbol@stream` |
| Connector.Connect | data_collector/websocket_connector.py:118-143 | a successful handshake connects, restarts the clocks and resets backoff and count; a failure gives FAILED and nothing else |
| Connector.Reconnect | data_collector/websocket_connector.py:145-167 | with the budget spent the state is FAILED and nothing else changes; otherwise the count rises and the backoff doubles up to its cap before one connect attempt |
| Connector.HealthStep | data_collector/websocket_connector.py:169-195 | the health check reconnects only a running, connected stream silent for over a minute |
| Connector.RouteOf | data_collector/websocket_connector.py:248-260 | a stream name with `@depth` routes to the book path (checked first), else one with `@aggTrade` to the trade path, else nowhere |
| Connector.ProcessMessage | data_collector/websocket_connector.py:236-267 | a frame reaches the callback iff it is an envelope with stream and data and a known route, which counts it; decode and handler failures count an error |
| Connector.ReceiveStep | data_collector/websocket_connector.py:197-234 | the receive loop does nothing unless running and connected, renews a connection 23.5 h old, reconnects on a close, processes received frames, and changes nothing on a receive timeout |
| Connector.Start | data_collector/websocket_connector.py:269-290 | start marks the connector running and is connected iff the handshake succeeds |
| Connector.Stop | data_collector/websocket_connector.py:292-311 | stop leaves the connector stopped and disconnected with counters kept |
| Connector.GetStats | data_collector/websocket_connector.py:321-332 | the stats copy the counters, and uptime and last-message age are the time since those clocks were set, 0 before |
| Connector.ConnectKeepsInv | data_collector/websocket_connector.py:145-167 | every transition keeps the backoff within [initial, max] and the count within the budget |
| Connector.ReceiveKeepsInv | data_collector/websocket_connector.py:197-234 | the receive loop keeps the same invariant |
| Connector.StatsTrackClock | data_collector/websocket_connector.py:321-332 | an unstarted connector reports no uptime, and once connected at `t0` both uptime and message age at `t1` are `t1 − t0` |
| Connector.DefaultConnector | data_collector/websocket_connector.py:45-104 | the configured defaults give a connector that keeps the invariant, with 10 attempts, backoffs from 1 s to 60 s, on the default stream URL |
| Connector.DefaultUrl | data_collector/websocket_connector.py:106-116 | one symbol with the depth and aggTrade streams gives the combined-stream URL `…?streams=btcusdt@depth/btcusdt@aggTrade` |
| Connector.DefaultNames | data_collector/websocket_connector.py:108-111 | the stream names are `symbol@stream`, symbol-major, in stream order |
| Connector.ZeroMeansDefault | data_collector/websocket_connector.py:68-81 | zero or empty arguments take the configured defaults |
| Connector.StreamNamesLength | data_collector/websocket_connector.py:106-114 | the URL lists \|symbols\|·\|streams\| names |
| Connector.StreamNamesAt | data_collector/websocket_connector.py:106-114 | pair `(i, j)` appears at position `i·\|streams\| + j`, as `symbol@stream` |
| Connector.Routing | data_collector/websocket_connector.py:248-260 | a symbol's depth stream routes to the book path, its trade stream to the trade path, and a name with both to the book path |
| Connector.FailedIsFinal | data_collector/websocket_connector.py:169-234 | as written, a FAILED connector is never touched again by the health check or the receive loop |
| Connector.SingleAttemptAsWritten | data_collector/websocket_connector.py:145-185 | as written, a stale connection whose reconnect fails ends FAILED after one of its ten attempts |
| Connector.RetryReconnect | data_collector/websocket_connector.py:145-167 | retrying until connected or out of budget connects iff some remaining attempt succeeds, and otherwise ends FAILED with the budget spent |
| Connector.Attempt | data_collector/websocket_connector.py:145-167 | the first successful attempt within the budget, with every earlier one failing |
| Connector.HealthStepRetrying | data_collector/websocket_connector.py:169-195 | the corrected health check runs the retry loop on a stale connection, and otherwise changes nothing |
| Connector.RetryBackoffs | data_collector/websocket_connector.py:165 | the backoffs of the retry loop start at the current backoff, each one after the first is the previous one doubled and capped at the maximum, they never decrease and stay within [current, max], and the loop keeps the invariant |
| Connector.ConsBackoff | data_collector/websocket_connector.py:165 | a delay followed by a schedule that starts at its capped double is a doubling schedule from that delay |
| Connector.RetryUsesBudget | data_collector/websocket_connector.py:145-167 | with the retry loop, a stale connection whose attempts all fail makes every attempt of the budget before ending FAILED |
| Pipeline.SymbolOr | core/data_pipeline.py:47 | a missing or empty symbol falls back to the configured default |
| Pipeline.New | core/data_pipeline.py:37-84 | the connector gets the lower-cased symbol, while validator, storage and state use the upper-cased one, with the configured caps, TTL, depth and threshold and zero counters |
| Pipeline.ProcessTrade | core/data_pipeline.py:107-139 | a trade is delivered iff acceptable; a rejection counts an error and reaches neither store nor state; a delivered trade is what the normalizer makes of it, together with the new normalizer, and the store and state are the results of adding it and folding it in |
| Pipeline.CheckTrade | core/data_pipeline.py:110-116 | validation passes iff the trade is acceptable, and a failure is counted in the pipeline's mirror of the validator's errors |
| Pipeline.AcceptTrade | core/data_pipeline.py:119-135 | a validated trade is normalized once, by the normalizer's own operation, then added to the store under the truncated clock and folded into the state by their own operations; the state's trade count tracks the store |
| Pipeline.ProcessOrderbook | core/data_pipeline.py:141-173 | a book is delivered only if acceptable; a delivered book is the normalizer's result for it, and the store and state are the results of adding it and copying it in |
| Pipeline.CheckOrderbook | core/data_pipeline.py:144-150 | validation passes iff the book is acceptable, and a failure is counted |
| Pipeline.AcceptOrderbook | core/data_pipeline.py:153-169 | a validated book is normalized, added to the store under the truncated clock, and copied into the state by their own operations, with its imbalance |
| Pipeline.Process | core/data_pipeline.py:88-105 | trades go to the trade path, books to the book path, and any other tag changes nothing |
| Pipeline.Settle | core/data_pipeline.py:128-135 | after the callback the record counts once, unless the callback raised |
| Pipeline.Step | core/data_pipeline.py:88-105 | an unknown event changes nothing; a trade or book is validated exactly once; at most one more record counts as processed, and none when the callback raised |
| Pipeline.NewKeepsInv | core/data_pipeline.py:37-84 | a fresh pipeline satisfies the invariant, and its depth lies within the validated levels |
| Pipeline.StepKeepsInv | core/data_pipeline.py:88-173 | every message keeps the invariant: validation errors mirror the validator, the store and state counts agree, and processed counts never exceed stored ones |
| Pipeline.RejectedTradeOnlyCounted | core/data_pipeline.py:110-116 | a rejected trade changes only the validator and the error count |
| Pipeline.RejectedBookOnlyCounted | core/data_pipeline.py:144-150 | a rejected book changes only the validator and the error count |
| Pipeline.AcceptedTradeDelivered | core/data_pipeline.py:119-139 | an accepted trade always reaches the callback with a positive notional, and counts unless the callback raised |
| Pipeline.AcceptedBookDelivered | core/data_pipeline.py:153-173 | an accepted book always reaches the callback with imbalance in [-1, 1], and counts unless the callback raised |
| Pipeline.SymbolCaseIrrelevant | core/data_pipeline.py:47-79 | two spellings of a symbol that lower-case alike build the same pipeline |
| Pipeline.DefaultSymbol | core/data_pipeline.py:47-79 | the default pipeline streams `btcusdt` and accepts only `BTCUSDT` |
| Bots.OrderbookSignal | main.py:162-174 | LONG iff imbalance > 0.7, SHORT iff < −0.7, none otherwise, both bounds strict |
| Bots.ExitCheck | main.py:125-160 | a held position either stays or closes; a long closes iff imbalance < −0.3 or momentum < −0.002, a short symmetrically |
| Bots.ToLegacyTrade | main.py:176-191 | the legacy record keeps symbol, maker flag, price and quantity, puts the timestamp in both time fields and the id in the aggregate id, and zeroes the other ids |
| Bots.Decide | main.py:89-95 | an entry is tried only while flat and on a signal, and the exit check follows in the same call unless the entry raised |
| Bots.New | main.py:33-59 | a fresh bot is flat, with the default engine and a 60 s reconciler for its symbol |
| Bots.EntryAsWritten | main.py:97-123 | as written, no reply raises from the log formatting instead of cancelling, and any reply behaves as in the corrected entry |
| Bots.Entry | main.py:97-123 | an entry is taken iff the REST reply's price passes verification; it raises only when that price is zero or not a number |
| Bots.Observe | main.py:61-88 | a trade records the stream price and feeds the signal engine without ever signalling; a book yields the imbalance signal |
| Bots.OnStateUpdateAsWritten | main.py:61-95 | the callback as written equals the corrected one except on an entry signal met by no reply, where it raises and leaves the bot as it was |
| Bots.OnStateUpdate | main.py:61-95 | the corrected callback raises only on a book whose entry check meets a zero or non-numeric REST price; a trade never enters; an entry comes from a book's signal that passed verification; a held position only runs the exit check |
| Bots.NewV2 | main_v2.py:25-41 | the second bot starts flat with the default engine |
| Bots.OnStateUpdateV2 | main_v2.py:43-74 | the second bot never raises, never enters on a trade, enters unconditionally on a book signal, and runs the same exit check |
| Bots.Step | main.py:61-95 | one message through the pipeline and the corrected bot keeps the pipeline invariant |
| Bots.StepAsWritten | main.py:61-95 | one message through the pipeline and the as-written bot keeps the pipeline invariant |
| Bots.RulesAreSymmetric | main.py:125-174 | reflecting the imbalance swaps the entry signal, and reflecting the state swaps the exit decision between the sides |
| Bots.NoDirectReversal | main.py:125-160 | a held position is never reversed in one callback: it stays or becomes flat, in both bots |
| Bots.EntryExitsOnlyOnMomentum | main.py:89-95 | a position entered on a book leaves in the same callback iff the momentum is against it |
| Bots.GateOnlyRemovesEntries | main_v2.py:69-88 | whenever the first bot enters, the second one enters the same way: verification only removes entries |
| Bots.LegacyRoundTrip | main.py:176-191 | the legacy record normalizes back to the same price, quantity, timestamp, id and side |
| Bots.FetchFailureAsWritten | main.py:113-118 | as written no reply on an entry signal raises and changes nothing; corrected, it cancels quietly |
| Bots.FetchFailureSkipsCount | core/data_pipeline.py:160-169 | as written a failed fetch on an accepted extreme book leaves the book uncounted; corrected, it is counted and the bot stays flat |
| Settings.DefaultBinance | config/settings.py:19-32 | the endpoint record carries the testnet flag it was given |
| Settings.WebsocketUrl | config/settings.py:29-32 | the testnet endpoint is chosen exactly when testnet is set |
| Settings.CheckTrading | config/settings.py:55-62 | a config is accepted iff the spike threshold is in (0, 1), the imbalance threshold in (0.5, 1) and leverage in [1, 125], with the first failing check's message otherwise |
| Settings.DefaultTradingAccepted | config/settings.py:36-62 | the shipped trading defaults pass every check, and the aliases read 0.001 and 0.65 |
| Settings.CheckTradingBoundaries | config/settings.py:55-62 | the threshold bounds are exclusive and the leverage bounds inclusive |
| Settings.DefaultDataSound | config/settings.py:66-90 | the data defaults give a backoff range, a budget of 10, a depth of 5 and positive caps and TTL |
| Settings.UrlRevealsTestnet | config/settings.py:19-32 | the two endpoints differ, so the URL tells which environment is used |

## Left out

- JSON decoding and `data_collector/data_parser.py`: the decoder is a plain field copy. The model takes decoded records. Each numeric text field carries the outcome of `float()` on it.
- Floating point: prices and quantities are exact reals. IEEE rounding and `float()` parsing are not modelled.
- Base.Lower, Base.Upper: only ASCII letters change case. Python's `str.lower()` and `str.upper()` follow full Unicode case mapping, which can change the length (`'ß'.upper()` is `'SS'`). Exchange symbols are ASCII, so Pipeline.New, Pipeline.SymbolCaseIrrelevant and Pipeline.DefaultSymbol hold for the symbols the exchange issues, not for arbitrary text.
- Network and asyncio plumbing: socket connect/receive/close, HTTP sessions, sleeps and task scheduling are absent. The outcomes of a handshake or a REST fetch are parameters, and so is the frame received.
- Concurrency: the receive loop, the health check and the reconciliation loop are modelled as separate sequential steps. Interleavings, including a double forced reconnect, are not modelled.
- Wall-clock reads: every `time.time()` is a `now` parameter. One pipeline call reads one clock value (`nowMs`), which storage receives truncated to whole milliseconds. The source reads the clock up to five times per record, microseconds apart (storage/hot_storage.py:170 and core/market_state_manager.py:103, 158, 198, 219), so its storage pruning and its market-state windows can see slightly different times.
- Logging, stats printing and `_log_stats` / `_log_final_stats`: these have no effect on state.
- `get_features`, `log_state`, `get_current_state` and the connector's `get_state` / `is_connected`: these are plain reads of modelled fields.
- The validator's `get_stats` and the error messages of its verdicts: only the verdict and its error kind are modelled.
- The store's `get_stats` and `__repr__`: plain reads.
- The bots' `start`, `stop`, `get_stats` and `main` entry points, and the pipeline's `start` / `stop`: these are async wiring.
- Order execution: the bots only change their position field.
- Environment-variable loading, the logging and performance configs, and `Settings.validate_all` / `get_summary`: these only read or print configuration.
- `models/market_state.py`: legacy dataclasses that the modelled code never uses.
- The connector's unused message queue and the reconciliation loop's timer: the periodic check is modelled as one call.
- Connector.RetryReconnect: the delays between attempts are returned as a list and not slept.
- Records.OrderBook: a bids or asks list that is absent from the event is represented as the empty list. The validator treats both alike, since both are falsy. The normalizer alone would differ: slicing `None` raises `TypeError`, where the model gives the all-zero record. Through the pipeline no such book reaches the normalizer, because the validator rejects an empty or absent side first.

## Findings

| source | as written | input that shows it | evidently intended | confidence | as-written member | corrected member |
|---|---|---|---|---|---|---|
| main.py:113-118 | when the REST request gets no reply, the warning's f-string formats `None` with `,.2f` and raises `TypeError`; the callback raises, the order book is not counted as processed | a flat bot, an accepted book with imbalance 0.8, no reply to the REST ticker request | cancel the entry quietly and keep going | not executed | Bots.FetchFailureAsWritten | Bots.FetchFailureSkipsCount |
| data_collector/websocket_connector.py:145-209 | a failed reconnect leaves the state FAILED, and both the health check and the receive loop act only while CONNECTED, so no further attempt is ever made and the 10-attempt budget and backoff growth are unreachable | a running, connected stream silent for 61 s whose reconnect handshake fails once | retry with growing backoff until connected or the budget is spent | not executed | Connector.SingleAttemptAsWritten | Connector.RetryUsesBudget |

=== FILE: base.dfy ===
/** Shared vocabulary: optional values, fallible results, Python's bounded
    deque and slicing, sums and filters over sequences, ASCII case mapping. */
module Base {

  datatype Option<+T> = None | Some(value: T)

  /** An operation that either produces a value or raises. */
  datatype Result<+T, +E> = Ok(value: T) | Err(error: E)

  /** The Python exceptions that escape the modelled code paths. */
  datatype Fault =
    | ZeroDivision      // a `/` whose divisor is 0
    | ConversionFailed  // `float(...)` on text that is not a number
    | FormatNone        // an f-string format spec applied to None

  function Min(a: int, b: int): int { if a <= b then a else b }

  function RMax(a: int, b: int): int { if a >= b then a else b }

  function RMin(a: real, b: real): real { if a <= b then a else b }

  function Abs(x: real): real { if x < 0.0 then -x else x }

  /** The last `min(n, |s|)` elements of `s`, in order. */
  function Last<T>(s: seq<T>, n: nat): (r: seq<T>)
    ensures |r| == Min(n, |s|)
  {
    if |s| <= n then s else s[|s| - n..]
  }

  /** `deque(maxlen = cap).append(x)`: append on the right and, when the
      deque is full, drop from the left. */
  function Push<T>(s: seq<T>, x: T, cap: nat): (r: seq<T>)
    ensures |s| <= cap ==> |r| == Min(|s| + 1, cap)
    ensures |r| <= cap
    ensures cap > 0 ==> |r| > 0 && r[|r| - 1] == x
    ensures |s| < cap ==> r == s + [x]
    ensures 0 < |s| == cap ==> r == s[1..] + [x]
  {
    Last(s + [x], cap)
  }

  /** Appending items one at a time to a bounded deque. */
  function PushAll<T>(s: seq<T>, xs: seq<T>, cap: nat): seq<T>
    decreases |xs|
  {
    if xs == [] then s else PushAll(Push(s, xs[0], cap), xs[1..], cap)
  }

  lemma LastOfLastPlus<T>(a: seq<T>, x: T, n: nat)
    ensures Last(Last(a, n) + [x], n) == Last(a + [x], n)
  {
    var l := Last(a, n);
    var lhs := Last(l + [x], n);
    var rhs := Last(a + [x], n);
    assert |lhs| == |rhs|;
    forall i | 0 <= i < |lhs|
      ensures lhs[i] == rhs[i]
    {
      if i == |lhs| - 1 {
      } else {
        assert lhs[i] == l[|l| + 1 - |lhs| + i];
      }
    }
  }

  /** A bounded deque fed item by item keeps exactly the last `cap` items
      of everything it was given. */
  lemma {:induction false} PushAllIsLast<T>(s: seq<T>, xs: seq<T>, cap: nat)
    requires |s| <= cap
    ensures PushAll(s, xs, cap) == Last(s + xs, cap)
    decreases |xs|
  {
    if xs == [] {
      assert s + xs == s;
    } else {
      var a := s + [xs[0]];
      var s1 := Push(s, xs[0], cap);
      assert PushAll(s, xs, cap) == PushAll(s1, xs[1..], cap);
      PushAllIsLast(s1, xs[1..], cap);
      assert s1 == Last(a, cap);
      LastOfConcat(a, xs[1..], cap);
      assert a + xs[1..] == s + xs by {
        assert xs == [xs[0]] + xs[1..];
      }
    }
  }

  lemma LastOfConcat<T>(a: seq<T>, b: seq<T>, n: nat)
    ensures Last(Last(a, n) + b, n) == Last(a + b, n)
  {
    var l := Last(a, n);
    var lhs := Last(l + b, n);
    var rhs := Last(a + b, n);
    assert |lhs| == |rhs|;
    forall i | 0 <= i < |lhs|
      ensures lhs[i] == rhs[i]
    {
      var j := |l + b| - |lhs| + i;
      if j >= |l| {
        assert lhs[i] == b[j - |l|];
      } else {
        assert lhs[i] == l[j];
      }
    }
  }

  /** Python `s[k:]`, including negative `k`. */
  function PySliceFrom<T>(s: seq<T>, k: int): (r: seq<T>)
    ensures 0 <= k ==> r == s[Min(k, |s|)..]
    ensures k < 0 ==> |r| == Min(-k, |s|) && r == Last(s, -k)
  {
    if k >= 0 then s[Min(k, |s|)..]
    else s[RMax(0, |s| + k)..]
  }

  /** Python `s[:k]`, including negative `k`. */
  function PySliceTo<T>(s: seq<T>, k: int): (r: seq<T>)
    ensures 0 <= k ==> r == s[..Min(k, |s|)]
    ensures k < 0 ==> r == s[..RMax(0, |s| + k)]
  {
    if k >= 0 then s[..Min(k, |s|)]
    else s[..RMax(0, |s| + k)]
  }

  /** `sum(f(x) for x in xs)`. */
  function Sum<T>(xs: seq<T>, f: T -> real): real
    decreases |xs|
  {
    if xs == [] then 0.0 else Sum(xs[..|xs| - 1], f) + f(xs[|xs| - 1])
  }

  /** `[x for x in xs if p(x)]`. */
  function Filter<T(!new)>(xs: seq<T>, p: T -> bool): (r: seq<T>)
    ensures |r| <= |xs|
    ensures forall x :: x in r <==> x in xs && p(x)
    decreases |xs|
  {
    if xs == [] then []
    else
      var init := Filter(xs[..|xs| - 1], p);
      if p(xs[|xs| - 1]) then init + [xs[|xs| - 1]] else init
  }

  /** `sum(f(x) for x in xs if p(x))` in one pass: a skipped element adds 0. */
  function SumWhere<T>(xs: seq<T>, p: T -> bool, f: T -> real): real
    decreases |xs|
  {
    if xs == [] then 0.0
    else SumWhere(xs[..|xs| - 1], p, f) + (if p(xs[|xs| - 1]) then f(xs[|xs| - 1]) else 0.0)
  }

  /** `sum(1 for x in xs if p(x))`. */
  function CountWhere<T>(xs: seq<T>, p: T -> bool): nat
    decreases |xs|
  {
    if xs == [] then 0
    else CountWhere(xs[..|xs| - 1], p) + (if p(xs[|xs| - 1]) then 1 else 0)
  }

  /** Summing over the filtered list is summing over the whole list with
      the rejected elements counted as 0. */
  lemma {:induction false} SumFilter<T(!new)>(xs: seq<T>, p: T -> bool, f: T -> real)
    ensures Sum(Filter(xs, p), f) == SumWhere(xs, p, f)
    decreases |xs|
  {
    if xs != [] {
      var init := xs[..|xs| - 1];
      var x := xs[|xs| - 1];
      SumFilter(init, p, f);
      if p(x) {
        var a := Filter(init, p);
        assert (a + [x])[..|a + [x]| - 1] == a;
      }
    }
  }

  /** The filtered list has one element per element that passes. */
  lemma {:induction false} CountFilter<T(!new)>(xs: seq<T>, p: T -> bool)
    ensures |Filter(xs, p)| == CountWhere(xs, p)
    decreases |xs|
  {
    if xs != [] {
      CountFilter(xs[..|xs| - 1], p);
    }
  }

  /** `xs` is strictly increasing under `key`. */
  ghost predicate Ascending<T>(xs: seq<T>, key: T -> int)
  {
    forall i, j :: 0 <= i < j < |xs| ==> key(xs[i]) < key(xs[j])
  }

  /** Filtering keeps the order of what it keeps. */
  lemma {:induction false} FilterAscending<T(!new)>(xs: seq<T>, p: T -> bool, key: T -> int)
    requires Ascending(xs, key)
    ensures Ascending(Filter(xs, p), key)
    decreases |xs|
  {
    if xs != [] {
      var init := xs[..|xs| - 1];
      var x := xs[|xs| - 1];
      FilterAscending(init, p, key);
      var f := Filter(init, p);
      forall i | 0 <= i < |f|
        ensures key(f[i]) < key(x)
      {
        assert f[i] in init;
        var k :| 0 <= k < |init| && init[k] == f[i];
        assert xs[k] == f[i];
      }
    }
  }

  /** A rejected element at the front leaves the filtered list as it was. */
  lemma {:induction false} FilterRejectFront<T(!new)>(x: T, xs: seq<T>, p: T -> bool)
    requires !p(x)
    ensures Filter([x] + xs, p) == Filter(xs, p)
    decreases |xs|
  {
    if xs == [] {
      assert [x] + xs == [x];
      assert [x][..0] == [];
    } else {
      var init := xs[..|xs| - 1];
      assert ([x] + xs)[..|[x] + xs| - 1] == [x] + init;
      FilterRejectFront(x, init, p);
    }
  }

  /** Filtering keeps everything when every element passes. */
  lemma {:induction false} FilterAll<T(!new)>(xs: seq<T>, p: T -> bool)
    requires forall i :: 0 <= i < |xs| ==> p(xs[i])
    ensures Filter(xs, p) == xs
    decreases |xs|
  {
    if xs != [] {
      var init := xs[..|xs| - 1];
      assert forall i :: 0 <= i < |init| ==> init[i] == xs[i];
      FilterAll(init, p);
      assert p(xs[|xs| - 1]);
      assert Filter(xs, p) == init + [xs[|xs| - 1]];
      assert init + [xs[|xs| - 1]] == xs;
    }
  }

  lemma {:induction false} SumConcat<T>(a: seq<T>, b: seq<T>, f: T -> real)
    ensures Sum(a + b, f) == Sum(a, f) + Sum(b, f)
    decreases |b|
  {
    if b == [] {
      assert a + b == a;
    } else {
      var b' := b[..|b| - 1];
      assert (a + b)[..|a + b| - 1] == a + b';
      SumConcat(a, b', f);
    }
  }

  lemma SumFront<T>(x: T, xs: seq<T>, f: T -> real)
    ensures Sum([x] + xs, f) == f(x) + Sum(xs, f)
  {
    SumConcat([x], xs, f);
    assert [x][..0] == [];
  }

  lemma {:induction false} SumNonNegative<T>(xs: seq<T>, f: T -> real)
    requires forall x :: x in xs ==> f(x) >= 0.0
    ensures Sum(xs, f) >= 0.0
    decreases |xs|
  {
    if xs != [] {
      SumNonNegative(xs[..|xs| - 1], f);
    }
  }

  /** Filtering by a weaker predicate can only add non-negative terms. */
  lemma {:induction false} SumFilterMonotone<T(!new)>(xs: seq<T>, p: T -> bool, q: T -> bool, f: T -> real)
    requires forall x :: x in xs && p(x) ==> q(x)
    requires forall x :: x in xs ==> f(x) >= 0.0
    ensures Sum(Filter(xs, p), f) <= Sum(Filter(xs, q), f)
    decreases |xs|
  {
    if xs != [] {
      var init := xs[..|xs| - 1];
      var x := xs[|xs| - 1];
      SumFilterMonotone(init, p, q, f);
      if p(x) {
        assert Filter(xs, p) == Filter(init, p) + [x];
        assert Filter(xs, q) == Filter(init, q) + [x];
        SumConcat(Filter(init, p), [x], f);
        SumConcat(Filter(init, q), [x], f);
      } else if q(x) {
        SumConcat(Filter(init, q), [x], f);
      }
    }
  }

  // ----- real arithmetic helpers -----

  lemma DivTimes(s: real, q: real)
    requires q != 0.0
    ensures (s / q) * q == s
  {
  }

  lemma MulCancel(x: real, y: real, a: real)
    requires a > 0.0 && x * a == y * a
    ensures x == y
  {
  }

  lemma ScaleBounds(v: real, q: real, lo: real, hi: real)
    requires q > 0.0 && lo * q <= v * q <= hi * q
    ensures lo <= v <= hi
  {
  }

  lemma ProductSign(v: real, q: real)
    requires q > 0.0
    ensures v > 0.0 <==> v * q > 0.0
    ensures v < 0.0 <==> v * q < 0.0
  {
  }

  /** Multiplying both sides by a positive factor keeps the order. */
  lemma ScaleOrder(a: real, b: real, s: real)
    requires s > 0.0
    ensures a <= b <==> a * s <= b * s
    ensures a < b <==> a * s < b * s
  {
  }

  /** Adding one positive-weight term with a value in `[lo, hi]` keeps a
      weighted sum between `lo` and `hi` times the total weight. */
  lemma WeightedStep(qw: real, sw: real, qi: real, si: real, p: real, q: real, lo: real, hi: real)
    requires q > 0.0 && lo <= p <= hi && qi >= 0.0 && lo * qi <= si <= hi * qi
    requires qw == qi + q && sw == si + p * q
    ensures qw > 0.0
    ensures lo * qw <= sw <= hi * qw
  {
    ScaleOrder(lo, p, q);
    ScaleOrder(p, hi, q);
    assert lo * qw == lo * qi + lo * q;
    assert hi * qw == hi * qi + hi * q;
  }

  /** The pointwise product `x ↦ value(x)·weight(x)`, the summand of a
      weighted sum. */
  function Weighted<T>(value: T -> real, weight: T -> real): T -> real
  {
    x => value(x) * weight(x)
  }

  /** A weighted sum of values in `[lo, hi]` with positive weights lies
      between `lo` and `hi` times the total weight. */
  lemma {:induction false} WeightedSumBounds<T>(w: seq<T>, value: T -> real, weight: T -> real, product: T -> real,
                                                lo: real, hi: real)
    requires w != []
    requires forall i :: 0 <= i < |w| ==> weight(w[i]) > 0.0 && lo <= value(w[i]) <= hi
    requires forall i :: 0 <= i < |w| ==> product(w[i]) == value(w[i]) * weight(w[i])
    ensures Sum(w, weight) > 0.0
    ensures lo * Sum(w, weight) <= Sum(w, product) <= hi * Sum(w, weight)
    decreases |w|
  {
    var init := w[..|w| - 1];
    var e := w[|w| - 1];
    var qi := Sum(init, weight);
    var si := Sum(init, product);
    if init == [] {
      assert qi == 0.0 && si == 0.0;
    } else {
      assert forall i :: 0 <= i < |init| ==> init[i] == w[i];
      WeightedSumBounds(init, value, weight, product, lo, hi);
    }
    var qw := Sum(w, weight);
    var sw := Sum(w, product);
    assert qw == qi + weight(e);
    assert sw == si + product(e);
    assert product(e) == value(e) * weight(e);
    WeightedStep(qw, sw, qi, si, value(e), weight(e), lo, hi);
  }

  /** The bounds of `WeightedSumBounds` for the summand `Weighted(value, weight)`;
      the total weight and the weighted sum are returned as `q` and `s`. */
  lemma WeightedAverageBounds<T>(w: seq<T>, value: T -> real, weight: T -> real, lo: real, hi: real)
      returns (q: real, s: real)
    requires w != []
    requires forall i :: 0 <= i < |w| ==> weight(w[i]) > 0.0 && lo <= value(w[i]) <= hi
    ensures q == Sum(w, weight) && s == Sum(w, Weighted(value, weight))
    ensures q > 0.0 && lo * q <= s <= hi * q
  {
    q, s := Sum(w, weight), Sum(w, Weighted(value, weight));
    var product := Weighted(value, weight);
    forall i | 0 <= i < |w|
      ensures product(w[i]) == value(w[i]) * weight(w[i])
    {
    }
    WeightedSumBounds(w, value, weight, product, lo, hi);
  }

  /** A weighted mean of values in `[lo, hi]` with positive weights lies in
      `[lo, hi]` too. */
  lemma WeightedMeanBounds<T>(w: seq<T>, value: T -> real, weight: T -> real, lo: real, hi: real)
    requires w != []
    requires forall i :: 0 <= i < |w| ==> weight(w[i]) > 0.0 && lo <= value(w[i]) <= hi
    ensures Sum(w, weight) > 0.0
    ensures lo <= Sum(w, Weighted(value, weight)) / Sum(w, weight) <= hi
  {
    var q, s := WeightedAverageBounds(w, value, weight, lo, hi);
    QuotientBounds(q, s, lo, hi);
  }

  /** A quotient `s / q` with `q > 0` and `lo·q <= s <= hi·q` lies in
      `[lo, hi]`. */
  lemma QuotientBounds(q: real, s: real, lo: real, hi: real)
    requires q > 0.0 && lo * q <= s <= hi * q
    ensures lo <= s / q <= hi
  {
    ScaleBounds(s / q, q, lo, hi);
  }

  /** Lower-casing and upper-casing of ASCII letters (other characters are kept). */
  function LowerChar(c: char): char
  {
    if 'A' <= c <= 'Z' then (c as int + 32) as char else c
  }

  function UpperChar(c: char): char
  {
    if 'a' <= c <= 'z' then (c as int - 32) as char else c
  }

  function Lower(s: string): (r: string)
    ensures |r| == |s|
    ensures forall i :: 0 <= i < |s| ==> r[i] == LowerChar(s[i])
  {
    seq(|s|, i requires 0 <= i < |s| => LowerChar(s[i]))
  }

  function Upper(s: string): (r: string)
    ensures |r| == |s|
    ensures forall i :: 0 <= i < |s| ==> r[i] == UpperChar(s[i])
  {
    seq(|s|, i requires 0 <= i < |s| => UpperChar(s[i]))
  }

  /** Upper-casing forgets a preceding lower-casing. */
  lemma UpperOfLower(s: string)
    ensures Upper(Lower(s)) == Upper(s)
  {
  }

  /** Python's `sub in s` on strings. */
  function Contains(s: string, sub: string): (r: bool)
    ensures r <==> exists i :: OccursAt(s, sub, i)
    decreases |s|
  {
    if |s| < |sub| then false
    else if s[..|sub|] == sub then
      assert OccursAt(s, sub, 0);
      true
    else
      var rest := Contains(s[1..], sub);
      ShiftOccurs(s, sub);
      rest
  }

  /** `sub` occurs at position `i` of `s`. */
  predicate OccursAt(s: string, sub: string, i: int)
  {
    0 <= i <= |s| - |sub| && s[i..i + |sub|] == sub
  }

  /** One differing character rules an occurrence out. */
  lemma MismatchNotOccurs(s: string, sub: string, i: int, k: int)
    requires 0 <= k < |sub| && 0 <= i + k < |s| && s[i + k] != sub[k]
    ensures !OccursAt(s, sub, i)
  {
    if 0 <= i <= |s| - |sub| {
      assert s[i..i + |sub|][k] == s[i + k];
    }
  }

  lemma ShiftOccurs(s: string, sub: string)
    requires |s| >= |sub| && s[..|sub|] != sub
    ensures (exists i :: OccursAt(s, sub, i)) <==> exists i :: OccursAt(s[1..], sub, i)
  {
    if i :| OccursAt(s, sub, i) {
      assert i != 0;
      assert s[1..][i - 1..i - 1 + |sub|] == s[i..i + |sub|];
      assert OccursAt(s[1..], sub, i - 1);
    }
    if i :| OccursAt(s[1..], sub, i) {
      assert s[1..][i..i + |sub|] == s[i + 1..i + 1 + |sub|];
      assert OccursAt(s, sub, i + 1);
    }
  }

  /** Python's `sep.join(parts)`. */
  function Join(parts: seq<string>, sep: string): string
    decreases |parts|
  {
    if parts == [] then ""
    else if |parts| == 1 then parts[0]
    else parts[0] + sep + Join(parts[1..], sep)
  }
}

=== FILE: bots.dfy ===
/** The two position state machines fed by the pipeline's callback:
    `TradingBot` (main.py), which re-checks the stream price against the REST
    ticker before entering, and `TradingBotV2` (main_v2.py), which enters
    unconditionally. Both enter on an extreme book imbalance, never on a
    trade, and leave on a reversal of imbalance or momentum. The REST ticker
    reply fetched on an entry attempt is an input. Order execution is not
    part of either bot. */
module Bots {
  import opened Base
  import opened Records
  import Normalizer
  import MarketState
  import SignalEngine
  import Reconciliation
  import Pipeline
  import Validator

  type Signal = SignalEngine.Signal

  type Fetch = Reconciliation.Fetch

  /** `current_position`: `None`, `"LONG"` or `"SHORT"`. The type admits
      nothing else. */
  type Position = Option<Signal>

  /** A book with more than 70% of its volume on one side is an entry signal. */
  const EntryImbalance: real := 0.7

  /** A held position leaves when the imbalance passes 30% the other way... */
  const ExitImbalance: real := 0.3

  /** ...or the 5-second momentum passes 0.2% the other way. */
  const ExitMomentum: real := 0.002

  function Opposite(s: Signal): Signal
  {
    match s
    case Long => SignalEngine.Short
    case Short => SignalEngine.Long
  }

  /** The state with book imbalance and momentum reflected. */
  function Mirror(st: MarketState.MarketState): MarketState.MarketState
  {
    st.(bidAskImbalance := -st.bidAskImbalance, priceMomentum := -st.priceMomentum)
  }

  /** `_check_orderbook_signal`: both bounds strict. */
  function OrderbookSignal(imbalance: real): (r: Option<Signal>)
    ensures r == Some(SignalEngine.Long) <==> imbalance > EntryImbalance
    ensures r == Some(SignalEngine.Short) <==> imbalance < -EntryImbalance
    ensures r.None? <==> -EntryImbalance <= imbalance <= EntryImbalance
  {
    if imbalance > EntryImbalance then Some(SignalEngine.Long)
    else if imbalance < -EntryImbalance then Some(SignalEngine.Short)
    else None
  }

  /** `_check_exit_signal`: a held position either stays or is closed, and
      it is closed exactly when imbalance or momentum has turned against it. */
  function ExitCheck(pos: Position, st: MarketState.MarketState): (r: Position)
    ensures r.None? || r == pos
    ensures pos.None? ==> r.None?
    ensures pos == Some(SignalEngine.Long) ==>
              (r.None? <==> st.bidAskImbalance < -ExitImbalance || st.priceMomentum < -ExitMomentum)
    ensures pos == Some(SignalEngine.Short) ==>
              (r.None? <==> st.bidAskImbalance > ExitImbalance || st.priceMomentum > ExitMomentum)
  {
    match pos
    case None => None
    case Some(Long) =>
      if st.bidAskImbalance < -0.3 then None
      else if st.priceMomentum < -0.002 then None
      else pos
    case Some(Short) =>
      if st.bidAskImbalance > 0.3 then None
      else if st.priceMomentum > 0.002 then None
      else pos
  }

  /** `_to_legacy_trade`: the record the signal engine expects, rebuilt from
      a normalized trade. `str(float)` converts back to the same number. */
  function ToLegacyTrade(nt: Normalizer.NormalizedTrade): (t: Trade)
    ensures t.eventType == "aggTrade" && t.symbol == nt.symbol && t.isBuyerMaker == nt.isBuyerMaker
    ensures t.eventTime == nt.timestamp && t.tradeTime == nt.timestamp && t.aggregateTradeId == nt.tradeId
    ensures t.firstTradeId == 0 && t.lastTradeId == 0
    ensures ParseNum(t.price) == Some(nt.price) && ParseNum(t.quantity) == Some(nt.quantity)
  {
    Trade("aggTrade", nt.timestamp, nt.symbol, nt.tradeId, Text(Some(nt.price)), Text(Some(nt.quantity)),
          0, 0, nt.timestamp, nt.isBuyerMaker)
  }

  /** The entry decision and exit check that follow the signal in
      `on_state_update`. `entry` is what `_handle_entry_signal` makes of the
      signal, consulted only when a signal arrives while flat; when it raises,
      the exit check is skipped. */
  function Decide(pos: Position, sig: Option<Signal>, st: MarketState.MarketState,
                  entry: (Position, Option<Fault>)): (r: (Position, Option<Fault>))
    ensures pos.Some? || sig.None? ==> r == (ExitCheck(pos, st), None)
    ensures pos.None? && sig.Some? ==> r.1 == entry.1
    ensures pos.None? && sig.Some? && entry.1.None? ==> r.0 == ExitCheck(entry.0, st)
    ensures pos.None? && sig.Some? && entry.1.Some? ==> r.0.None?
  {
    if sig.Some? && pos.None? then
      if entry.1.Some? then (pos, entry.1) else (ExitCheck(entry.0, st), None)
    else (ExitCheck(pos, st), None)
  }

  // ----- TradingBot (main.py) -----

  datatype Bot = Bot(
    engine: SignalEngine.Engine,
    reconciler: Reconciliation.Reconciler,
    position: Position)

  /** `TradingBot(symbol)` without its pipeline: the default signal engine,
      a reconciler checking every 60 seconds, no position. */
  function New(symbol: Option<string>): (b: Bot)
    ensures b.position.None? && b.engine == SignalEngine.New()
    ensures b.reconciler == Reconciliation.New(Pipeline.SymbolOr(symbol), 60)
  {
    Bot(SignalEngine.New(), Reconciliation.New(Pipeline.SymbolOr(symbol), 60), None)
  }

  /** `_handle_entry_signal` as written: an accepted price enters; a
      rejected one logs the REST price with a number format, which raises
      when there was no reply and so no REST price. A zero REST price, or a
      reply whose price is not a number, raises inside the verification. */
  function EntryAsWritten(sig: Signal, fetched: Fetch, wsPrice: real): (r: (Position, Option<Fault>))
    ensures r.0.Some? ==> r.0 == Some(sig) && r.1.None?
    ensures fetched.NoReply? ==> r == (None, Some(FormatNone))
    ensures fetched.Reply? ==> r == Entry(sig, fetched, wsPrice)
  {
    match Reconciliation.VerifyBeforeOrder(fetched, wsPrice)
    case Err(f) => (None, Some(f))
    case Ok(v) =>
      if v.valid then (Some(sig), None)
      else if v.restPrice.None? then (None, Some(FormatNone))
      else (None, None)
  }

  /** `_handle_entry_signal` as intended: a rejection, with or without a
      REST price, cancels the entry quietly. The verification's own errors
      (a reply price that is not a number, or zero) still raise. */
  function Entry(sig: Signal, fetched: Fetch, wsPrice: real): (r: (Position, Option<Fault>))
    ensures r.1.Some? <==> fetched == Reconciliation.Reply(None) || fetched == Reconciliation.Reply(Some(0.0))
    ensures fetched == Reconciliation.Reply(None) ==> r.1 == Some(ConversionFailed)
    ensures fetched == Reconciliation.Reply(Some(0.0)) ==> r.1 == Some(ZeroDivision)
    ensures r.0.Some? ==> r.0 == Some(sig)
    ensures r.0.Some? <==>
              && fetched.Reply? && fetched.lastPrice.Some? && fetched.lastPrice.value != 0.0
              && (fetched.lastPrice.value < 0.0 ||
                  Abs(fetched.lastPrice.value - wsPrice) <= Reconciliation.OrderTolerance * fetched.lastPrice.value)
  {
    match Reconciliation.VerifyBeforeOrder(fetched, wsPrice)
    case Err(f) => (None, Some(f))
    case Ok(v) => if v.valid then (Some(sig), None) else (None, None)
  }

  /** What happens before the entry decision: a trade records the stream
      price and feeds the signal engine (which never signals), a book yields
      the imbalance signal. */
  function Observe(b: Bot, d: Pipeline.Delivery): (r: (Bot, Result<Option<Signal>, Fault>))
    ensures r.0.position == b.position
    ensures d.BookUpdate? ==> r == (b, Ok(OrderbookSignal(d.book.imbalance)))
    ensures d.TradeUpdate? ==>
              && r.0.reconciler == Reconciliation.UpdateWsPrice(b.reconciler, d.trade.price)
              && r.1 == Ok(None)
  {
    match d
    case TradeUpdate(nt, _) =>
      var rec := Reconciliation.UpdateWsPrice(b.reconciler, nt.price);
      (match SignalEngine.UpdateTrade(b.engine, ToLegacyTrade(nt))
       case Err(f) => (b.(reconciler := rec), Err(f))
       case Ok(e1) => (b.(engine := e1, reconciler := rec), Ok(None)))
    case BookUpdate(nb, _) => (b, Ok(OrderbookSignal(nb.imbalance)))
  }

  /** `on_state_update` as written: the bot after the call and the
      exception it raised, if any. It differs from the corrected callback
      only on an entry signal met by no reply, where it raises from the
      formatting and leaves the bot as it was. */
  function OnStateUpdateAsWritten(b: Bot, d: Pipeline.Delivery, fetched: Fetch): (r: (Bot, Option<Fault>))
    ensures r.0.(position := b.position) == Observe(b, d).0
    ensures fetched.NoReply? && b.position.None? && d.BookUpdate? && OrderbookSignal(d.book.imbalance).Some? ==>
              r == (b, Some(FormatNone))
    ensures !(fetched.NoReply? && b.position.None? && d.BookUpdate? && OrderbookSignal(d.book.imbalance).Some?) ==>
              r == OnStateUpdate(b, d, fetched)
  {
    var (b1, s) := Observe(b, d);
    match s
    case Err(f) => (b1, Some(f))
    case Ok(sig) =>
      var (pos, f) := Decide(b1.position, sig, d.state,
                             if sig.Some? then EntryAsWritten(sig.value, fetched, d.state.lastPrice) else (None, None));
      (b1.(position := pos), f)
  }

  /** `on_state_update` with the corrected entry: it raises only on a book
      whose entry check meets a zero or non-numeric REST price; a trade
      never opens a position; a book opens one only when the signal is
      confirmed by the REST price. */
  function OnStateUpdate(b: Bot, d: Pipeline.Delivery, fetched: Fetch): (r: (Bot, Option<Fault>))
    ensures r.0.(position := b.position) == Observe(b, d).0
    ensures r.1.Some? ==>
              && d.BookUpdate?
              && (|| (r.1 == Some(ZeroDivision) && fetched == Reconciliation.Reply(Some(0.0)))
                  || (r.1 == Some(ConversionFailed) && fetched == Reconciliation.Reply(None)))
    ensures b.position.None? && d.TradeUpdate? ==> r.0.position.None?
    ensures b.position.None? && r.0.position.Some? ==>
              && d.BookUpdate? && r.0.position == OrderbookSignal(d.book.imbalance)
              && Entry(r.0.position.value, fetched, d.state.lastPrice).0.Some?
    ensures b.position.Some? ==> r.0.position == ExitCheck(b.position, d.state)
  {
    var (b1, s) := Observe(b, d);
    match s
    case Err(f) => (b1, Some(f))
    case Ok(sig) =>
      var (pos, f) := Decide(b1.position, sig, d.state,
                             if sig.Some? then Entry(sig.value, fetched, d.state.lastPrice) else (None, None));
      (b1.(position := pos), f)
  }

  // ----- TradingBotV2 (main_v2.py) -----

  datatype BotV2 = BotV2(engine: SignalEngine.Engine, position: Position)

  function NewV2(): (b: BotV2)
    ensures b.position.None? && b.engine == SignalEngine.New()
  {
    BotV2(SignalEngine.New(), None)
  }

  /** `TradingBotV2.on_state_update`: the same signals and exit rule, and an
      entry that needs no confirmation. */
  function OnStateUpdateV2(b: BotV2, d: Pipeline.Delivery): (r: (BotV2, Option<Fault>))
    ensures r.1.None?
    ensures b.position.None? && d.TradeUpdate? ==> r.0.position.None?
    ensures b.position.None? && d.BookUpdate? ==>
              r.0.position == ExitCheck(OrderbookSignal(d.book.imbalance), d.state)
    ensures b.position.Some? ==> r.0.position == ExitCheck(b.position, d.state)
  {
    match d
    case TradeUpdate(nt, st) =>
      (match SignalEngine.UpdateTrade(b.engine, ToLegacyTrade(nt))
       case Err(f) => (b, Some(f))
       case Ok(e1) =>
         var (pos, f) := Decide(b.position, None, st, (None, None));
         (b.(engine := e1, position := pos), f))
    case BookUpdate(nb, st) =>
      var sig := OrderbookSignal(nb.imbalance);
      var (pos, f) := Decide(b.position, sig, st, if sig.Some? then (sig, None) else (None, None));
      (b.(position := pos), f)
  }

  // ----- the pipeline with a bot attached -----

  datatype System = System(pipeline: Pipeline.Pipeline, bot: Bot)

  /** One message through the pipeline and, when it is delivered, through
      the bot's callback; the callback's exception only skips the processed
      counter. */
  function Step(s: System, m: Pipeline.Message, victim: int, nowMs: real, fetched: Fetch): (r: System)
    requires Pipeline.Inv(s.pipeline)
    ensures Pipeline.Inv(r.pipeline)
  {
    var (p1, d) := Pipeline.Process(s.pipeline, m, victim, nowMs);
    Pipeline.StepKeepsInv(s.pipeline, m, victim, nowMs,
                          d.Some? && OnStateUpdate(s.bot, d.value, fetched).1.Some?);
    match d
    case None => System(p1, s.bot)
    case Some(del) =>
      var (b1, f) := OnStateUpdate(s.bot, del, fetched);
      System(Pipeline.Settle(p1, d, f.Some?), b1)
  }

  function StepAsWritten(s: System, m: Pipeline.Message, victim: int, nowMs: real, fetched: Fetch): (r: System)
    requires Pipeline.Inv(s.pipeline)
    ensures Pipeline.Inv(r.pipeline)
  {
    var (p1, d) := Pipeline.Process(s.pipeline, m, victim, nowMs);
    Pipeline.StepKeepsInv(s.pipeline, m, victim, nowMs,
                          d.Some? && OnStateUpdateAsWritten(s.bot, d.value, fetched).1.Some?);
    match d
    case None => System(p1, s.bot)
    case Some(del) =>
      var (b1, f) := OnStateUpdateAsWritten(s.bot, del, fetched);
      System(Pipeline.Settle(p1, d, f.Some?), b1)
  }

  // ----- properties -----

  /** The rules are symmetric: reflecting imbalance swaps the entry signal,
      and reflecting the state swaps which side exits. */
  lemma RulesAreSymmetric(imbalance: real, pos: Signal, st: MarketState.MarketState)
    ensures OrderbookSignal(-imbalance) == if imbalance > EntryImbalance then Some(SignalEngine.Short)
                                          else if imbalance < -EntryImbalance then Some(SignalEngine.Long)
                                          else None
    ensures ExitCheck(Some(pos), st).None? <==> ExitCheck(Some(Opposite(pos)), Mirror(st)).None?
  {
  }

  /** A position is never reversed in one step: a held side either stays
      or goes flat, whichever bot and whatever the delivery. */
  lemma NoDirectReversal(b: Bot, b2: BotV2, d: Pipeline.Delivery, fetched: Fetch)
    requires b.position.Some? && b2.position.Some?
    ensures OnStateUpdate(b, d, fetched).0.position in {b.position, None}
    ensures OnStateUpdateAsWritten(b, d, fetched).0.position in {b.position, None}
    ensures OnStateUpdateV2(b2, d).0.position in {b2.position, None}
  {
  }

  /** A position entered on a book whose imbalance the state also reports
      survives its own callback unless momentum is already against it: the
      imbalance that triggered the entry cannot also trigger the exit. */
  lemma EntryExitsOnlyOnMomentum(b: Bot, d: Pipeline.Delivery, fetched: Fetch)
    requires b.position.None? && d.BookUpdate? && d.state.bidAskImbalance == d.book.imbalance
    requires OrderbookSignal(d.book.imbalance).Some?
    requires Entry(OrderbookSignal(d.book.imbalance).value, fetched, d.state.lastPrice).0.Some?
    ensures OnStateUpdate(b, d, fetched).0.position.None? <==>
              if d.book.imbalance > 0.0 then d.state.priceMomentum < -ExitMomentum
              else d.state.priceMomentum > ExitMomentum
  {
  }

  /** The verification gate only removes entries: whenever the first bot
      enters, the second, in the same position and on the same delivery,
      enters the same side. */
  lemma GateOnlyRemovesEntries(b: Bot, b2: BotV2, d: Pipeline.Delivery, fetched: Fetch)
    requires b.position.None? && b2.position.None?
    requires OnStateUpdate(b, d, fetched).0.position.Some?
    ensures OnStateUpdateV2(b2, d).0.position == OnStateUpdate(b, d, fetched).0.position
  {
  }

  /** The legacy record converts back to the normalized trade's figures. */
  lemma LegacyRoundTrip(n: Normalizer.Normalizer, nt: Normalizer.NormalizedTrade)
    ensures Normalizer.NormalizeTrade(n, ToLegacyTrade(nt)).Some?
    ensures var nt2 := Normalizer.NormalizeTrade(n, ToLegacyTrade(nt)).value.1;
      && nt2.price == nt.price && nt2.quantity == nt.quantity && nt2.timestamp == nt.timestamp
      && nt2.tradeId == nt.tradeId && nt2.symbol == nt.symbol && nt2.isBuyerMaker == nt.isBuyerMaker
      && (nt2.side == Normalizer.Sell <==> nt.isBuyerMaker)
  {
  }

  /** No REST reply on an entry signal: as written the callback
      raises while formatting the missing REST price, and the book is not
      counted as processed; corrected, the entry is cancelled and the book
      counted. */
  lemma FetchFailureAsWritten(b: Bot, nb: Normalizer.NormalizedOrderBook, st: MarketState.MarketState)
    requires b.position.None? && nb.imbalance > EntryImbalance
    ensures OnStateUpdateAsWritten(b, Pipeline.BookUpdate(nb, st), Reconciliation.NoReply) == (b, Some(FormatNone))
    ensures OnStateUpdate(b, Pipeline.BookUpdate(nb, st), Reconciliation.NoReply) == (b, None)
  {
  }

  /** The same at the level of the whole pipeline: an accepted, extreme
      book met by no reply is lost from the processed count as
      written, and counted once corrected. */
  lemma FetchFailureSkipsCount(s: System, book: OrderBook, nowMs: real)
    requires Pipeline.Inv(s.pipeline) && s.bot.position.None?
    requires Validator.AcceptableBook(s.pipeline.validator, book)
    requires 1 <= s.pipeline.normalizer.orderbookDepth <= Validator.CheckedLevels
    requires Normalizer.NormalizeOrderbook(s.pipeline.normalizer, book).Some?
    requires Normalizer.NormalizeOrderbook(s.pipeline.normalizer, book).value.imbalance > EntryImbalance
    ensures StepAsWritten(s, Pipeline.BookMsg(book), 0, nowMs, Reconciliation.NoReply).pipeline.processedOrderbooks
              == s.pipeline.processedOrderbooks
    ensures Step(s, Pipeline.BookMsg(book), 0, nowMs, Reconciliation.NoReply).pipeline.processedOrderbooks
              == s.pipeline.processedOrderbooks + 1
    ensures Step(s, Pipeline.BookMsg(book), 0, nowMs, Reconciliation.NoReply).bot == s.bot
  {
    Pipeline.AcceptedBookDelivered(s.pipeline, book, nowMs);
  }
}

=== FILE: connector.dfy ===
/** The stream connection manager (data_collector/websocket_connector.py):
    connection state, exponential backoff with a reconnect budget, the
    stale-stream and lifetime triggers, the combined-stream URL and the
    routing of incoming frames by stream name. The socket is abstract: each
    connect attempt's outcome, each receive's outcome and the wall-clock
    time (seconds) are inputs. */
module Connector {
  import opened Base
  import Settings

  datatype ConnectionState = Disconnected | Connecting | Connected | Reconnecting | Failed

  /** What `_process_message` delivers to the callback. */
  datatype Route = ToOrderbook | ToTrade

  /** A received text frame: one `json.loads` rejects, or an envelope whose
      `"stream"` and `"data"` keys may be absent. */
  datatype Frame =
    | Garbled
    | Envelope(stream: Option<string>, data: Option<Payload>)

  /** The raw record under `"data"`: whether the field-copying parser
      accepts it, and whether the callback raises while handling it. */
  datatype Payload = Payload(parses: bool, handlerRaises: bool)

  /** One wait on the socket inside the receive loop. */
  datatype Incoming = TimedOut | Closed | Received(frame: Frame)

  /** Stale-stream threshold of the health check, seconds. */
  const StaleAfterSec: real := 60.0

  /** Lifetime after which the receive loop renews the connection, hours. */
  const LifetimeHours: real := 23.5

  const UrlPrefix: string := "wss://fstream.binance.com/stream?streams="

  datatype Connector = Connector(
    symbols: seq<string>,
    streams: seq<string>,
    maxReconnectAttempts: int,
    initialBackoff: real,
    maxBackoff: real,
    currentBackoff: real,
    reconnectCount: int,
    pingInterval: real,
    pingTimeout: real,
    lastMessageTime: real,
    state: ConnectionState,
    running: bool,
    startTime: real,
    tradeCount: nat,
    orderbookCount: nat,
    totalMessages: nat,
    errorCount: nat,
    url: string)

  // ----- construction -----

  /** `x or default` for an optional number: `None` and zero fall back. */
  function OrInt(x: Option<int>, default: int): (r: int)
    ensures r == (if x.None? || x.value == 0 then default else x.value)
  {
    match x
    case Some(v) => if v == 0 then default else v
    case None => default
  }

  /** `x or default` for an optional real. */
  function OrReal(x: Option<real>, default: real): (r: real)
    ensures r == (if x.None? || x.value == 0.0 then default else x.value)
  {
    match x
    case Some(v) => if v == 0.0 then default else v
    case None => default
  }

  /** `x or default` for a collection: `None` and the empty one fall back. */
  function OrSeq(x: Option<seq<string>>, default: seq<string>): (r: seq<string>)
    ensures r == (if x.None? || x.value == [] then default else x.value)
  {
    match x
    case Some(v) => if v == [] then default else v
    case None => default
  }

  /** `"{symbol}@{stream}"` for each stream. */
  function Pairs(symbol: string, streams: seq<string>): (r: seq<string>)
    ensures |r| == |streams|
    ensures forall j :: 0 <= j < |streams| ==> r[j] == symbol + "@" + streams[j]
  {
    seq(|streams|, j requires 0 <= j < |streams| => symbol + "@" + streams[j])
  }

  /** The stream names of `_build_url`, symbol-major. */
  function StreamNames(symbols: seq<string>, streams: seq<string>): seq<string>
    decreases |symbols|
  {
    if symbols == [] then [] else Pairs(symbols[0], streams) + StreamNames(symbols[1..], streams)
  }

  /** `_build_url`: the combined-stream prefix, then the stream names
      joined by `/`; one symbol and one stream give a single name. */
  function BuildUrl(symbols: seq<string>, streams: seq<string>): (r: string)
    ensures |r| >= |UrlPrefix| && r[..|UrlPrefix|] == UrlPrefix
    ensures r[|UrlPrefix|..] == Join(StreamNames(symbols, streams), "/")
    ensures |symbols| == 1 && |streams| == 1 ==> r == UrlPrefix + symbols[0] + "@" + streams[0]
  {
    UrlPrefix + Join(StreamNames(symbols, streams), "/")
  }

  /** `WebSocketConnector(...)`: every argument left out, or passed as zero
      or empty, takes its configured default; the connector starts
      disconnected and stopped, with zero counters. */
  function New(symbols: Option<seq<string>>, streams: Option<seq<string>>, maxReconnectAttempts: Option<int>,
               initialBackoff: Option<real>, maxBackoff: Option<real>, pingInterval: Option<real>,
               pingTimeout: Option<real>, cfg: Settings.DataConfig): (c: Connector)
    ensures c.symbols == OrSeq(symbols, ["btcusdt"]) && c.streams == OrSeq(streams, cfg.defaultStreams)
    ensures c.maxReconnectAttempts == OrInt(maxReconnectAttempts, cfg.wsReconnectMaxAttempts)
    ensures c.initialBackoff == OrReal(initialBackoff, cfg.wsInitialBackoffSec)
    ensures c.maxBackoff == OrReal(maxBackoff, cfg.wsMaxBackoffSec)
    ensures c.currentBackoff == c.initialBackoff && c.reconnectCount == 0
    ensures c.pingInterval == OrReal(pingInterval, cfg.wsPingIntervalSec)
    ensures c.pingTimeout == OrReal(pingTimeout, cfg.wsPingTimeoutSec)
    ensures c.state == Disconnected && !c.running
    ensures c.tradeCount == 0 && c.orderbookCount == 0 && c.totalMessages == 0 && c.errorCount == 0
    ensures c.url == BuildUrl(c.symbols, c.streams)
  {
    var syms := OrSeq(symbols, ["btcusdt"]);
    var strs := OrSeq(streams, cfg.defaultStreams);
    var initial := OrReal(initialBackoff, cfg.wsInitialBackoffSec);
    Connector(syms, strs, OrInt(maxReconnectAttempts, cfg.wsReconnectMaxAttempts), initial,
              OrReal(maxBackoff, cfg.wsMaxBackoffSec), initial, 0,
              OrReal(pingInterval, cfg.wsPingIntervalSec), OrReal(pingTimeout, cfg.wsPingTimeoutSec),
              0.0, Disconnected, false, 0.0, 0, 0, 0, 0, BuildUrl(syms, strs))
  }

  /** Backoff within its range, a reconnect count within the budget (or 0
      when the budget is not positive), a connected state only with the
      backoff and count reset, and at most one routed record per message. */
  ghost predicate Inv(c: Connector)
  {
    && 0.0 <= c.initialBackoff <= c.currentBackoff <= c.maxBackoff
    && 0 <= c.reconnectCount
    && (c.reconnectCount <= c.maxReconnectAttempts || c.reconnectCount == 0)
    && (c.state == Connected ==> c.reconnectCount == 0 && c.currentBackoff == c.initialBackoff)
    && c.tradeCount + c.orderbookCount <= c.totalMessages
  }

  // ----- connection state machine -----

  /** `_connect` at time `now`, given whether the handshake succeeds:
      success resets the backoff and the reconnect count and restarts the
      clocks; failure leaves FAILED, not DISCONNECTED. */
  function Connect(c: Connector, ok: bool, now: real): (r: Connector)
    ensures ok ==> r.state == Connected && r.currentBackoff == c.initialBackoff && r.reconnectCount == 0
    ensures ok ==> r.startTime == now && r.lastMessageTime == now
    ensures ok ==> r.(state := c.state, currentBackoff := c.currentBackoff, reconnectCount := c.reconnectCount,
                      startTime := c.startTime, lastMessageTime := c.lastMessageTime) == c
    ensures !ok ==> r == c.(state := Failed)
  {
    if ok then
      c.(state := Connected, startTime := now, lastMessageTime := now,
         currentBackoff := c.initialBackoff, reconnectCount := 0)
    else c.(state := Failed)
  }

  /** `_reconnect`: with the budget spent, FAILED and nothing else changes;
      otherwise one more attempt after sleeping `currentBackoff`, the
      backoff doubled up to its maximum, then `_connect`. */
  function Reconnect(c: Connector, ok: bool, now: real): (r: Connector)
    ensures c.reconnectCount >= c.maxReconnectAttempts ==> r == c.(state := Failed)
    ensures c.reconnectCount < c.maxReconnectAttempts && ok ==>
              r == Connect(c, true, now)
    ensures c.reconnectCount < c.maxReconnectAttempts && !ok ==>
              r == c.(state := Failed, reconnectCount := c.reconnectCount + 1,
                      currentBackoff := RMin(2.0 * c.currentBackoff, c.maxBackoff))
  {
    if c.reconnectCount >= c.maxReconnectAttempts then c.(state := Failed)
    else
      var attempt := c.(state := Reconnecting, reconnectCount := c.reconnectCount + 1,
                        currentBackoff := RMin(c.currentBackoff * 2.0, c.maxBackoff));
      Connect(attempt, ok, now)
  }

  /** The health check's trigger: connected and silent for over a minute. */
  predicate Stale(c: Connector, now: real)
  {
    c.state == Connected && now - c.lastMessageTime > StaleAfterSec
  }

  /** The receive loop's trigger: connected for 23.5 hours or more. */
  predicate Expired(c: Connector, now: real)
  {
    c.state == Connected && (now - c.startTime) / 3600.0 >= LifetimeHours
  }

  /** One pass of `_health_check` at time `now`, as written: a stale
      connection triggers a single reconnect. */
  function HealthStep(c: Connector, now: real, ok: bool): (r: Connector)
    ensures !c.running || !Stale(c, now) ==> r == c
    ensures c.running && Stale(c, now) ==> r == Reconnect(c, ok, now)
  {
    if c.running && Stale(c, now) then Reconnect(c, ok, now) else c
  }

  /** Where a stream name routes: `"@depth"` is checked first. */
  function RouteOf(stream: string): (r: Option<Route>)
    ensures r == Some(ToOrderbook) <==> Contains(stream, "@depth")
    ensures r == Some(ToTrade) <==> !Contains(stream, "@depth") && Contains(stream, "@aggTrade")
  {
    if Contains(stream, "@depth") then Some(ToOrderbook)
    else if Contains(stream, "@aggTrade") then Some(ToTrade)
    else None
  }

  /** `_process_message`: the route taken, if the callback was reached.
      An undecodable frame, a parser rejection or a raising callback counts
      one error; an envelope without stream or data, or for an unknown
      stream, is dropped silently; a routed record bumps its counter before
      the callback runs. */
  function ProcessMessage(c: Connector, f: Frame): (r: (Connector, Option<Route>))
    ensures r.0.(tradeCount := c.tradeCount, orderbookCount := c.orderbookCount, errorCount := c.errorCount) == c
    ensures r.1 == Some(ToTrade) <==> r.0.tradeCount == c.tradeCount + 1
    ensures r.1 == Some(ToOrderbook) <==> r.0.orderbookCount == c.orderbookCount + 1
    ensures r.1 != Some(ToTrade) ==> r.0.tradeCount == c.tradeCount
    ensures r.1 != Some(ToOrderbook) ==> r.0.orderbookCount == c.orderbookCount
    ensures r.1.Some? <==> f.Envelope? && f.stream.Some? && f.data.Some? && RouteOf(f.stream.value).Some?
                           && f.data.value.parses
    ensures r.1.Some? ==> r.1 == RouteOf(f.stream.value)
    ensures r.0.errorCount == c.errorCount + 1 <==>
              f.Garbled? || (f.stream.Some? && f.data.Some? && RouteOf(f.stream.value).Some?
                             && (!f.data.value.parses || f.data.value.handlerRaises))
    ensures r.0.errorCount == c.errorCount || r.0.errorCount == c.errorCount + 1
  {
    match f
    case Garbled => (c.(errorCount := c.errorCount + 1), None)
    case Envelope(stream, data) =>
      if stream.None? || data.None? then (c, None)
      else match RouteOf(stream.value)
        case None => (c, None)
        case Some(route) =>
          var p := data.value;
          if !p.parses then (c.(errorCount := c.errorCount + 1), None)
          else
            var counted := if route == ToOrderbook then c.(orderbookCount := c.orderbookCount + 1)
                           else c.(tradeCount := c.tradeCount + 1);
            (if p.handlerRaises then counted.(errorCount := c.errorCount + 1) else counted, Some(route))
  }

  /** One pass of `_receive_messages` at time `now`, as written: nothing
      unless connected; an expired or closed connection triggers a single
      reconnect; a received frame refreshes the message clock and is
      processed; a receive that times out changes nothing. */
  function ReceiveStep(c: Connector, now: real, inc: Incoming, ok: bool): (r: (Connector, Option<Route>))
    ensures !c.running || c.state != Connected ==> r == (c, None)
    ensures c.running && Expired(c, now) ==> r == (Reconnect(c, ok, now), None)
    ensures c.running && c.state == Connected && !Expired(c, now) && inc.Received? ==>
              r == ProcessMessage(c.(lastMessageTime := now, totalMessages := c.totalMessages + 1), inc.frame)
    ensures c.running && c.state == Connected && !Expired(c, now) && inc.Closed? ==>
              r == (Reconnect(c, ok, now), None)
    ensures c.running && c.state == Connected && !Expired(c, now) && inc.TimedOut? ==> r == (c, None)
    ensures inc.TimedOut? ==> r.0 == c || r.0 == Reconnect(c, ok, now)
  {
    if !c.running || c.state != Connected then (c, None)
    else if Expired(c, now) then (Reconnect(c, ok, now), None)
    else match inc
      case TimedOut => (c, None)
      case Closed => (Reconnect(c, ok, now), None)
      case Received(f) => ProcessMessage(c.(lastMessageTime := now, totalMessages := c.totalMessages + 1), f)
  }

  /** `start`'s initial connection. */
  function Start(c: Connector, ok: bool, now: real): (r: Connector)
    ensures r.running && (r.state == Connected <==> ok)
    ensures r == Connect(c.(running := true), ok, now)
  {
    Connect(c.(running := true), ok, now)
  }

  /** `stop`: stopped and disconnected, counters kept. */
  function Stop(c: Connector): (r: Connector)
    ensures !r.running && r.state == Disconnected
    ensures r.(running := c.running, state := c.state) == c
  {
    c.(running := false, state := Disconnected)
  }

  /** `get_stats` at time `now`. */
  datatype Stats = Stats(
    state: ConnectionState,
    totalMessages: nat,
    tradeCount: nat,
    orderbookCount: nat,
    errorCount: nat,
    reconnectCount: int,
    uptimeSeconds: real,
    lastMessageAge: real)

  /** The counters as they stand, and the time since the connection was
      opened and since the last frame; each is 0 while its clock is unset. */
  function GetStats(c: Connector, now: real): (s: Stats)
    ensures s.tradeCount == c.tradeCount && s.orderbookCount == c.orderbookCount
    ensures s.totalMessages == c.totalMessages && s.errorCount == c.errorCount
    ensures s.state == c.state && s.reconnectCount == c.reconnectCount
    ensures c.startTime <= 0.0 ==> s.uptimeSeconds == 0.0
    ensures c.startTime > 0.0 ==> c.startTime + s.uptimeSeconds == now
    ensures c.lastMessageTime <= 0.0 ==> s.lastMessageAge == 0.0
    ensures c.lastMessageTime > 0.0 ==> c.lastMessageTime + s.lastMessageAge == now
  {
    Stats(c.state, c.totalMessages, c.tradeCount, c.orderbookCount, c.errorCount, c.reconnectCount,
          if c.startTime > 0.0 then now - c.startTime else 0.0,
          if c.lastMessageTime > 0.0 then now - c.lastMessageTime else 0.0)
  }

  // ----- the reconnect loop the budget was meant for -----

  /** Reconnect repeatedly until connected or the budget is spent, attempt
      `k` (counted from the current reconnect count) succeeding when
      `ok(k)`; also the backoff slept before each attempt. */
  function RetryReconnect(c: Connector, ok: int -> bool, now: real): (r: (Connector, seq<real>))
    ensures r.0.state == Connected <==> exists k :: c.reconnectCount <= k < c.maxReconnectAttempts && ok(k)
    ensures r.0.state != Connected ==> r.0.state == Failed && r.0.reconnectCount == RMax(c.reconnectCount, c.maxReconnectAttempts)
    ensures |r.1| == (if r.0.state == Connected then 1 + Attempt(c, ok) - c.reconnectCount
                      else RMax(0, c.maxReconnectAttempts - c.reconnectCount))
    decreases c.maxReconnectAttempts - c.reconnectCount
  {
    if c.reconnectCount >= c.maxReconnectAttempts then (c.(state := Failed), [])
    else
      var next := Reconnect(c, ok(c.reconnectCount), now);
      if next.state == Connected then (next, [c.currentBackoff])
      else
        var rest := RetryReconnect(next, ok, now);
        (rest.0, [c.currentBackoff] + rest.1)
  }

  /** The number of the first successful attempt from the current count
      on, or the budget when none succeeds. */
  function Attempt(c: Connector, ok: int -> bool): (k: int)
    ensures c.reconnectCount <= c.maxReconnectAttempts ==> c.reconnectCount <= k <= c.maxReconnectAttempts
    ensures k < c.maxReconnectAttempts ==> ok(k)
    ensures forall j :: c.reconnectCount <= j < k && j < c.maxReconnectAttempts ==> !ok(j)
    decreases c.maxReconnectAttempts - c.reconnectCount
  {
    if c.reconnectCount >= c.maxReconnectAttempts then c.reconnectCount
    else if ok(c.reconnectCount) then c.reconnectCount
    else Attempt(c.(reconnectCount := c.reconnectCount + 1), ok)
  }

  /** One pass of the health check with the retry loop. */
  function HealthStepRetrying(c: Connector, now: real, ok: int -> bool): (r: Connector)
    ensures !c.running || !Stale(c, now) ==> r == c
    ensures c.running && Stale(c, now) ==> r == RetryReconnect(c, ok, now).0
  {
    if c.running && Stale(c, now) then RetryReconnect(c, ok, now).0 else c
  }

  // ----- properties -----

  /** Every transition keeps the invariant. */
  lemma ConnectKeepsInv(c: Connector, ok: bool, now: real)
    requires Inv(c)
    ensures Inv(Connect(c, ok, now)) && Inv(Reconnect(c, ok, now))
    ensures Inv(HealthStep(c, now, ok)) && Inv(Stop(c)) && Inv(Start(c, ok, now))
  {
    if c.reconnectCount < c.maxReconnectAttempts && !ok {
      var b := c.currentBackoff;
      assert b <= 2.0 * b;
    }
  }

  lemma ReceiveKeepsInv(c: Connector, now: real, inc: Incoming, ok: bool)
    requires Inv(c)
    ensures Inv(ReceiveStep(c, now, inc, ok).0)
  {
    ConnectKeepsInv(c, ok, now);
  }

  /** A backoff schedule: it starts at `first`, stays within `[first, cap]`,
      each delay after the first is the previous one doubled and capped, and
      it never decreases. */
  predicate DoublingBackoffs(ds: seq<real>, first: real, cap: real)
  {
    && (|ds| > 0 ==> ds[0] == first)
    && (forall i :: 0 <= i < |ds| ==> first <= ds[i] <= cap)
    && (forall i :: 0 < i < |ds| ==> ds[i] == RMin(2.0 * ds[i - 1], cap))
    && (forall i, j :: 0 <= i <= j < |ds| ==> ds[i] <= ds[j])
  }

  /** Putting a delay `b` in front of a schedule that starts at the doubled
      and capped `b` gives a schedule that starts at `b`. */
  lemma ConsBackoff(b: real, rest: seq<real>, cap: real)
    requires 0.0 <= b <= cap
    requires DoublingBackoffs(rest, RMin(2.0 * b, cap), cap)
    ensures DoublingBackoffs([b] + rest, b, cap)
  {
    var ds := [b] + rest;
    forall i | 0 < i < |ds|
      ensures ds[i] == RMin(2.0 * ds[i - 1], cap)
    {
      assert ds[i] == rest[i - 1];
      if i > 1 {
        assert ds[i - 1] == rest[i - 2];
      }
    }
    forall i, j | 0 <= i <= j < |ds|
      ensures ds[i] <= ds[j]
    {
      if j > 0 {
        assert ds[j] == rest[j - 1];
        if i > 0 {
          assert ds[i] == rest[i - 1];
        }
      }
    }
  }

  /** The backoffs slept by the retry loop form a doubling schedule from the
      current backoff up to the maximum, and the loop keeps the invariant. */
  lemma {:induction false} RetryBackoffs(c: Connector, ok: int -> bool, now: real)
    requires Inv(c)
    ensures DoublingBackoffs(RetryReconnect(c, ok, now).1, c.currentBackoff, c.maxBackoff)
    ensures Inv(RetryReconnect(c, ok, now).0)
    decreases c.maxReconnectAttempts - c.reconnectCount
  {
    if c.reconnectCount < c.maxReconnectAttempts {
      var next := Reconnect(c, ok(c.reconnectCount), now);
      ConnectKeepsInv(c, ok(c.reconnectCount), now);
      if next.state != Connected {
        RetryBackoffs(next, ok, now);
        assert next.currentBackoff == RMin(2.0 * c.currentBackoff, c.maxBackoff);
        ConsBackoff(c.currentBackoff, RetryReconnect(next, ok, now).1, c.maxBackoff);
      }
    }
  }

  /** A connector never started reports no uptime; once connected at a
      positive time, the uptime and the message age grow with the clock,
      and the health check fires once the age passes a minute. */
  lemma StatsTrackClock(c: Connector, t0: real, t1: real)
    requires t0 > 0.0 && t1 >= t0
    requires c.startTime == 0.0 && c.lastMessageTime == 0.0
    ensures GetStats(c, t1).uptimeSeconds == 0.0 && GetStats(c, t1).lastMessageAge == 0.0
    ensures GetStats(Start(c, true, t0), t1).uptimeSeconds == t1 - t0
    ensures GetStats(Start(c, true, t0), t1).lastMessageAge == t1 - t0
    ensures Stale(Start(c, true, t0), t1) <==> GetStats(Start(c, true, t0), t1).lastMessageAge > StaleAfterSec
  {
  }

  /** Healthy defaults: an invariant-respecting connector on the single
      lower-case symbol with both default streams. */
  lemma DefaultConnector()
    ensures var c := New(Some(["btcusdt"]), None, None, None, None, None, None, Settings.DefaultData());
            && Inv(c) && c.maxReconnectAttempts == 10
            && c.initialBackoff == 1.0 && c.maxBackoff == 60.0
            && c.url == UrlPrefix + "btcusdt@depth/btcusdt@aggTrade"
  {
    DefaultUrl();
  }

  /** The combined-stream URL for one symbol and the two default streams. */
  lemma DefaultUrl()
    ensures BuildUrl(["btcusdt"], ["depth", "aggTrade"]) == UrlPrefix + "btcusdt@depth/btcusdt@aggTrade"
  {
    DefaultNames();
    var names := ["btcusdt@depth", "btcusdt@aggTrade"];
    assert names[1..] == ["btcusdt@aggTrade"];
    assert Join(names, "/") == "btcusdt@depth" + "/" + "btcusdt@aggTrade";
  }

  /** One symbol with two streams gives two names, stream by stream. */
  lemma DefaultNames()
    ensures StreamNames(["btcusdt"], ["depth", "aggTrade"]) == ["btcusdt@depth", "btcusdt@aggTrade"]
  {
    assert ["btcusdt"][1..] == [];
    var names := Pairs("btcusdt", ["depth", "aggTrade"]);
    assert StreamNames(["btcusdt"], ["depth", "aggTrade"]) == names + [];
    assert names[0] == "btcusdt@depth";
    assert names[1] == "btcusdt@aggTrade";
  }

  /** A zero or missing argument takes the configured default, so a budget
      of 0 attempts cannot be asked for. */
  lemma ZeroMeansDefault(cfg: Settings.DataConfig)
    ensures New(None, Some([]), Some(0), Some(0.0), None, None, None, cfg).maxReconnectAttempts == cfg.wsReconnectMaxAttempts
    ensures New(None, Some([]), Some(0), Some(0.0), None, None, None, cfg).initialBackoff == cfg.wsInitialBackoffSec
    ensures New(None, Some([]), Some(0), Some(0.0), None, None, None, cfg).streams == cfg.defaultStreams
    ensures New(None, Some([]), Some(0), Some(0.0), None, None, None, cfg).symbols == ["btcusdt"]
  {
  }

  /** The URL lists one `symbol@stream` name per pair. */
  lemma {:induction false} StreamNamesLength(symbols: seq<string>, streams: seq<string>)
    ensures |StreamNames(symbols, streams)| == |symbols| * |streams|
    decreases |symbols|
  {
    if symbols != [] {
      StreamNamesLength(symbols[1..], streams);
      MulSucc(|symbols|, |streams|);
    }
  }

  lemma MulSucc(i: int, n: int)
    ensures i * n == n + (i - 1) * n
  {
  }

  /** The names are symbol-major: pair `(i, j)` sits at `i * |streams| + j`. */
  lemma {:induction false} StreamNamesAt(symbols: seq<string>, streams: seq<string>, i: int, j: int)
    requires 0 <= i < |symbols| && 0 <= j < |streams|
    ensures i * |streams| + j < |StreamNames(symbols, streams)|
    ensures StreamNames(symbols, streams)[i * |streams| + j] == symbols[i] + "@" + streams[j]
    decreases i
  {
    var n := |streams|;
    var head := Pairs(symbols[0], streams);
    var rest := StreamNames(symbols[1..], streams);
    assert StreamNames(symbols, streams) == head + rest;
    if i > 0 {
      StreamNamesAt(symbols[1..], streams, i - 1, j);
      MulSucc(i, n);
      assert symbols[1..][i - 1] == symbols[i];
    }
  }

  /** Routing of the two subscribed stream kinds of a symbol (any symbol
      without an `@`); a name mentioning both kinds goes to the order-book
      path. */
  lemma Routing(sym: string)
    requires forall k :: 0 <= k < |sym| ==> sym[k] != '@'
    ensures RouteOf(sym + "@depth") == Some(ToOrderbook)
    ensures RouteOf(sym + "@aggTrade") == Some(ToTrade)
    ensures RouteOf(sym + "@depth@aggTrade") == Some(ToOrderbook)
  {
    assert OccursAt(sym + "@depth", "@depth", |sym|);
    assert OccursAt(sym + "@depth@aggTrade", "@depth", |sym|);
    var s := sym + "@aggTrade";
    assert OccursAt(s, "@aggTrade", |sym|);
    assert "@aggTrade"[1..] == "aggTrade" && '@' !in "aggTrade";
    forall i | 0 <= i <= |s| - 6
      ensures !OccursAt(s, "@depth", i)
    {
      if i < |sym| {
        assert s[i] == sym[i];
        MismatchNotOccurs(s, "@depth", i, 0);
      } else if i > |sym| {
        assert s[i] == "aggTrade"[i - |sym| - 1];
        MismatchNotOccurs(s, "@depth", i, 0);
      } else {
        assert s[i + 1] == 'a';
        MismatchNotOccurs(s, "@depth", i, 1);
      }
    }
  }

  /** As written, a connector that failed to reconnect stays FAILED for
      good: neither loop acts on a state other than CONNECTED. */
  lemma FailedIsFinal(c: Connector, now: real, inc: Incoming, ok: bool)
    requires c.state == Failed
    ensures HealthStep(c, now, ok) == c
    ensures ReceiveStep(c, now, inc, ok) == (c, None)
  {
  }

  /** As written, every reconnect starts from a connected state, so from a
      reset count and the initial backoff: one attempt, after the initial
      delay, and on failure a FAILED connector that used one attempt of its
      budget. */
  lemma SingleAttemptAsWritten(c: Connector, now: real, ok: bool)
    requires Inv(c) && c.running && Stale(c, now) && c.maxReconnectAttempts > 1
    ensures c.currentBackoff == c.initialBackoff && c.reconnectCount == 0
    ensures !ok ==> HealthStep(c, now, ok).state == Failed && HealthStep(c, now, ok).reconnectCount == 1
    ensures !ok ==> HealthStep(c, now, ok).reconnectCount < c.maxReconnectAttempts
  {
  }

  /** With the retry loop, a stale connection whose every attempt fails
      uses the whole budget, and the delays grow from the initial backoff. */
  lemma RetryUsesBudget(c: Connector, now: real)
    requires Inv(c) && c.running && Stale(c, now) && c.maxReconnectAttempts > 1
    ensures var r := RetryReconnect(c, (k: int) => false, now);
            && r.0.state == Failed && r.0.reconnectCount == c.maxReconnectAttempts
            && |r.1| == c.maxReconnectAttempts
            && r.1[0] == c.initialBackoff && r.1[1] == RMin(2.0 * c.initialBackoff, c.maxBackoff)
  {
    RetryBackoffs(c, (k: int) => false, now);
  }
}

=== FILE: hot_storage.dfy ===
/** The in-memory store of normalized records (storage/hot_storage.py): per
    record kind a drop-oldest buffer, a timestamp index with TTL pruning, a
    latest-record pointer and a running count. */
module HotStorage {
  import opened Base
  import opened TimeIndex
  import opened Normalizer

  const DefaultMaxTrades: nat := 10000
  const DefaultMaxOrderbooks: nat := 1000
  const DefaultTtlSeconds: int := 3600

  /** One record kind: `deque(maxlen = cap)`, the `SortedDict` index, the
      latest pointer and the `total_*_stored` counter. */
  datatype Channel<T> = Channel(
    cap: nat,
    buffer: seq<T>,
    index: Index<T>,
    latest: Option<T>,
    stored: nat)

  datatype Store = Store(
    symbol: string,
    ttlSeconds: int,
    trades: Channel<NormalizedTrade>,
    orderbooks: Channel<NormalizedOrderBook>)

  ghost predicate ChannelInv<T>(c: Channel<T>)
  {
    && Sorted(c.index)
    && |c.buffer| <= c.cap
    && |c.buffer| <= c.stored
    && (c.buffer != [] ==> c.latest == Some(c.buffer[|c.buffer| - 1]))
    && (c.cap > 0 && c.latest.Some? ==> c.buffer != [])
  }

  function TradeTime(t: NormalizedTrade): int { t.timestamp }

  function BookTime(b: NormalizedOrderBook): int { b.timestamp }

  /** Both channels are well formed, and every index entry is filed under
      its record's own timestamp. */
  ghost predicate Inv(s: Store)
  {
    && ChannelInv(s.trades) && ChannelInv(s.orderbooks)
    && KeyedBy(s.trades.index, TradeTime) && KeyedBy(s.orderbooks.index, BookTime)
  }

  function EmptyChannel<T>(cap: nat): Channel<T>
  {
    Channel(cap, [], [], None, 0)
  }

  /** `HotStorage(symbol, max_trades, max_orderbooks, ttl_seconds)`; a
      negative `maxlen` is rejected by `deque`, hence the `nat` caps. */
  function New(symbol: string, maxTrades: nat, maxOrderbooks: nat, ttlSeconds: int): (s: Store)
    ensures Inv(s)
    ensures s.trades.buffer == [] && s.trades.index == [] && s.trades.latest.None? && s.trades.stored == 0
    ensures s.orderbooks.buffer == [] && s.orderbooks.index == [] && s.orderbooks.latest.None?
    ensures s.orderbooks.stored == 0
  {
    Store(symbol, ttlSeconds, EmptyChannel(maxTrades), EmptyChannel(maxOrderbooks))
  }

  /** Oldest timestamp the TTL cleanup keeps at wall-clock time `nowMs`. */
  function Cutoff(ttlSeconds: int, nowMs: int): int
  {
    nowMs - ttlSeconds * 1000
  }

  /** `add_trade` / `add_orderbook` followed by the TTL cleanup: buffer the
      record, index it under its timestamp (overwriting an equal key), make
      it the latest, count it, then drop index keys below the cutoff. The
      cleanup never touches the buffer. */
  function Append<T(==,!new)>(c: Channel<T>, key: int, x: T, cutoff: int): (r: Channel<T>)
    requires ChannelInv(c)
    ensures ChannelInv(r)
    ensures r.cap == c.cap && r.buffer == Push(c.buffer, x, c.cap)
    ensures r.latest == Some(x) && r.stored == c.stored + 1
    ensures forall e :: e in r.index ==> e == Entry(key, x) || e in c.index
    ensures forall q :: Lookup(r.index, q) ==
                        if q < cutoff then None else if q == key then Some(x) else Lookup(c.index, q)
  {
    var ix := Put(c.index, key, x);
    forall q
      ensures Lookup(Prune(ix, cutoff), q) ==
        if q < cutoff then None else if q == key then Some(x) else Lookup(c.index, q)
    {
      PutLookup(c.index, key, x, q);
      PruneLookup(ix, cutoff, q);
    }
    PruneKeepsSorted(ix, cutoff);
    Channel(c.cap, Push(c.buffer, x, c.cap), Prune(ix, cutoff), Some(x), c.stored + 1)
  }

  function AddTrade(s: Store, t: NormalizedTrade, nowMs: int): (r: Store)
    requires Inv(s)
    ensures Inv(r)
    ensures r.trades.buffer == Push(s.trades.buffer, t, s.trades.cap)
    ensures r.trades.latest == Some(t) && r.trades.stored == s.trades.stored + 1
    ensures forall q :: Lookup(r.trades.index, q) ==
                        if q < Cutoff(s.ttlSeconds, nowMs) then None
                        else if q == t.timestamp then Some(t)
                        else Lookup(s.trades.index, q)
    ensures r.orderbooks == s.orderbooks && r.symbol == s.symbol && r.ttlSeconds == s.ttlSeconds
  {
    s.(trades := Append(s.trades, t.timestamp, t, Cutoff(s.ttlSeconds, nowMs)))
  }

  function AddOrderbook(s: Store, b: NormalizedOrderBook, nowMs: int): (r: Store)
    requires Inv(s)
    ensures Inv(r)
    ensures r.orderbooks.buffer == Push(s.orderbooks.buffer, b, s.orderbooks.cap)
    ensures r.orderbooks.latest == Some(b) && r.orderbooks.stored == s.orderbooks.stored + 1
    ensures forall q :: Lookup(r.orderbooks.index, q) ==
                        if q < Cutoff(s.ttlSeconds, nowMs) then None
                        else if q == b.timestamp then Some(b)
                        else Lookup(s.orderbooks.index, q)
    ensures r.trades == s.trades && r.symbol == s.symbol && r.ttlSeconds == s.ttlSeconds
  {
    s.(orderbooks := Append(s.orderbooks, b.timestamp, b, Cutoff(s.ttlSeconds, nowMs)))
  }

  /** `list(buffer)[-count:] if len(buffer) >= count else list(buffer)`. */
  function Recent<T>(buffer: seq<T>, count: int): (r: seq<T>)
    ensures count > 0 ==> r == Last(buffer, count)
    ensures count == 0 ==> r == buffer
    ensures count < 0 ==> r == buffer[Min(-count, |buffer|)..]
  {
    if |buffer| >= count then PySliceFrom(buffer, -count) else buffer
  }

  /** `get_recent_trades`. */
  function RecentTrades(s: Store, count: int): (r: seq<NormalizedTrade>)
    ensures count > 0 ==> r == Last(s.trades.buffer, count)
    ensures count <= 0 ==> r == s.trades.buffer[Min(-count, |s.trades.buffer|)..]
  {
    Recent(s.trades.buffer, count)
  }

  /** `get_recent_orderbooks`. */
  function RecentOrderbooks(s: Store, count: int): (r: seq<NormalizedOrderBook>)
    ensures count > 0 ==> r == Last(s.orderbooks.buffer, count)
    ensures count <= 0 ==> r == s.orderbooks.buffer[Min(-count, |s.orderbooks.buffer|)..]
  {
    Recent(s.orderbooks.buffer, count)
  }

  /** `get_trades_since`: the indexed trades with timestamp at least `t`,
      walked in index order, hence by strictly ascending timestamp. */
  function TradesSince(s: Store, t: int): (r: seq<NormalizedTrade>)
    requires Inv(s)
    ensures forall x :: x in r <==> MapsFrom(s.trades.index, t, x)
    ensures Ascending(r, TradeTime)
  {
    var ix := s.trades.index;
    SinceByLookup(ix, t);
    SinceAscending(ix, t, TradeTime);
    Since(ix, t)
  }

  /** `get_trades_range`: the indexed trades with timestamp in `[lo, hi]`,
      by strictly ascending timestamp. */
  function TradesRange(s: Store, lo: int, hi: int): (r: seq<NormalizedTrade>)
    requires Inv(s)
    ensures forall x :: x in r <==> MapsBetween(s.trades.index, lo, hi, x)
    ensures Ascending(r, TradeTime)
  {
    var ix := s.trades.index;
    RangeByLookup(ix, lo, hi);
    RangeAscending(ix, lo, hi, TradeTime);
    Range(ix, lo, hi)
  }

  /** `get_orderbooks_since`: the indexed books with timestamp at least `t`,
      by strictly ascending timestamp. */
  function OrderbooksSince(s: Store, t: int): (r: seq<NormalizedOrderBook>)
    requires Inv(s)
    ensures forall x :: x in r <==> MapsFrom(s.orderbooks.index, t, x)
    ensures Ascending(r, BookTime)
  {
    var ix := s.orderbooks.index;
    SinceByLookup(ix, t);
    SinceAscending(ix, t, BookTime);
    Since(ix, t)
  }

  /** `get_trades_in_window`: the trades of the last `windowSeconds` at
      wall-clock time `nowMs`, by strictly ascending timestamp. */
  function TradesInWindow(s: Store, windowSeconds: int, nowMs: int): (r: seq<NormalizedTrade>)
    requires Inv(s)
    ensures forall x :: x in r <==> MapsFrom(s.trades.index, nowMs - windowSeconds * 1000, x)
    ensures Ascending(r, TradeTime)
  {
    TradesSince(s, nowMs - windowSeconds * 1000)
  }

  function TradePriceTimesQty(t: NormalizedTrade): real { t.price * t.quantity }

  /** `calculate_volume_in_window`: the summed quantity of the window's
      trades; zero for an empty window, never negative when the indexed
      quantities are not. */
  function VolumeInWindow(s: Store, windowSeconds: int, nowMs: int): (r: real)
    requires Inv(s)
    ensures r == Sum(TradesInWindow(s, windowSeconds, nowMs), TradeQty)
    ensures TradesInWindow(s, windowSeconds, nowMs) == [] ==> r == 0.0
    ensures (forall e :: e in s.trades.index ==> e.val.quantity >= 0.0) ==> r >= 0.0
  {
    WindowVolumeNonNegative(s, windowSeconds, nowMs);
    Sum(TradesInWindow(s, windowSeconds, nowMs), TradeQty)
  }

  /** `calculate_vwap_in_window`. */
  function VwapInWindow(s: Store, windowSeconds: int, nowMs: int): (r: Option<real>)
    requires Inv(s)
    ensures r.None? <==> TradesInWindow(s, windowSeconds, nowMs) == [] || VolumeInWindow(s, windowSeconds, nowMs) == 0.0
    ensures r.Some? ==>
      r.value * VolumeInWindow(s, windowSeconds, nowMs) == Sum(TradesInWindow(s, windowSeconds, nowMs), TradePriceTimesQty)
  {
    var trades := TradesInWindow(s, windowSeconds, nowMs);
    var totalQty := VolumeInWindow(s, windowSeconds, nowMs);
    var totalPq := Sum(trades, TradePriceTimesQty);
    if trades == [] || totalQty == 0.0 then None
    else
      DivTimes(totalPq, totalQty);
      Some(totalPq / totalQty)
  }

  function IsLarge(t: NormalizedTrade): bool { t.isLargeTrade }

  /** `get_large_trades_in_window`: the window's large trades, in the
      window's ascending timestamp order. */
  function LargeTradesInWindow(s: Store, windowSeconds: int, nowMs: int): (r: seq<NormalizedTrade>)
    requires Inv(s)
    ensures forall x :: x in r <==> x in TradesInWindow(s, windowSeconds, nowMs) && x.isLargeTrade
    ensures Ascending(r, TradeTime)
  {
    FilterAscending(TradesInWindow(s, windowSeconds, nowMs), IsLarge, TradeTime);
    Filter(TradesInWindow(s, windowSeconds, nowMs), IsLarge)
  }

  /** `clear`: empties buffers, indexes and latest pointers; the stored
      counters survive. */
  function Clear(s: Store): (r: Store)
    requires Inv(s)
    ensures Inv(r)
    ensures r.trades.buffer == [] && r.trades.index == [] && r.trades.latest.None?
    ensures r.orderbooks.buffer == [] && r.orderbooks.index == [] && r.orderbooks.latest.None?
    ensures r.trades.stored == s.trades.stored && r.orderbooks.stored == s.orderbooks.stored
    ensures r.trades.cap == s.trades.cap && r.orderbooks.cap == s.orderbooks.cap
    ensures r.symbol == s.symbol && r.ttlSeconds == s.ttlSeconds
  {
    s.(trades := s.trades.(buffer := [], index := [], latest := None),
       orderbooks := s.orderbooks.(buffer := [], index := [], latest := None))
  }

  // ----- properties -----

  /** A record older than the TTL when it arrives is buffered and becomes
      the latest, but is not (or no longer) in the index. */
  lemma StaleTradeBufferedNotIndexed(s: Store, t: NormalizedTrade, nowMs: int)
    requires Inv(s) && s.trades.cap > 0
    requires t.timestamp < Cutoff(s.ttlSeconds, nowMs)
    ensures var r := AddTrade(s, t, nowMs);
      && r.trades.buffer[|r.trades.buffer| - 1] == t
      && r.trades.latest == Some(t)
      && Lookup(r.trades.index, t.timestamp).None?
  {
  }

  /** Two trades with the same fresh timestamp: both are buffered, the
      index keeps only the second. */
  lemma EqualTimestampOverwrites(s: Store, t1: NormalizedTrade, t2: NormalizedTrade, nowMs: int)
    requires Inv(s) && s.trades.cap >= 2
    requires t1.timestamp == t2.timestamp >= Cutoff(s.ttlSeconds, nowMs)
    ensures var r := AddTrade(AddTrade(s, t1, nowMs), t2, nowMs);
      && r.trades.buffer[|r.trades.buffer| - 2..] == [t1, t2]
      && Lookup(r.trades.index, t1.timestamp) == Some(t2)
  {
    var r1 := AddTrade(s, t1, nowMs);
    var r := AddTrade(r1, t2, nowMs);
    var b := r.trades.buffer;
    assert b[|b| - 1] == t2;
    assert |r1.trades.buffer| >= 1 && r1.trades.buffer[|r1.trades.buffer| - 1] == t1;
    if |r1.trades.buffer| < s.trades.cap {
      assert b == r1.trades.buffer + [t2];
    } else {
      assert b == r1.trades.buffer[1..] + [t2];
    }
    assert b[|b| - 2] == t1;
  }

  /** A run of trades added one by one. */
  function AddTrades(s: Store, ts: seq<NormalizedTrade>, nowMs: int): (r: Store)
    requires Inv(s)
    ensures Inv(r)
    decreases |ts|
  {
    if ts == [] then s else AddTrades(AddTrade(s, ts[0], nowMs), ts[1..], nowMs)
  }

  lemma AddTradeStep(s: Store, t: NormalizedTrade, nowMs: int)
    requires Inv(s)
    ensures AddTrade(s, t, nowMs).trades.buffer == Last(s.trades.buffer + [t], s.trades.cap)
    ensures AddTrade(s, t, nowMs).trades.stored == s.trades.stored + 1
    ensures AddTrade(s, t, nowMs).trades.cap == s.trades.cap
  {
  }

  /** After a run of adds the buffer holds exactly the last `max_trades`
      trades of everything added, and the stored counter has grown by the
      length of the run. */
  lemma {:induction false} BufferKeepsNewest(s: Store, ts: seq<NormalizedTrade>, nowMs: int)
    requires Inv(s)
    ensures AddTrades(s, ts, nowMs).trades.buffer == Last(s.trades.buffer + ts, s.trades.cap)
    ensures AddTrades(s, ts, nowMs).trades.stored == s.trades.stored + |ts|
    ensures AddTrades(s, ts, nowMs).trades.cap == s.trades.cap
    decreases |ts|
  {
    if ts == [] {
      assert s.trades.buffer + ts == s.trades.buffer;
    } else {
      var s1 := AddTrade(s, ts[0], nowMs);
      AddTradeStep(s, ts[0], nowMs);
      assert AddTrades(s, ts, nowMs) == AddTrades(s1, ts[1..], nowMs);
      BufferKeepsNewest(s1, ts[1..], nowMs);
      WindowShift(s.trades.buffer, ts, s.trades.cap);
    }
  }

  lemma WindowShift<T>(buffer: seq<T>, ts: seq<T>, cap: nat)
    requires ts != []
    ensures Last(Last(buffer + [ts[0]], cap) + ts[1..], cap) == Last(buffer + ts, cap)
  {
    LastOfConcat(buffer + [ts[0]], ts[1..], cap);
    assert buffer + [ts[0]] + ts[1..] == buffer + ts;
  }

  /** For `count > 0`, the recent trades are the last `min(count, len)`
      buffered trades, and never more than were ever stored. */
  lemma RecentTradesBound(s: Store, count: int)
    requires Inv(s) && count > 0
    ensures |RecentTrades(s, count)| == Min(count, |s.trades.buffer|)
    ensures |RecentTrades(s, count)| <= s.trades.stored
    ensures RecentTrades(s, count) == s.trades.buffer[|s.trades.buffer| - |RecentTrades(s, count)|..]
  {
  }

  /** `get_recent_trades(0)` returns the whole buffer (Python's `[-0:]`). */
  lemma RecentZeroIsEverything(s: Store)
    ensures RecentTrades(s, 0) == s.trades.buffer
  {
  }

  /** A wider window can only see more volume, when quantities are
      non-negative. */
  lemma WiderWindowMoreVolume(s: Store, w1: int, w2: int, nowMs: int)
    requires Inv(s) && w1 <= w2
    requires forall e :: e in s.trades.index ==> e.val.quantity >= 0.0
    ensures VolumeInWindow(s, w1, nowMs) <= VolumeInWindow(s, w2, nowMs)
  {
    var ix := s.trades.index;
    var t2 := nowMs - w2 * 1000;
    var t1 := nowMs - w1 * 1000;
    if w1 == w2 {
      return;
    }
    SinceSplits(ix, t2, t1 - 1);
    SumConcat(Range(ix, t2, t1 - 1), Since(ix, t1), TradeQty);
    RangeVolumeNonNegative(ix, t2, t1 - 1);
  }

  lemma WindowVolumeNonNegative(s: Store, windowSeconds: int, nowMs: int)
    requires Inv(s)
    ensures (forall e :: e in s.trades.index ==> e.val.quantity >= 0.0) ==>
            Sum(TradesInWindow(s, windowSeconds, nowMs), TradeQty) >= 0.0
  {
    var w := TradesInWindow(s, windowSeconds, nowMs);
    if forall e :: e in s.trades.index ==> e.val.quantity >= 0.0 {
      forall x | x in w
        ensures TradeQty(x) >= 0.0
      {
        var q :| q >= nowMs - windowSeconds * 1000 && Lookup(s.trades.index, q) == Some(x);
        assert Entry(q, x) in s.trades.index;
      }
      SumNonNegative(w, TradeQty);
    }
  }

  lemma RangeVolumeNonNegative(ix: Index<NormalizedTrade>, lo: int, hi: int)
    requires forall e :: e in ix ==> e.val.quantity >= 0.0
    ensures Sum(Range(ix, lo, hi), TradeQty) >= 0.0
  {
    var mid := Range(ix, lo, hi);
    forall x | x in mid
      ensures TradeQty(x) >= 0.0
    {
      var e :| e in ix && lo <= e.key <= hi && e.val == x;
    }
    SumNonNegative(mid, TradeQty);
  }

  lemma {:induction false} SumsOfEntries(nts: seq<NormalizedTrade>)
    ensures Sum(WindowEntries(nts), Qty) == Sum(nts, TradeQty)
    ensures Sum(WindowEntries(nts), PriceTimesQty) == Sum(nts, TradePriceTimesQty)
    decreases |nts|
  {
    if nts != [] {
      SumsOfEntries(nts[1..]);
      assert nts == [nts[0]] + nts[1..];
      SumFront(WindowEntry(nts[0]), WindowEntries(nts[1..]), Qty);
      SumFront(WindowEntry(nts[0]), WindowEntries(nts[1..]), PriceTimesQty);
      SumFront(nts[0], nts[1..], TradeQty);
      SumFront(nts[0], nts[1..], TradePriceTimesQty);
    }
  }

  /** The window VWAP is the normalizer's VWAP of the window's trades; so
      with positive quantities it lies between the window's extreme prices. */
  lemma WindowVwapIsVwap(s: Store, windowSeconds: int, nowMs: int)
    requires Inv(s)
    ensures VwapInWindow(s, windowSeconds, nowMs) == Vwap(WindowEntries(TradesInWindow(s, windowSeconds, nowMs)))
  {
    var w := TradesInWindow(s, windowSeconds, nowMs);
    SumsOfEntries(w);
    if w != [] {
      assert WindowEntries(w) != [];
    }
  }

  /** Clearing and then adding one trade leaves that trade alone in the
      buffer, the stored counter one above its value before the clear, and
      no latest book. */
  lemma ClearThenAdd(s: Store, t: NormalizedTrade, nowMs: int)
    requires Inv(s) && s.trades.cap > 0
    ensures var r := AddTrade(Clear(s), t, nowMs);
      && r.trades.buffer == [t]
      && r.trades.stored == s.trades.stored + 1
      && r.orderbooks.latest.None?
  {
  }
}

=== FILE: market_state.dfy ===
/** The rolling market picture built from normalized records
    (core/market_state_manager.py): last price, 1- and 5-minute volumes, a
    1-minute VWAP, a volume-spike flag, 5-second momentum, a large-trade
    count, and a copy of the latest order-book figures. */
module MarketState {
  import opened Base
  import opened Normalizer

  const TradeHistoryCap: nat := 5000
  const LargeTradeHistoryCap: nat := 100
  const PriceHistoryCap: nat := 100

  const OneMinuteMs: real := 60000.0
  const FiveMinutesMs: real := 300000.0
  const MomentumWindowMs: real := 5000.0

  datatype MarketState = MarketState(
    timestamp: int,
    symbol: string,
    lastPrice: real,
    bestBid: real,
    bestAsk: real,
    spread: real,
    spreadBps: real,
    midPrice: real,
    totalBidVolume: real,
    totalAskVolume: real,
    bidAskRatio: real,
    bidAskImbalance: real,
    recentVolume1m: real,
    recentVolume5m: real,
    vwap1m: real,
    priceMomentum: real,
    volumeSpike: bool,
    largeTradeCount: nat,
    tradeCount: nat,
    orderbookCount: nat,
    lastTradeTimestamp: int,
    lastOrderbookTimestamp: int)

  /** `MarketState(timestamp, symbol)` with every other field at its default. */
  function DefaultState(timestamp: int, symbol: string): (st: MarketState)
    ensures st.timestamp == timestamp && st.symbol == symbol
    ensures st.tradeCount == 0 && st.orderbookCount == 0 && st.largeTradeCount == 0
    ensures !st.volumeSpike && st.lastPrice == 0.0 && st.bidAskImbalance == 0.0
  {
    MarketState(timestamp, symbol, 0.0, 0.0, 0.0, 0.0, 0.0, 0.0, 0.0, 0.0, 0.0, 0.0,
                0.0, 0.0, 0.0, 0.0, false, 0, 0, 0, 0, 0)
  }

  /** One `trade_history` entry. */
  datatype HistoryEntry = HistoryEntry(timestamp: int, price: real, quantity: real, amountUsdt: real, isLarge: bool)

  /** One `price_history` entry. */
  datatype PricePoint = PricePoint(timestamp: int, price: real)

  /** One `large_trade_history` entry. */
  datatype LargeEntry = LargeEntry(timestamp: int, amountUsdt: real, side: Side)

  datatype Manager = Manager(
    symbol: string,
    state: MarketState,
    tradeHistory: seq<HistoryEntry>,
    largeTradeHistory: seq<LargeEntry>,
    priceHistory: seq<PricePoint>)

  ghost predicate Inv(m: Manager)
  {
    && |m.tradeHistory| <= TradeHistoryCap
    && |m.largeTradeHistory| <= LargeTradeHistoryCap
    && |m.priceHistory| <= PriceHistoryCap
  }

  /** `int(x)` on a float: truncation toward zero. */
  function TruncToInt(x: real): (r: int)
    ensures x >= 0.0 ==> r == x.Floor
    ensures x < 0.0 ==> r == -((-x).Floor)
  {
    if x >= 0.0 then x.Floor else -((-x).Floor)
  }

  /** `MarketStateManager(symbol)` at wall-clock time `nowMs`. */
  function New(symbol: string, nowMs: real): (m: Manager)
    ensures Inv(m)
    ensures m.state == DefaultState(TruncToInt(nowMs), symbol)
    ensures m.tradeHistory == [] && m.largeTradeHistory == [] && m.priceHistory == []
  {
    Manager(symbol, DefaultState(TruncToInt(nowMs), symbol), [], [], [])
  }

  // ----- windows over the histories -----

  /** `now - ts <= window`, with `now` a float in milliseconds. */
  predicate Fresh(nowMs: real, ts: int, windowMs: real)
  {
    nowMs - ts as real <= windowMs
  }

  function WithinTrade(nowMs: real, windowMs: real): HistoryEntry -> bool
  {
    (e: HistoryEntry) => Fresh(nowMs, e.timestamp, windowMs)
  }

  function WithinPrice(nowMs: real, windowMs: real): PricePoint -> bool
  {
    (p: PricePoint) => Fresh(nowMs, p.timestamp, windowMs)
  }

  function WithinLarge(nowMs: real, windowMs: real): LargeEntry -> bool
  {
    (e: LargeEntry) => Fresh(nowMs, e.timestamp, windowMs)
  }

  function EntryPrice(e: HistoryEntry): real { e.price }

  function EntryQty(e: HistoryEntry): real { e.quantity }

  const EntryPq: HistoryEntry -> real := Weighted(EntryPrice, EntryQty)

  /** Σ quantity over the history entries within `windowMs` of `nowMs`,
      a stale entry contributing nothing: never negative for non-negative
      quantities, everything when every entry is fresh, nothing when none is. */
  function WindowVolume(hist: seq<HistoryEntry>, nowMs: real, windowMs: real): (r: real)
    ensures r == SumWhere(hist, WithinTrade(nowMs, windowMs), EntryQty)
    ensures (forall i :: 0 <= i < |hist| ==> hist[i].quantity >= 0.0) ==> r >= 0.0
    ensures (forall i :: 0 <= i < |hist| ==> Fresh(nowMs, hist[i].timestamp, windowMs)) ==> r == Sum(hist, EntryQty)
    ensures (forall i :: 0 <= i < |hist| ==> !Fresh(nowMs, hist[i].timestamp, windowMs)) ==> r == 0.0
  {
    WindowVolumeCases(hist, nowMs, windowMs);
    SumFilter(hist, WithinTrade(nowMs, windowMs), EntryQty);
    Sum(Filter(hist, WithinTrade(nowMs, windowMs)), EntryQty)
  }

  lemma WindowVolumeCases(hist: seq<HistoryEntry>, nowMs: real, windowMs: real)
    ensures var recent := Filter(hist, WithinTrade(nowMs, windowMs));
      && ((forall i :: 0 <= i < |hist| ==> hist[i].quantity >= 0.0) ==> Sum(recent, EntryQty) >= 0.0)
      && ((forall i :: 0 <= i < |hist| ==> Fresh(nowMs, hist[i].timestamp, windowMs)) ==> recent == hist)
      && ((forall i :: 0 <= i < |hist| ==> !Fresh(nowMs, hist[i].timestamp, windowMs)) ==> recent == [])
  {
    var p := WithinTrade(nowMs, windowMs);
    var recent := Filter(hist, p);
    if forall i :: 0 <= i < |hist| ==> hist[i].quantity >= 0.0 {
      forall x | x in recent
        ensures EntryQty(x) >= 0.0
      {
        var i :| 0 <= i < |hist| && hist[i] == x;
      }
      SumNonNegative(recent, EntryQty);
    }
    if forall i :: 0 <= i < |hist| ==> Fresh(nowMs, hist[i].timestamp, windowMs) {
      FilterAll(hist, p);
    }
    if recent != [] {
      assert recent[0] in hist && p(recent[0]);
    }
  }

  /** The 1-minute VWAP: Σpq/Σq over the last minute, 0 when that set is
      empty or its quantities do not sum to a positive number. */
  function Vwap1m(hist: seq<HistoryEntry>, nowMs: real): (r: real)
    ensures
      var recent := Filter(hist, WithinTrade(nowMs, OneMinuteMs));
      && (recent == [] || Sum(recent, EntryQty) <= 0.0 ==> r == 0.0)
      && (recent != [] && Sum(recent, EntryQty) > 0.0 ==> r * Sum(recent, EntryQty) == Sum(recent, EntryPq))
  {
    var recent := Filter(hist, WithinTrade(nowMs, OneMinuteMs));
    if recent != [] then
      var totalQty := Sum(recent, EntryQty);
      if totalQty > 0.0 then Sum(recent, EntryPq) / totalQty else 0.0
    else 0.0
  }

  /** The spike rule: the last minute's volume exceeds twice the per-minute
      average of the last five minutes (average 0 when that volume is 0). */
  function Spike(volume1m: real, volume5m: real): (r: bool)
    ensures volume5m > 0.0 ==> (r <==> 5.0 * volume1m > 2.0 * volume5m)
    ensures volume5m <= 0.0 ==> (r <==> volume1m > 0.0)
  {
    var avgPerMinute := if volume5m > 0.0 then volume5m / 5.0 else 0.0;
    volume1m > avgPerMinute * 2.0
  }

  /** `_update_volume_metrics`. */
  function WithVolumeMetrics(st: MarketState, hist: seq<HistoryEntry>, nowMs: real): (r: MarketState)
    ensures r.recentVolume1m == WindowVolume(hist, nowMs, OneMinuteMs)
    ensures r.recentVolume5m == WindowVolume(hist, nowMs, FiveMinutesMs)
    ensures r.vwap1m == Vwap1m(hist, nowMs)
    ensures r.volumeSpike == Spike(r.recentVolume1m, r.recentVolume5m)
    ensures r == st.(recentVolume1m := r.recentVolume1m, recentVolume5m := r.recentVolume5m,
                     vwap1m := r.vwap1m, volumeSpike := r.volumeSpike)
  {
    var v1 := WindowVolume(hist, nowMs, OneMinuteMs);
    var v5 := WindowVolume(hist, nowMs, FiveMinutesMs);
    st.(recentVolume1m := v1, recentVolume5m := v5, vwap1m := Vwap1m(hist, nowMs), volumeSpike := Spike(v1, v5))
  }

  /** `_update_price_momentum`: relative change from the first to the last
      price seen within 5 s, in insertion order; 0 with fewer than two such
      prices or a non-positive first price. */
  function Momentum(prices: seq<PricePoint>, nowMs: real): (r: real)
    ensures
      var recent := Filter(prices, WithinPrice(nowMs, MomentumWindowMs));
      && (|prices| < 2 || |recent| < 2 || recent[0].price <= 0.0 ==> r == 0.0)
      && (|prices| >= 2 && |recent| >= 2 && recent[0].price > 0.0 ==>
            r * recent[0].price == recent[|recent| - 1].price - recent[0].price)
  {
    if |prices| < 2 then 0.0
    else
      var recent := Filter(prices, WithinPrice(nowMs, MomentumWindowMs));
      if |recent| < 2 then 0.0
      else
        var start := recent[0].price;
        var end := recent[|recent| - 1].price;
        if start > 0.0 then (end - start) / start else 0.0
  }

  /** `_update_large_trade_count`: how many large trades are at most a
      minute old; at most the history's length, and positive exactly when
      some entry is that fresh. */
  function LargeCount(large: seq<LargeEntry>, nowMs: real): (r: nat)
    ensures r == CountWhere(large, WithinLarge(nowMs, OneMinuteMs))
    ensures r <= |large|
    ensures r > 0 <==> exists i :: 0 <= i < |large| && Fresh(nowMs, large[i].timestamp, OneMinuteMs)
  {
    FreshLargeCounted(large, nowMs);
    CountFilter(large, WithinLarge(nowMs, OneMinuteMs));
    |Filter(large, WithinLarge(nowMs, OneMinuteMs))|
  }

  lemma FreshLargeCounted(large: seq<LargeEntry>, nowMs: real)
    ensures var recent := Filter(large, WithinLarge(nowMs, OneMinuteMs));
      recent != [] <==> exists i :: 0 <= i < |large| && Fresh(nowMs, large[i].timestamp, OneMinuteMs)
  {
    var recent := Filter(large, WithinLarge(nowMs, OneMinuteMs));
    if recent != [] {
      assert recent[0] in large;
    }
    if i :| 0 <= i < |large| && Fresh(nowMs, large[i].timestamp, OneMinuteMs) {
      assert large[i] in recent;
    }
  }

  /** `update_from_trade` at wall-clock time `nowMs`. */
  function UpdateFromTrade(m: Manager, t: NormalizedTrade, nowMs: real): (r: Manager)
    requires Inv(m)
    ensures Inv(r)
    ensures r.state.tradeCount == m.state.tradeCount + 1
    ensures r.state.lastPrice == t.price && r.state.lastTradeTimestamp == t.timestamp
    ensures r.tradeHistory == Push(m.tradeHistory,
              HistoryEntry(t.timestamp, t.price, t.quantity, t.amountUsdt, t.isLargeTrade), TradeHistoryCap)
    ensures r.priceHistory == Push(m.priceHistory, PricePoint(t.timestamp, t.price), PriceHistoryCap)
    ensures r.largeTradeHistory ==
              if t.isLargeTrade then Push(m.largeTradeHistory, LargeEntry(t.timestamp, t.amountUsdt, t.side), LargeTradeHistoryCap)
              else m.largeTradeHistory
    ensures r.state.recentVolume1m == WindowVolume(r.tradeHistory, nowMs, OneMinuteMs)
    ensures r.state.recentVolume5m == WindowVolume(r.tradeHistory, nowMs, FiveMinutesMs)
    ensures r.state.vwap1m == Vwap1m(r.tradeHistory, nowMs)
    ensures r.state.volumeSpike == Spike(r.state.recentVolume1m, r.state.recentVolume5m)
    ensures r.state.priceMomentum == Momentum(r.priceHistory, nowMs)
    ensures r.state.largeTradeCount == LargeCount(r.largeTradeHistory, nowMs)
    ensures r.state.timestamp == TruncToInt(nowMs)
    ensures SameBook(r.state, m.state)
    ensures r.state.orderbookCount == m.state.orderbookCount && r.state.symbol == m.state.symbol
    ensures r.symbol == m.symbol
  {
    var st := m.state.(tradeCount := m.state.tradeCount + 1, lastPrice := t.price,
                       lastTradeTimestamp := t.timestamp);
    var hist := Push(m.tradeHistory, HistoryEntry(t.timestamp, t.price, t.quantity, t.amountUsdt, t.isLargeTrade),
                     TradeHistoryCap);
    var prices := Push(m.priceHistory, PricePoint(t.timestamp, t.price), PriceHistoryCap);
    var large := if t.isLargeTrade
                 then Push(m.largeTradeHistory, LargeEntry(t.timestamp, t.amountUsdt, t.side), LargeTradeHistoryCap)
                 else m.largeTradeHistory;
    var st1 := WithVolumeMetrics(st, hist, nowMs);
    var st2 := st1.(priceMomentum := Momentum(prices, nowMs), largeTradeCount := LargeCount(large, nowMs));
    Manager(m.symbol, st2.(timestamp := TruncToInt(nowMs)), hist, large, prices)
  }

  /** The order-book fields of two states agree. */
  predicate SameBook(a: MarketState, b: MarketState)
  {
    && a.bestBid == b.bestBid && a.bestAsk == b.bestAsk && a.midPrice == b.midPrice
    && a.spread == b.spread && a.spreadBps == b.spreadBps
    && a.totalBidVolume == b.totalBidVolume && a.totalAskVolume == b.totalAskVolume
    && a.bidAskRatio == b.bidAskRatio && a.bidAskImbalance == b.bidAskImbalance
    && a.lastOrderbookTimestamp == b.lastOrderbookTimestamp
  }

  /** The trade-derived fields of two states agree. */
  predicate SameTradeFigures(a: MarketState, b: MarketState)
  {
    && a.lastPrice == b.lastPrice && a.recentVolume1m == b.recentVolume1m
    && a.recentVolume5m == b.recentVolume5m && a.vwap1m == b.vwap1m
    && a.priceMomentum == b.priceMomentum && a.volumeSpike == b.volumeSpike
    && a.largeTradeCount == b.largeTradeCount && a.tradeCount == b.tradeCount
    && a.lastTradeTimestamp == b.lastTradeTimestamp
  }

  /** `update_from_orderbook` at wall-clock time `nowMs`: the book's figures
      are copied verbatim. */
  function UpdateFromOrderbook(m: Manager, b: NormalizedOrderBook, nowMs: real): (r: Manager)
    ensures r.state.orderbookCount == m.state.orderbookCount + 1
    ensures r.state.lastOrderbookTimestamp == b.timestamp
    ensures r.state.bestBid == b.bestBid && r.state.bestAsk == b.bestAsk && r.state.midPrice == b.midPrice
    ensures r.state.spread == b.spread && r.state.spreadBps == b.spreadBps
    ensures r.state.totalBidVolume == b.totalBidVolume && r.state.totalAskVolume == b.totalAskVolume
    ensures r.state.bidAskRatio == b.bidAskRatio && r.state.bidAskImbalance == b.imbalance
    ensures r.state.timestamp == TruncToInt(nowMs)
    ensures SameTradeFigures(r.state, m.state) && r.state.symbol == m.state.symbol
    ensures r.tradeHistory == m.tradeHistory && r.priceHistory == m.priceHistory
    ensures r.largeTradeHistory == m.largeTradeHistory && r.symbol == m.symbol
  {
    var st := m.state.(
      orderbookCount := m.state.orderbookCount + 1,
      lastOrderbookTimestamp := b.timestamp,
      bestBid := b.bestBid, bestAsk := b.bestAsk, midPrice := b.midPrice,
      spread := b.spread, spreadBps := b.spreadBps,
      totalBidVolume := b.totalBidVolume, totalAskVolume := b.totalAskVolume,
      bidAskRatio := b.bidAskRatio, bidAskImbalance := b.imbalance);
    m.(state := st.(timestamp := TruncToInt(nowMs)))
  }

  /** `reset` at wall-clock time `nowMs`. */
  function Reset(m: Manager, nowMs: real): (r: Manager)
    ensures Inv(r)
    ensures r == New(m.symbol, nowMs)
    ensures r.state.symbol == m.symbol
  {
    Manager(m.symbol, DefaultState(TruncToInt(nowMs), m.symbol), [], [], [])
  }

  // ----- properties -----

  /** With non-negative quantities the one-minute volume never exceeds the
      five-minute volume. */
  lemma OneMinuteWithinFive(hist: seq<HistoryEntry>, nowMs: real)
    requires forall e :: e in hist ==> e.quantity >= 0.0
    ensures WindowVolume(hist, nowMs, OneMinuteMs) <= WindowVolume(hist, nowMs, FiveMinutesMs)
  {
    SumFilterMonotone(hist, WithinTrade(nowMs, OneMinuteMs), WithinTrade(nowMs, FiveMinutesMs), EntryQty);
  }

  /** With positive quantities in the last minute, the 1-minute VWAP lies
      between the lowest and highest price of that minute. */
  lemma Vwap1mWithinPrices(hist: seq<HistoryEntry>, nowMs: real, lo: real, hi: real)
    requires Filter(hist, WithinTrade(nowMs, OneMinuteMs)) != []
    requires forall e :: e in Filter(hist, WithinTrade(nowMs, OneMinuteMs)) ==> e.quantity > 0.0 && lo <= e.price <= hi
    ensures lo <= Vwap1m(hist, nowMs) <= hi
  {
    var recent := Filter(hist, WithinTrade(nowMs, OneMinuteMs));
    var value, weight := EntryPrice, EntryQty;
    forall i | 0 <= i < |recent|
      ensures weight(recent[i]) > 0.0 && lo <= value(recent[i]) <= hi
    {
      assert recent[i] in recent;
    }
    WeightedMeanBounds(recent, value, weight, lo, hi);
  }

  /** The spike flag implies trading in the last minute when quantities
      are non-negative. */
  lemma SpikeNeedsVolume(volume1m: real, volume5m: real)
    requires volume5m >= 0.0
    ensures Spike(volume1m, volume5m) ==> volume1m > 0.0
  {
  }

  /** Only large trades enter the large-trade history, so the large-trade
      count never exceeds the number of large trades of the last minute
      still in that history, which is at most 100. */
  lemma LargeHistoryOnlyLarge(m: Manager, t: NormalizedTrade, nowMs: real)
    requires Inv(m)
    ensures !t.isLargeTrade ==> UpdateFromTrade(m, t, nowMs).largeTradeHistory == m.largeTradeHistory
    ensures UpdateFromTrade(m, t, nowMs).state.largeTradeCount <= LargeTradeHistoryCap
  {
  }

  function Point(ts: int, price: real): PricePoint { PricePoint(ts, price) }

  /** Prices 100, 101, 102, 101, 100 inside the 5 s window give momentum 0:
      only the first and the last price count. */
  lemma MomentumFlatExample()
    ensures Momentum([Point(1000, 100.0), Point(1001, 101.0), Point(1002, 102.0), Point(1003, 101.0),
                      Point(1004, 100.0)], 2000.0) == 0.0
  {
    var ps := [Point(1000, 100.0), Point(1001, 101.0), Point(1002, 102.0), Point(1003, 101.0), Point(1004, 100.0)];
    FilterAll(ps, WithinPrice(2000.0, MomentumWindowMs));
  }

  /** A rise from 100 to 102 inside the window gives +2%. */
  lemma MomentumRiseExample()
    ensures Momentum([Point(1000, 100.0), Point(1001, 102.0)], 2000.0) == 0.02
  {
    var qs := [Point(1000, 100.0), Point(1001, 102.0)];
    FilterAll(qs, WithinPrice(2000.0, MomentumWindowMs));
  }

  /** Prices older than 5 s are ignored: with only one fresh price the
      momentum is 0 however far the price moved. */
  lemma StalePricesIgnored()
    ensures Momentum([Point(0, 50.0), Point(10000, 100.0)], 10000.0) == 0.0
  {
    var ps := [Point(0, 50.0), Point(10000, 100.0)];
    var p := WithinPrice(10000.0, MomentumWindowMs);
    assert Filter(ps[..1], p) == [];
    assert Filter(ps, p) == [ps[1]];
  }

  /** Momentum reads only the prices inside its window: two histories whose
      fresh prices agree, in order, have the same momentum. */
  lemma MomentumOnlyFreshPrices(a: seq<PricePoint>, b: seq<PricePoint>, nowMs: real)
    requires Filter(a, WithinPrice(nowMs, MomentumWindowMs)) == Filter(b, WithinPrice(nowMs, MomentumWindowMs))
    ensures Momentum(a, nowMs) == Momentum(b, nowMs)
  {
  }

  /** A price older than 5 s changes no momentum, whether it is the oldest
      entry of the history or the newest. */
  lemma MomentumIgnoresStale(prices: seq<PricePoint>, q: PricePoint, nowMs: real)
    requires !Fresh(nowMs, q.timestamp, MomentumWindowMs)
    ensures Momentum([q] + prices, nowMs) == Momentum(prices, nowMs)
    ensures Momentum(prices + [q], nowMs) == Momentum(prices, nowMs)
  {
    var w := WithinPrice(nowMs, MomentumWindowMs);
    FilterRejectFront(q, prices, w);
    MomentumOnlyFreshPrices([q] + prices, prices, nowMs);
    assert (prices + [q])[..|prices + [q]| - 1] == prices;
    MomentumOnlyFreshPrices(prices + [q], prices, nowMs);
  }

  /** A trade update never disturbs the order-book figures and an order-book
      update never disturbs the trade figures, so the imbalance stays in
      [-1, 1] across trades once an in-range book has been applied. */
  lemma ImbalanceSurvivesTrades(m: Manager, b: NormalizedOrderBook, t: NormalizedTrade, nowMs: real)
    requires Inv(m) && -1.0 <= b.imbalance <= 1.0
    ensures -1.0 <= UpdateFromTrade(UpdateFromOrderbook(m, b, nowMs), t, nowMs).state.bidAskImbalance <= 1.0
  {
    var m1 := UpdateFromOrderbook(m, b, nowMs);
    assert Inv(m1);
  }
}

=== FILE: normalizer.dfy ===
/** Enrichment of validated records (data_collector/data_normalizer.py):
    notional, side and large-trade flag of a trade, a trailing VWAP over the
    previous trades and a cumulative volume; best prices, spread, volumes,
    ratio and imbalance of an order book. */
module Normalizer {
  import opened Base
  import opened Records
  import Validator

  datatype Side = Buy | Sell

  datatype NormalizedTrade = NormalizedTrade(
    timestamp: int,
    symbol: string,
    tradeId: int,
    price: real,
    quantity: real,
    isBuyerMaker: bool,
    amountUsdt: real,
    side: Side,
    isLargeTrade: bool,
    vwap: Option<real>,
    cumulativeVolume: real)

  datatype NormalizedOrderBook = NormalizedOrderBook(
    timestamp: int,
    symbol: string,
    updateId: int,
    bestBid: real,
    bestAsk: real,
    midPrice: real,
    spread: real,
    spreadBps: real,
    totalBidVolume: real,
    totalAskVolume: real,
    bidAskRatio: real,
    imbalance: real,
    bids: seq<(real, real)>,
    asks: seq<(real, real)>)

  /** One entry of the VWAP window: `(price, quantity, amount_usdt)`. */
  datatype RecentTrade = RecentTrade(price: real, quantity: real, amountUsdt: real)

  /** Length of the trailing VWAP window. */
  const VwapWindow: nat := 100

  datatype Normalizer = Normalizer(
    largeTradeThreshold: real,
    orderbookDepth: int,
    recentTrades: seq<RecentTrade>,
    cumulativeVolume: real)

  function New(largeTradeThreshold: real, orderbookDepth: int): (n: Normalizer)
    ensures n.recentTrades == [] && n.cumulativeVolume == 0.0
    ensures n.largeTradeThreshold == largeTradeThreshold && n.orderbookDepth == orderbookDepth
  {
    Normalizer(largeTradeThreshold, orderbookDepth, [], 0.0)
  }

  function Price(e: RecentTrade): real { e.price }

  function Qty(e: RecentTrade): real { e.quantity }

  const PriceTimesQty: RecentTrade -> real := Weighted(Price, Qty)

  /** `_calculate_vwap`: Σ price·qty / Σ qty over the window, `None` when the
      window is empty or its quantities sum to zero. */
  function Vwap(w: seq<RecentTrade>): (r: Option<real>)
    ensures r.None? <==> w == [] || Sum(w, Qty) == 0.0
    ensures r.Some? ==> r.value * Sum(w, Qty) == Sum(w, PriceTimesQty)
  {
    if w == [] then None
    else
      var totalQty := Sum(w, Qty);
      if totalQty == 0.0 then None else Some(Sum(w, PriceTimesQty) / totalQty)
  }

  /** `normalize_trade`; `None` when `float(...)` raises on either field (the
      state is then untouched, since the conversions come first). */
  function NormalizeTrade(n: Normalizer, t: Trade): (r: Option<(Normalizer, NormalizedTrade)>)
    ensures r.Some? <==> ParseNum(t.price).Some? && ParseNum(t.quantity).Some?
    ensures r.Some? ==>
      var (n', nt) := r.value;
      var price := ParseNum(t.price).value;
      var qty := ParseNum(t.quantity).value;
      && nt.amountUsdt == price * qty
      && (nt.side == Sell <==> t.isBuyerMaker)
      && (nt.isLargeTrade <==> price * qty >= n.largeTradeThreshold)
      && nt.vwap == Vwap(n.recentTrades)
      && n'.cumulativeVolume == n.cumulativeVolume + qty
      && nt.cumulativeVolume == n'.cumulativeVolume
      && n'.recentTrades == Push(n.recentTrades, RecentTrade(price, qty, price * qty), VwapWindow)
      && n'.largeTradeThreshold == n.largeTradeThreshold
      && n'.orderbookDepth == n.orderbookDepth
      && nt.timestamp == t.tradeTime && nt.symbol == t.symbol
      && nt.tradeId == t.aggregateTradeId && nt.isBuyerMaker == t.isBuyerMaker
      && nt.price == price && nt.quantity == qty
  {
    match (ParseNum(t.price), ParseNum(t.quantity))
    case (Some(price), Some(qty)) =>
      var amount := price * qty;
      var n' := n.(cumulativeVolume := n.cumulativeVolume + qty,
                   recentTrades := Push(n.recentTrades, RecentTrade(price, qty, amount), VwapWindow));
      Some((n', NormalizedTrade(
        t.tradeTime, t.symbol, t.aggregateTradeId, price, qty, t.isBuyerMaker,
        amount, if t.isBuyerMaker then Sell else Buy, amount >= n.largeTradeThreshold,
        Vwap(n.recentTrades), n'.cumulativeVolume)))
    case _ => None
  }

  /** `_create_empty_normalized_orderbook`: all-zero figures, empty levels,
      identity fields kept. */
  function EmptyBook(b: OrderBook): (r: NormalizedOrderBook)
    ensures r.timestamp == b.eventTime && r.symbol == b.symbol && r.updateId == b.finalUpdateId
    ensures r.bids == [] && r.asks == []
    ensures r.bestBid == 0.0 && r.bestAsk == 0.0 && r.midPrice == 0.0 && r.spread == 0.0
    ensures r.spreadBps == 0.0 && r.totalBidVolume == 0.0 && r.totalAskVolume == 0.0
    ensures r.bidAskRatio == 0.0 && r.imbalance == 0.0
  {
    NormalizedOrderBook(b.eventTime, b.symbol, b.finalUpdateId,
      0.0, 0.0, 0.0, 0.0, 0.0, 0.0, 0.0, 0.0, 0.0, [], [])
  }

  function LevelQty(l: (real, real)): real { l.1 }

  /** Basis points of the spread relative to the mid price (0 unless mid > 0). */
  function SpreadBps(spread: real, mid: real): (r: real)
    ensures mid > 0.0 ==> r * mid == spread * 10000.0
    ensures mid <= 0.0 ==> r == 0.0
  {
    if mid > 0.0 then (spread / mid) * 10000.0 else 0.0
  }

  /** bid/ask volume ratio (0 unless the ask volume is positive). */
  function Ratio(bidVol: real, askVol: real): (r: real)
    ensures askVol > 0.0 ==> r * askVol == bidVol
    ensures askVol <= 0.0 ==> r == 0.0
  {
    if askVol > 0.0 then bidVol / askVol else 0.0
  }

  /** (bid − ask)/(bid + ask), 0 unless the total is positive. */
  function Imbalance(bidVol: real, askVol: real): (r: real)
    ensures bidVol + askVol > 0.0 ==> r * (bidVol + askVol) == bidVol - askVol
    ensures bidVol + askVol <= 0.0 ==> r == 0.0
  {
    var total := bidVol + askVol;
    if total > 0.0 then (bidVol - askVol) / total else 0.0
  }

  /** The figures of a book whose truncated level lists are non-empty. */
  function Figures(b: OrderBook, bids: seq<(real, real)>, asks: seq<(real, real)>): (r: NormalizedOrderBook)
    requires bids != [] && asks != []
    ensures r.timestamp == b.eventTime && r.symbol == b.symbol && r.updateId == b.finalUpdateId
    ensures r.bids == bids && r.asks == asks
    ensures r.bestBid == bids[0].0 && r.bestAsk == asks[0].0
    ensures r.midPrice == (r.bestBid + r.bestAsk) / 2.0
    ensures r.spread == r.bestAsk - r.bestBid
    ensures r.spreadBps == SpreadBps(r.spread, r.midPrice)
    ensures r.totalBidVolume == Sum(bids, LevelQty) && r.totalAskVolume == Sum(asks, LevelQty)
    ensures r.bidAskRatio == Ratio(r.totalBidVolume, r.totalAskVolume)
    ensures r.imbalance == Imbalance(r.totalBidVolume, r.totalAskVolume)
  {
    var bestBid := bids[0].0;
    var bestAsk := asks[0].0;
    var mid := (bestBid + bestAsk) / 2.0;
    var spread := bestAsk - bestBid;
    var bidVol := Sum(bids, LevelQty);
    var askVol := Sum(asks, LevelQty);
    NormalizedOrderBook(b.eventTime, b.symbol, b.finalUpdateId,
      bestBid, bestAsk, mid, spread, SpreadBps(spread, mid),
      bidVol, askVol, Ratio(bidVol, askVol), Imbalance(bidVol, askVol), bids, asks)
  }

  /** `normalize_orderbook`; `None` when a level within the first
      `orderbook_depth` does not convert. A side left empty after truncation
      gives the all-zero record. The normalizer's state is not an output: the
      trade window and cumulative volume cannot change. */
  function NormalizeOrderbook(n: Normalizer, b: OrderBook): (r: Option<NormalizedOrderBook>)
    ensures r.Some? <==>
      ParseLevels(PySliceTo(b.bids, n.orderbookDepth)).Some? && ParseLevels(PySliceTo(b.asks, n.orderbookDepth)).Some?
    ensures r.Some? ==> r.value.timestamp == b.eventTime && r.value.symbol == b.symbol && r.value.updateId == b.finalUpdateId
    ensures r.Some? ==>
      var bids := ParseLevels(PySliceTo(b.bids, n.orderbookDepth)).value;
      var asks := ParseLevels(PySliceTo(b.asks, n.orderbookDepth)).value;
      && (bids == [] || asks == [] ==> r.value == EmptyBook(b))
      && (bids != [] && asks != [] ==>
            && r.value.bids == bids && r.value.asks == asks
            && r.value.bestBid == bids[0].0 && r.value.bestAsk == asks[0].0
            && r.value.midPrice == (r.value.bestBid + r.value.bestAsk) / 2.0
            && r.value.spread == r.value.bestAsk - r.value.bestBid
            && r.value.spreadBps == SpreadBps(r.value.spread, r.value.midPrice)
            && r.value.totalBidVolume == Sum(bids, LevelQty)
            && r.value.totalAskVolume == Sum(asks, LevelQty)
            && r.value.bidAskRatio == Ratio(r.value.totalBidVolume, r.value.totalAskVolume)
            && r.value.imbalance == Imbalance(r.value.totalBidVolume, r.value.totalAskVolume))
  {
    match (ParseLevels(PySliceTo(b.bids, n.orderbookDepth)), ParseLevels(PySliceTo(b.asks, n.orderbookDepth)))
    case (Some(bids), Some(asks)) =>
      if bids == [] || asks == [] then Some(EmptyBook(b)) else Some(Figures(b, bids, asks))
    case _ => None
  }

  /** `reset`: the VWAP window and the cumulative volume restart. */
  function Reset(n: Normalizer): (r: Normalizer)
    ensures r.recentTrades == [] && r.cumulativeVolume == 0.0
    ensures r.largeTradeThreshold == n.largeTradeThreshold && r.orderbookDepth == n.orderbookDepth
  {
    n.(recentTrades := [], cumulativeVolume := 0.0)
  }

  // ----- properties -----

  /** Imbalance lies in [-1, 1] for non-negative volumes, is 0 for balanced
      volumes, and its sign says which side is heavier. */
  lemma ImbalanceBounds(bidVol: real, askVol: real)
    requires bidVol >= 0.0 && askVol >= 0.0
    ensures -1.0 <= Imbalance(bidVol, askVol) <= 1.0
    ensures bidVol == askVol ==> Imbalance(bidVol, askVol) == 0.0
    ensures Imbalance(bidVol, askVol) > 0.0 <==> bidVol > askVol
    ensures Imbalance(bidVol, askVol) < 0.0 <==> bidVol < askVol
  {
    if bidVol + askVol > 0.0 {
      SignedShare(Imbalance(bidVol, askVol), bidVol, askVol);
    }
  }

  /** A number `r` with `r·(b + a) = b − a`, for non-negative `b` and `a`
      of positive sum, lies in [-1, 1] and has the sign of `b − a`. */
  lemma SignedShare(r: real, b: real, a: real)
    requires b >= 0.0 && a >= 0.0 && b + a > 0.0
    requires r * (b + a) == b - a
    ensures -1.0 <= r <= 1.0
    ensures r > 0.0 <==> b > a
    ensures r < 0.0 <==> b < a
  {
    var t := b + a;
    var d := b - a;
    assert -t <= d <= t;
    assert r * t == d;
    assert -1.0 * t <= r * t <= 1.0 * t;
    ScaleBounds(r, t, -1.0, 1.0);
    ProductSign(r, t);
  }

  /** With a positive ask volume, imbalance and ratio carry the same
      information: imbalance = (ratio − 1)/(ratio + 1). */
  lemma ImbalanceFromRatio(bidVol: real, askVol: real)
    requires bidVol >= 0.0 && askVol > 0.0
    ensures Imbalance(bidVol, askVol) * (Ratio(bidVol, askVol) + 1.0) == Ratio(bidVol, askVol) - 1.0
  {
    var ratio := Ratio(bidVol, askVol);
    var imb := Imbalance(bidVol, askVol);
    assert ratio * askVol == bidVol;
    assert imb * (bidVol + askVol) == bidVol - askVol;
    calc {
      imb * (ratio + 1.0) * askVol;
      imb * (ratio * askVol + askVol);
      imb * (bidVol + askVol);
      bidVol - askVol;
      (ratio - 1.0) * askVol;
    }
    MulCancel(imb * (ratio + 1.0), ratio - 1.0, askVol);
  }

  /** The VWAP of a window of positive quantities lies between its lowest and
      highest price. */
  lemma VwapWithinPrices(w: seq<RecentTrade>, lo: real, hi: real)
    requires w != []
    requires forall e :: e in w ==> e.quantity > 0.0 && lo <= e.price <= hi
    ensures Vwap(w).Some?
    ensures lo <= Vwap(w).value <= hi
  {
    var value, weight := Price, Qty;
    forall i | 0 <= i < |w|
      ensures weight(w[i]) > 0.0 && lo <= value(w[i]) <= hi
    {
      assert w[i] in w;
    }
    WeightedMeanBounds(w, value, weight, lo, hi);
  }

  /** The order-book figures of a validated book, taken to a depth the
      validator fully inspects (1 to 5 levels), are well-formed: levels
      present, mid and spread from the top of book, imbalance in [-1, 1]. */
  lemma ValidatedBookNormalizes(v: Validator.Validator, n: Normalizer, b: OrderBook)
    requires Validator.AcceptableBook(v, b)
    requires 1 <= n.orderbookDepth <= Validator.CheckedLevels
    ensures NormalizeOrderbook(n, b).Some?
    ensures var nb := NormalizeOrderbook(n, b).value;
      && nb.bids != [] && nb.asks != []
      && nb.bestBid > 0.0 && nb.bestAsk > 0.0 && nb.midPrice > 0.0
      && -1.0 <= nb.imbalance <= 1.0
  {
    var rb := PySliceTo(b.bids, n.orderbookDepth);
    var ra := PySliceTo(b.asks, n.orderbookDepth);
    SlicesWithinChecked(b, n.orderbookDepth);
    SoundLevelsParse(rb);
    SoundLevelsParse(ra);
    var bids := ParseLevels(rb).value;
    var asks := ParseLevels(ra).value;
    SumNonNegative(bids, LevelQty);
    SumNonNegative(asks, LevelQty);
    ImbalanceBounds(Sum(bids, LevelQty), Sum(asks, LevelQty));
  }

  /** The first `d` bid and ask levels, `d` at most 5, are among the levels
      the validator inspects. */
  lemma SlicesWithinChecked(b: OrderBook, d: int)
    requires 1 <= d <= Validator.CheckedLevels
    ensures forall l :: l in PySliceTo(b.bids, d) ==> l in Validator.CheckedLevelsOf(b)
    ensures forall l :: l in PySliceTo(b.asks, d) ==> l in Validator.CheckedLevelsOf(b)
  {
    var cb := PySliceTo(b.bids, 5);
    var ca := PySliceTo(b.asks, 5);
    assert Validator.CheckedLevelsOf(b) == cb + ca;
    assert PySliceTo(b.bids, d) == cb[..Min(d, |cb|)];
    assert PySliceTo(b.asks, d) == ca[..Min(d, |ca|)];
  }

  /** Levels without a fault convert, to positive prices and non-negative
      quantities. */
  lemma SoundLevelsParse(levels: seq<Level>)
    requires forall l :: l in levels ==> Validator.LevelFault(l).None?
    ensures ParseLevels(levels).Some?
    ensures forall p :: p in ParseLevels(levels).value ==> p.0 > 0.0 && p.1 >= 0.0
  {
    assert forall i :: 0 <= i < |levels| ==> Validator.LevelFault(levels[i]).None?;
  }

  /** A validated trade always converts, and its notional is positive. */
  lemma ValidatedTradeNormalizes(v: Validator.Validator, n: Normalizer, t: Trade)
    requires Validator.AcceptableTrade(v, t)
    ensures NormalizeTrade(n, t).Some?
    ensures NormalizeTrade(n, t).value.1.amountUsdt > 0.0
  {
  }

  /** The spread is not forced non-negative: a crossed book that passes
      validation yields a negative spread. */
  lemma CrossedBookNegativeSpread(n: Normalizer)
    requires n.orderbookDepth == 5
    ensures var b := OrderBook("depthUpdate", 1, "BTCUSDT", 1, 2,
                               [[Text(Some(101.0)), Text(Some(1.0))]],
                               [[Text(Some(100.0)), Text(Some(1.0))]]);
      && Validator.AcceptableBook(Validator.New(None), b)
      && NormalizeOrderbook(n, b).Some?
      && NormalizeOrderbook(n, b).value.spread == -1.0
  {
    var b := OrderBook("depthUpdate", 1, "BTCUSDT", 1, 2,
                       [[Text(Some(101.0)), Text(Some(1.0))]],
                       [[Text(Some(100.0)), Text(Some(1.0))]]);
    assert Validator.CheckedLevelsOf(b) == b.bids + b.asks;
  }

  // ----- a run of trades -----

  /** Normalizing a run of trades in order, collecting the records. */
  function NormalizeTrades(n: Normalizer, ts: seq<Trade>): Option<(Normalizer, seq<NormalizedTrade>)>
    decreases |ts|
  {
    if ts == [] then Some((n, []))
    else match NormalizeTrade(n, ts[0])
      case None => None
      case Some((n1, nt)) =>
        match NormalizeTrades(n1, ts[1..])
        case None => None
        case Some((n2, rest)) => Some((n2, [nt] + rest))
  }

  /** One step of a successful run: the first trade normalizes and the rest
      of the run continues from the state it leaves. */
  lemma RunStep(n: Normalizer, ts: seq<Trade>)
    requires ts != [] && NormalizeTrades(n, ts).Some?
    ensures NormalizeTrade(n, ts[0]).Some?
    ensures NormalizeTrades(NormalizeTrade(n, ts[0]).value.0, ts[1..]).Some?
    ensures NormalizeTrades(n, ts).value.0 == NormalizeTrades(NormalizeTrade(n, ts[0]).value.0, ts[1..]).value.0
    ensures NormalizeTrades(n, ts).value.1 ==
      [NormalizeTrade(n, ts[0]).value.1] + NormalizeTrades(NormalizeTrade(n, ts[0]).value.0, ts[1..]).value.1
  {
  }

  function WindowEntry(nt: NormalizedTrade): RecentTrade
  {
    RecentTrade(nt.price, nt.quantity, nt.amountUsdt)
  }

  function WindowEntries(nts: seq<NormalizedTrade>): (r: seq<RecentTrade>)
    ensures |r| == |nts|
    decreases |nts|
  {
    if nts == [] then [] else [WindowEntry(nts[0])] + WindowEntries(nts[1..])
  }

  function TradeQty(nt: NormalizedTrade): real { nt.quantity }

  /** One normalized trade moves the state by exactly its own entry. */
  lemma TradeStep(n: Normalizer, t: Trade)
    requires NormalizeTrade(n, t).Some?
    ensures var (n1, nt) := NormalizeTrade(n, t).value;
      && n1.cumulativeVolume == n.cumulativeVolume + nt.quantity
      && n1.recentTrades == Last(n.recentTrades + [WindowEntry(nt)], VwapWindow)
      && n1.largeTradeThreshold == n.largeTradeThreshold
  {
  }

  /** A run of trades keeps the configuration, yields one record per trade,
      and grows the cumulative volume by exactly their quantities. */
  lemma {:induction false} RunVolume(n: Normalizer, ts: seq<Trade>)
    requires NormalizeTrades(n, ts).Some?
    ensures var (n', nts) := NormalizeTrades(n, ts).value;
      && |nts| == |ts|
      && n'.cumulativeVolume == n.cumulativeVolume + Sum(nts, TradeQty)
      && n'.largeTradeThreshold == n.largeTradeThreshold
    decreases |ts|
  {
    if ts != [] {
      RunStep(n, ts);
      TradeStep(n, ts[0]);
      var n1 := NormalizeTrade(n, ts[0]).value.0;
      var nt := NormalizeTrade(n, ts[0]).value.1;
      RunVolume(n1, ts[1..]);
      SumFront(nt, NormalizeTrades(n1, ts[1..]).value.1, TradeQty);
    }
  }

  /** After a run of trades the VWAP window holds the last 100 entries of
      everything it has seen. */
  lemma {:induction false} RunWindow(n: Normalizer, ts: seq<Trade>)
    requires |n.recentTrades| <= VwapWindow
    requires NormalizeTrades(n, ts).Some?
    ensures var (n', nts) := NormalizeTrades(n, ts).value;
      n'.recentTrades == Last(n.recentTrades + WindowEntries(nts), VwapWindow)
    decreases |ts|
  {
    if ts == [] {
      assert n.recentTrades + [] == n.recentTrades;
    } else {
      RunStep(n, ts);
      TradeStep(n, ts[0]);
      var n1 := NormalizeTrade(n, ts[0]).value.0;
      var nt := NormalizeTrade(n, ts[0]).value.1;
      assert |n1.recentTrades| <= VwapWindow;
      RunWindow(n1, ts[1..]);
      var rest := NormalizeTrades(n1, ts[1..]).value.1;
      WindowStep(n.recentTrades, WindowEntry(nt), WindowEntries(rest));
    }
  }

  lemma WindowStep(w: seq<RecentTrade>, e: RecentTrade, later: seq<RecentTrade>)
    ensures Last(Last(w + [e], VwapWindow) + later, VwapWindow) == Last(w + ([e] + later), VwapWindow)
  {
    LastOfConcat(w + [e], later, VwapWindow);
    assert w + [e] + later == w + ([e] + later);
  }

  /** The first trade after construction or `reset` has no VWAP. */
  lemma FirstTradeHasNoVwap(n: Normalizer, t: Trade)
    requires NormalizeTrade(Reset(n), t).Some?
    ensures NormalizeTrade(Reset(n), t).value.1.vwap.None?
    ensures NormalizeTrade(Reset(n), t).value.1.cumulativeVolume == ParseNum(t.quantity).value
  {
  }
}

=== FILE: pipeline.dfy ===
/** The message flow of core/data_pipeline.py: every decoded record is
    validated, normalized, stored, folded into the market state and handed
    to the subscriber callback. The callback is outside this module: `Process`
    runs a message up to the callback and `Settle` finishes it once the
    caller knows whether the callback raised. */
module Pipeline {
  import opened Base
  import opened Records
  import Settings
  import Validator
  import Normalizer
  import HotStorage
  import MarketState
  import Connector

  datatype Pipeline = Pipeline(
    symbol: string,
    connector: Connector.Connector,
    validator: Validator.Validator,
    normalizer: Normalizer.Normalizer,
    storage: HotStorage.Store,
    manager: MarketState.Manager,
    processedTrades: nat,
    processedOrderbooks: nat,
    validationErrors: nat)

  /** The `(data_type, data)` pair the connector hands to `on_message`. */
  datatype Message =
    | TradeMsg(trade: Trade)
    | BookMsg(book: OrderBook)
    | Unknown(tag: string)

  /** What the callback receives: the normalized record and the market
      state right after it was folded in. */
  datatype Delivery =
    | TradeUpdate(trade: Normalizer.NormalizedTrade, state: MarketState.MarketState)
    | BookUpdate(book: Normalizer.NormalizedOrderBook, state: MarketState.MarketState)

  /** `symbol or Settings.trading.default_symbol`. */
  function SymbolOr(symbol: Option<string>): (r: string)
    ensures symbol.Some? && symbol.value != "" ==> r == symbol.value
    ensures symbol.None? || symbol.value == "" ==> r == Settings.DefaultTrading().defaultSymbol
  {
    if symbol.None? || symbol.value == "" then Settings.DefaultTrading().defaultSymbol else symbol.value
  }

  /** `DataPipeline(symbol)` at wall-clock time `nowMs`: the connector works
      with the lower-case symbol, the validator, store and state manager
      with the upper-case one, all sized by the data configuration. */
  function New(symbol: Option<string>, nowMs: real): (p: Pipeline)
    ensures p.symbol == Lower(SymbolOr(symbol))
    ensures p.connector.symbols == [p.symbol] && p.connector.streams == Settings.DefaultData().defaultStreams
    ensures p.validator.expectedSymbols == {Upper(SymbolOr(symbol))}
    ensures p.storage.symbol == Upper(SymbolOr(symbol)) && p.manager.symbol == Upper(SymbolOr(symbol))
    ensures p.storage.trades.cap == 10000 && p.storage.orderbooks.cap == 1000 && p.storage.ttlSeconds == 3600
    ensures p.normalizer.orderbookDepth == 5 && p.normalizer.largeTradeThreshold == 10000.0
    ensures p.processedTrades == 0 && p.processedOrderbooks == 0 && p.validationErrors == 0
  {
    var cfg := Settings.DefaultData();
    var sym := Lower(SymbolOr(symbol));
    UpperOfLower(SymbolOr(symbol));
    Pipeline(
      sym,
      Connector.New(Some([sym]), Some(cfg.defaultStreams), None, None, None, None, None, cfg),
      Validator.New(Some({Upper(sym)})),
      Normalizer.New(cfg.largeTradeThresholdUsdt, cfg.orderbookDepth),
      HotStorage.New(Upper(sym), cfg.hotStorageMaxTrades as nat, cfg.hotStorageMaxOrderbooks as nat,
                     cfg.hotStorageTtlSec),
      MarketState.New(Upper(sym), nowMs),
      0, 0, 0)
  }

  /** The components' own bookkeeping, the error counter mirroring the
      validator's, the store and the state manager seeing the same records,
      and only stored records counted as processed. */
  ghost predicate Inv(p: Pipeline)
  {
    && Validator.Inv(p.validator) && HotStorage.Inv(p.storage) && MarketState.Inv(p.manager)
    && p.validationErrors == p.validator.totalErrors
    && p.storage.trades.stored == p.manager.state.tradeCount
    && p.storage.orderbooks.stored == p.manager.state.orderbookCount
    && p.processedTrades <= p.storage.trades.stored
    && p.processedOrderbooks <= p.storage.orderbooks.stored
    && p.storage.trades.stored + p.storage.orderbooks.stored + p.validationErrors <= p.validator.totalValidated
  }

  /** `_process_trade` up to the callback, at wall-clock time `nowMs`
      (`victim` picks the id evicted from a full duplicate set). A rejected
      trade only counts a validation error. An accepted one is normalized,
      stored under the truncated clock and folded into the market state; a
      conversion that raises after acceptance stops it there. */
  function ProcessTrade(p: Pipeline, t: Trade, victim: int, nowMs: real): (r: (Pipeline, Option<Delivery>))
    requires Inv(p)
    ensures Inv(r.0)
    ensures r.0.processedTrades == p.processedTrades && r.0.processedOrderbooks == p.processedOrderbooks
    ensures r.0.validationErrors == p.validationErrors + (if Validator.AcceptableTrade(p.validator, t) then 0 else 1)
    ensures r.1.Some? ==> r.1.value.TradeUpdate? && Validator.AcceptableTrade(p.validator, t)
    ensures r.1.Some? ==>
              && r.0.storage.trades.latest == Some(r.1.value.trade)
              && r.0.storage.trades.stored == p.storage.trades.stored + 1
              && r.1.value.state == r.0.manager.state
              && r.1.value.state.lastPrice == r.1.value.trade.price == ParseNum(t.price).value
    ensures r.1.Some? ==>
              && Normalizer.NormalizeTrade(p.normalizer, t) == Some((r.0.normalizer, r.1.value.trade))
              && r.0.storage == HotStorage.AddTrade(p.storage, r.1.value.trade, MarketState.TruncToInt(nowMs))
              && r.0.manager == MarketState.UpdateFromTrade(p.manager, r.1.value.trade, nowMs)
    ensures r.1.None? ==> r.0.storage == p.storage && r.0.manager == p.manager
  {
    CheckedTradeKeepsInv(p, t, victim, nowMs);
    var (p1, ok) := CheckTrade(p, t, victim);
    if !ok then (p1, None) else AcceptTrade(p1, t, nowMs)
  }

  lemma CheckedTradeKeepsInv(p: Pipeline, t: Trade, victim: int, nowMs: real)
    requires Inv(p)
    ensures Inv(CheckTrade(p, t, victim).0)
    ensures CheckTrade(p, t, victim).1 ==> Inv(AcceptTrade(CheckTrade(p, t, victim).0, t, nowMs).0)
  {
  }

  /** Step 1 of `_process_trade`: validation, with a failure counted. */
  function CheckTrade(p: Pipeline, t: Trade, victim: int): (r: (Pipeline, bool))
    requires Validator.Inv(p.validator) && p.validationErrors == p.validator.totalErrors
    ensures r.1 <==> Validator.AcceptableTrade(p.validator, t)
    ensures Validator.Inv(r.0.validator) && r.0.validationErrors == r.0.validator.totalErrors
    ensures r.0.validator.totalValidated == p.validator.totalValidated + 1
    ensures r.0.validationErrors == p.validationErrors + (if r.1 then 0 else 1)
    ensures r.0 == p.(validator := r.0.validator, validationErrors := r.0.validationErrors)
  {
    var (v1, res) := Validator.ValidateTrade(p.validator, t, victim);
    Validator.ValidateTradeKeepsInv(p.validator, t, victim);
    if res.isValid then (p.(validator := v1), true)
    else (p.(validator := v1, validationErrors := p.validationErrors + 1), false)
  }

  /** Steps 2 to 4 of `_process_trade`: normalize, store and fold into the
      market state; nothing changes when a conversion raises. */
  function AcceptTrade(p: Pipeline, t: Trade, nowMs: real): (r: (Pipeline, Option<Delivery>))
    requires HotStorage.Inv(p.storage) && MarketState.Inv(p.manager)
    ensures HotStorage.Inv(r.0.storage) && MarketState.Inv(r.0.manager)
    ensures r.1.Some? <==> ParseNum(t.price).Some? && ParseNum(t.quantity).Some?
    ensures r.1.None? ==> r.0 == p
    ensures r.0 == p.(normalizer := r.0.normalizer, storage := r.0.storage, manager := r.0.manager)
    ensures r.1.Some? ==>
              && r.1.value.TradeUpdate? && r.1.value.state == r.0.manager.state
              && r.0.storage.trades.latest == Some(r.1.value.trade)
              && r.0.storage.orderbooks == p.storage.orderbooks
              && r.0.storage.trades.stored == p.storage.trades.stored + 1
              && r.0.manager.state.tradeCount == p.manager.state.tradeCount + 1
              && r.0.manager.state.orderbookCount == p.manager.state.orderbookCount
              && r.1.value.state.lastPrice == r.1.value.trade.price == ParseNum(t.price).value
    ensures r.1.Some? ==>
              && Normalizer.NormalizeTrade(p.normalizer, t) == Some((r.0.normalizer, r.1.value.trade))
              && r.0.storage == HotStorage.AddTrade(p.storage, r.1.value.trade, MarketState.TruncToInt(nowMs))
              && r.0.manager == MarketState.UpdateFromTrade(p.manager, r.1.value.trade, nowMs)
  {
    match Normalizer.NormalizeTrade(p.normalizer, t)
    case None => (p, None)
    case Some((n1, nt)) =>
      var s1 := HotStorage.AddTrade(p.storage, nt, MarketState.TruncToInt(nowMs));
      var m1 := MarketState.UpdateFromTrade(p.manager, nt, nowMs);
      (p.(normalizer := n1, storage := s1, manager := m1), Some(TradeUpdate(nt, m1.state)))
  }

  /** `_process_orderbook` up to the callback, with the same shape as
      `ProcessTrade`. */
  function ProcessOrderbook(p: Pipeline, b: OrderBook, nowMs: real): (r: (Pipeline, Option<Delivery>))
    requires Inv(p)
    ensures Inv(r.0)
    ensures r.0.processedTrades == p.processedTrades && r.0.processedOrderbooks == p.processedOrderbooks
    ensures r.0.validationErrors == p.validationErrors + (if Validator.AcceptableBook(p.validator, b) then 0 else 1)
    ensures r.1.Some? ==> r.1.value.BookUpdate? && Validator.AcceptableBook(p.validator, b)
    ensures r.1.Some? ==>
              && r.0.storage.orderbooks.latest == Some(r.1.value.book)
              && r.0.storage.orderbooks.stored == p.storage.orderbooks.stored + 1
              && r.1.value.state == r.0.manager.state
              && r.1.value.state.bidAskImbalance == r.1.value.book.imbalance
    ensures r.1.Some? ==>
              && Normalizer.NormalizeOrderbook(p.normalizer, b) == Some(r.1.value.book)
              && r.0.storage == HotStorage.AddOrderbook(p.storage, r.1.value.book, MarketState.TruncToInt(nowMs))
              && r.0.manager == MarketState.UpdateFromOrderbook(p.manager, r.1.value.book, nowMs)
    ensures r.1.None? ==> r.0.storage == p.storage && r.0.manager == p.manager
  {
    var (p1, ok) := CheckOrderbook(p, b);
    if !ok then (p1, None) else AcceptOrderbook(p1, b, nowMs)
  }

  /** Step 1 of `_process_orderbook`. */
  function CheckOrderbook(p: Pipeline, b: OrderBook): (r: (Pipeline, bool))
    requires Validator.Inv(p.validator) && p.validationErrors == p.validator.totalErrors
    ensures r.1 <==> Validator.AcceptableBook(p.validator, b)
    ensures Validator.Inv(r.0.validator) && r.0.validationErrors == r.0.validator.totalErrors
    ensures r.0.validator.totalValidated == p.validator.totalValidated + 1
    ensures r.0.validationErrors == p.validationErrors + (if r.1 then 0 else 1)
    ensures r.0 == p.(validator := r.0.validator, validationErrors := r.0.validationErrors)
  {
    var (v1, res) := Validator.ValidateOrderbook(p.validator, b);
    Validator.ValidateOrderbookKeepsInv(p.validator, b);
    if res.isValid then (p.(validator := v1), true)
    else (p.(validator := v1, validationErrors := p.validationErrors + 1), false)
  }

  /** Steps 2 to 4 of `_process_orderbook`; nothing changes when a level
      within the kept depth does not convert. */
  function AcceptOrderbook(p: Pipeline, b: OrderBook, nowMs: real): (r: (Pipeline, Option<Delivery>))
    requires HotStorage.Inv(p.storage) && MarketState.Inv(p.manager)
    ensures HotStorage.Inv(r.0.storage) && MarketState.Inv(r.0.manager)
    ensures r.1.Some? <==> Normalizer.NormalizeOrderbook(p.normalizer, b).Some?
    ensures r.1.None? ==> r.0 == p
    ensures r.0 == p.(storage := r.0.storage, manager := r.0.manager)
    ensures r.1.Some? ==>
              && r.1.value == BookUpdate(Normalizer.NormalizeOrderbook(p.normalizer, b).value, r.0.manager.state)
              && r.0.storage.orderbooks.latest == Some(r.1.value.book)
              && r.0.storage.trades == p.storage.trades
              && r.0.storage.orderbooks.stored == p.storage.orderbooks.stored + 1
              && r.0.manager.state.orderbookCount == p.manager.state.orderbookCount + 1
              && r.0.manager.state.tradeCount == p.manager.state.tradeCount
              && r.1.value.state.bidAskImbalance == r.1.value.book.imbalance
    ensures r.1.Some? ==>
              && r.0.storage == HotStorage.AddOrderbook(p.storage, r.1.value.book, MarketState.TruncToInt(nowMs))
              && r.0.manager == MarketState.UpdateFromOrderbook(p.manager, r.1.value.book, nowMs)
  {
    match Normalizer.NormalizeOrderbook(p.normalizer, b)
    case None => (p, None)
    case Some(nb) =>
      var s1 := HotStorage.AddOrderbook(p.storage, nb, MarketState.TruncToInt(nowMs));
      var m1 := MarketState.UpdateFromOrderbook(p.manager, nb, nowMs);
      (p.(storage := s1, manager := m1), Some(BookUpdate(nb, m1.state)))
  }

  /** `on_message` up to the callback; an unknown tag changes nothing. */
  function Process(p: Pipeline, m: Message, victim: int, nowMs: real): (r: (Pipeline, Option<Delivery>))
    requires Inv(p)
    ensures Inv(r.0)
    ensures m.Unknown? ==> r == (p, None)
    ensures m.TradeMsg? ==> r == ProcessTrade(p, m.trade, victim, nowMs)
    ensures m.BookMsg? ==> r == ProcessOrderbook(p, m.book, nowMs)
  {
    match m
    case TradeMsg(t) => ProcessTrade(p, t, victim, nowMs)
    case BookMsg(b) => ProcessOrderbook(p, b, nowMs)
    case Unknown(_) => (p, None)
  }

  /** The rest of `_process_*` once the callback has run: the record counts
      as processed unless the callback raised (the exception then ends in
      `on_message`'s handler). */
  function Settle(p: Pipeline, d: Option<Delivery>, raised: bool): (r: Pipeline)
    ensures r.(processedTrades := p.processedTrades, processedOrderbooks := p.processedOrderbooks) == p
    ensures r.processedTrades == p.processedTrades + (if d.Some? && d.value.TradeUpdate? && !raised then 1 else 0)
    ensures r.processedOrderbooks == p.processedOrderbooks + (if d.Some? && d.value.BookUpdate? && !raised then 1 else 0)
  {
    match d
    case None => p
    case Some(TradeUpdate(_, _)) => if raised then p else p.(processedTrades := p.processedTrades + 1)
    case Some(BookUpdate(_, _)) => if raised then p else p.(processedOrderbooks := p.processedOrderbooks + 1)
  }

  /** One whole `on_message` call, given whether the callback raises: an
      unknown event changes nothing, a trade or book is validated once, and
      at most one record more counts as processed, none when the callback
      raised. */
  function Step(p: Pipeline, m: Message, victim: int, nowMs: real, raised: bool): (r: Pipeline)
    requires Inv(p)
    ensures m.Unknown? ==> r == p
    ensures !m.Unknown? ==> r.validator.totalValidated == p.validator.totalValidated + 1
    ensures raised ==> r.processedTrades == p.processedTrades && r.processedOrderbooks == p.processedOrderbooks
    ensures p.processedTrades <= r.processedTrades && p.processedOrderbooks <= r.processedOrderbooks
    ensures r.processedTrades + r.processedOrderbooks <= p.processedTrades + p.processedOrderbooks + 1
  {
    var (p1, d) := Process(p, m, victim, nowMs);
    Settle(p1, d, raised)
  }

  // ----- properties -----

  /** A fresh pipeline satisfies the invariant and inspects every level it
      keeps of a book. */
  lemma NewKeepsInv(symbol: Option<string>, nowMs: real)
    ensures Inv(New(symbol, nowMs))
    ensures 1 <= New(symbol, nowMs).normalizer.orderbookDepth <= Validator.CheckedLevels
  {
  }

  /** Whatever the callback does, every message keeps the invariant: the
      processed counters stay within what the store received. */
  lemma StepKeepsInv(p: Pipeline, m: Message, victim: int, nowMs: real, raised: bool)
    requires Inv(p)
    ensures Inv(Step(p, m, victim, nowMs, raised))
  {
    var (p1, d) := Process(p, m, victim, nowMs);
    if m.TradeMsg? && d.Some? {
      assert p1.storage.trades.stored == p.storage.trades.stored + 1;
    } else if m.BookMsg? && d.Some? {
      assert p1.storage.orderbooks.stored == p.storage.orderbooks.stored + 1;
    }
  }

  /** A rejected record reaches neither the store, the market state nor the
      callback: only the validator and the error counter change. */
  lemma RejectedTradeOnlyCounted(p: Pipeline, t: Trade, victim: int, nowMs: real, raised: bool)
    requires Inv(p)
    requires !Validator.AcceptableTrade(p.validator, t)
    ensures Process(p, TradeMsg(t), victim, nowMs).1.None?
    ensures Step(p, TradeMsg(t), victim, nowMs, raised) ==
              p.(validator := Validator.ValidateTrade(p.validator, t, victim).0,
                 validationErrors := p.validationErrors + 1)
  {
    var (p1, ok) := CheckTrade(p, t, victim);
    assert !ok && p1.validator == Validator.ValidateTrade(p.validator, t, victim).0;
    assert Process(p, TradeMsg(t), victim, nowMs) == (p1, None);
  }

  lemma RejectedBookOnlyCounted(p: Pipeline, b: OrderBook, nowMs: real, raised: bool)
    requires Inv(p)
    requires !Validator.AcceptableBook(p.validator, b)
    ensures Process(p, BookMsg(b), 0, nowMs).1.None?
    ensures Step(p, BookMsg(b), 0, nowMs, raised) ==
              p.(validator := Validator.ValidateOrderbook(p.validator, b).0,
                 validationErrors := p.validationErrors + 1)
  {
    var (p1, ok) := CheckOrderbook(p, b);
    assert !ok && p1.validator == Validator.ValidateOrderbook(p.validator, b).0;
    assert Process(p, BookMsg(b), 0, nowMs) == (p1, None);
  }

  /** An accepted trade always reaches the callback with a positive
      notional, and counts as processed when the callback returns. */
  lemma AcceptedTradeDelivered(p: Pipeline, t: Trade, victim: int, nowMs: real)
    requires Inv(p)
    requires Validator.AcceptableTrade(p.validator, t)
    ensures Process(p, TradeMsg(t), victim, nowMs).1.Some?
    ensures Process(p, TradeMsg(t), victim, nowMs).1.value.trade.amountUsdt > 0.0
    ensures Step(p, TradeMsg(t), victim, nowMs, false).processedTrades == p.processedTrades + 1
    ensures Step(p, TradeMsg(t), victim, nowMs, true).processedTrades == p.processedTrades
  {
    Normalizer.ValidatedTradeNormalizes(p.validator, p.normalizer, t);
  }

  /** An accepted book reaches the callback when the kept depth is within
      the validated levels, with an imbalance in [-1, 1]. */
  lemma AcceptedBookDelivered(p: Pipeline, b: OrderBook, nowMs: real)
    requires Inv(p)
    requires Validator.AcceptableBook(p.validator, b)
    requires 1 <= p.normalizer.orderbookDepth <= Validator.CheckedLevels
    ensures Process(p, BookMsg(b), 0, nowMs).1.Some?
    ensures -1.0 <= Process(p, BookMsg(b), 0, nowMs).1.value.state.bidAskImbalance <= 1.0
    ensures Step(p, BookMsg(b), 0, nowMs, false).processedOrderbooks == p.processedOrderbooks + 1
  {
    Normalizer.ValidatedBookNormalizes(p.validator, p.normalizer, b);
  }

  /** The symbol's case does not matter: two spellings that lower-case
      alike build the same pipeline. */
  lemma SymbolCaseIrrelevant(s1: string, s2: string, nowMs: real)
    requires s1 != "" && s2 != "" && Lower(s1) == Lower(s2)
    ensures New(Some(s1), nowMs) == New(Some(s2), nowMs)
  {
  }

  /** The default pipeline streams `btcusdt` and accepts `BTCUSDT`. */
  lemma DefaultSymbol(nowMs: real)
    ensures New(None, nowMs).symbol == "btcusdt"
    ensures New(None, nowMs).validator.expectedSymbols == {"BTCUSDT"}
  {
    var s := Settings.DefaultTrading().defaultSymbol;
    assert Lower(s) == "btcusdt";
    assert Upper(s) == "BTCUSDT";
  }
}

=== FILE: reconciliation.dfy ===
/** The REST cross-check of the stream price (core/data_reconciliation.py):
    the accept/reject gate consulted before an order and the periodic
    mismatch counters. The HTTP request for the 24-hour ticker is an input
    (`Fetch`). */
module Reconciliation {
  import opened Base

  /** A pre-order check rejects a relative difference above 0.5%. */
  const OrderTolerance: real := 0.005

  /** The periodic check counts a mismatch above 0.1%. */
  const MonitorTolerance: real := 0.001

  const DefaultInterval: int := 60

  datatype Reconciler = Reconciler(
    symbol: string,
    interval: int,
    totalChecks: nat,
    mismatchCount: nat,
    lastRestPrice: Option<real>,
    lastWsPrice: Option<real>)

  function New(symbol: string, interval: int): (r: Reconciler)
    ensures r.symbol == symbol && r.interval == interval
    ensures r.totalChecks == 0 && r.mismatchCount == 0
    ensures r.lastRestPrice.None? && r.lastWsPrice.None?
  {
    Reconciler(symbol, interval, 0, 0, None, None)
  }

  /** Mismatches are a subset of the checks. */
  ghost predicate Inv(r: Reconciler)
  {
    r.mismatchCount <= r.totalChecks
  }

  /** `abs(rest - ws) / rest`; negative when the REST price is. */
  function RelativeDiff(rest: real, ws: real): real
    requires rest != 0.0
  {
    Abs(rest - ws) / rest
  }

  /** What the 24-hour ticker request yields, as far as its callers read
      it: no reply (a non-200 status, a timeout, any client error, or an
      empty body), or a reply whose `lastPrice` converts to a number
      (`Some`) or is missing or not a number (`None`, where
      `float(rest_data['lastPrice'])` raises). */
  datatype Fetch = NoReply | Reply(lastPrice: Option<real>)

  /** `(is_valid, rest_price)` as returned by `verify_before_order`. */
  datatype Verdict = Verdict(valid: bool, restPrice: Option<real>)

  /** `verify_before_order(ws_price)` given the ticker reply: a rejection
      without a price when there is no reply, a conversion error (not
      caught) when the reply's price is missing or not a number, a division
      by zero on a zero price, and otherwise acceptance exactly when the
      prices differ by at most 0.5% of the REST price (a negative REST price
      is always accepted). */
  function VerifyBeforeOrder(fetched: Fetch, ws: real): (v: Result<Verdict, Fault>)
    ensures fetched.NoReply? ==> v == Ok(Verdict(false, None))
    ensures v.Err? <==> fetched == Reply(None) || fetched == Reply(Some(0.0))
    ensures fetched == Reply(None) ==> v == Err(ConversionFailed)
    ensures fetched == Reply(Some(0.0)) ==> v == Err(ZeroDivision)
    ensures v.Ok? && fetched.Reply? ==> v.value.restPrice == fetched.lastPrice
    ensures fetched.Reply? && fetched.lastPrice.Some? && fetched.lastPrice.value > 0.0 ==>
              && v.Ok?
              && (v.value.valid <==> Abs(fetched.lastPrice.value - ws) <= OrderTolerance * fetched.lastPrice.value)
    ensures fetched.Reply? && fetched.lastPrice.Some? && fetched.lastPrice.value < 0.0 ==> v.Ok? && v.value.valid
  {
    match fetched
    case NoReply => Ok(Verdict(false, None))
    case Reply(None) => Err(ConversionFailed)
    case Reply(Some(rest)) =>
      if rest == 0.0 then Err(ZeroDivision)
      else
        var diff := RelativeDiff(rest, ws);
        DiffScale(rest, ws, OrderTolerance);
        if diff > OrderTolerance then Ok(Verdict(false, Some(rest)))
        else Ok(Verdict(true, Some(rest)))
  }

  /** Comparing the relative difference against a positive tolerance is
      comparing the absolute difference against that share of the price. */
  lemma DiffScale(rest: real, ws: real, tol: real)
    requires rest != 0.0 && tol > 0.0
    ensures rest > 0.0 ==> (RelativeDiff(rest, ws) > tol <==> Abs(rest - ws) > tol * rest)
    ensures rest < 0.0 ==> RelativeDiff(rest, ws) <= 0.0
  {
    var d := RelativeDiff(rest, ws);
    assert d * rest == Abs(rest - ws);
    if rest > 0.0 {
      ScaleOrder(d, tol, rest);
    } else {
      ProductSign(d, -rest);
    }
  }

  /** The periodic `_check_data_integrity` given the ticker reply. No
      reply, or a reply whose price does not convert (the exception is
      swallowed before any field is written), changes nothing. Otherwise the REST price is recorded
      and the check counted; when a non-zero stream price is known and the
      prices differ by more than 0.1% of a positive REST price, a mismatch
      is counted too. A zero REST price raises after the check is counted,
      and the exception is swallowed. */
  function CheckDataIntegrity(r: Reconciler, fetched: Fetch): (r2: Reconciler)
    ensures fetched.NoReply? || fetched == Reply(None) ==> r2 == r
    ensures fetched.Reply? && fetched.lastPrice.Some? ==>
              r2.lastRestPrice == fetched.lastPrice && r2.totalChecks == r.totalChecks + 1
    ensures r2.symbol == r.symbol && r2.interval == r.interval && r2.lastWsPrice == r.lastWsPrice
    ensures r2.mismatchCount == r.mismatchCount || r2.mismatchCount == r.mismatchCount + 1
    ensures r2.mismatchCount == r.mismatchCount + 1 <==>
              && fetched.Reply? && fetched.lastPrice.Some? && fetched.lastPrice.value > 0.0
              && r.lastWsPrice.Some? && r.lastWsPrice.value != 0.0
              && Abs(fetched.lastPrice.value - r.lastWsPrice.value) > MonitorTolerance * fetched.lastPrice.value
  {
    match fetched
    case NoReply => r
    case Reply(None) => r
    case Reply(Some(rest)) =>
      var checked := r.(lastRestPrice := Some(rest), totalChecks := r.totalChecks + 1);
      match r.lastWsPrice
      case Some(ws) =>
        if ws == 0.0 || rest == 0.0 then checked
        else
          DiffScale(rest, ws, MonitorTolerance);
          if RelativeDiff(rest, ws) > MonitorTolerance then checked.(mismatchCount := r.mismatchCount + 1)
          else checked
      case None => checked
  }

  /** `update_ws_price`: only the last stream price changes. */
  function UpdateWsPrice(r: Reconciler, price: real): (r2: Reconciler)
    ensures r2.lastWsPrice == Some(price)
    ensures r2.(lastWsPrice := r.lastWsPrice) == r
  {
    r.(lastWsPrice := Some(price))
  }

  /** The `mismatch_rate` of `get_stats`, in percent: 0 before any check. */
  function MismatchRate(r: Reconciler): (rate: real)
    ensures r.totalChecks == 0 ==> rate == 0.0
    ensures r.totalChecks > 0 ==> rate * r.totalChecks as real == r.mismatchCount as real * 100.0
  {
    if r.totalChecks > 0 then r.mismatchCount as real / r.totalChecks as real * 100.0 else 0.0
  }

  // ----- properties -----

  /** The two things that happen to a reconciler between orders. */
  datatype Event = WsPrice(price: real) | Check(fetched: Fetch)

  function Run(r: Reconciler, evs: seq<Event>): Reconciler
    decreases |evs|
  {
    if evs == [] then r
    else
      var r1 := match evs[0]
        case WsPrice(p) => UpdateWsPrice(r, p)
        case Check(f) => CheckDataIntegrity(r, f);
      Run(r1, evs[1..])
  }

  /** Any run of stream-price updates and periodic checks keeps the
      mismatches within the checks, and each event counts at most one
      check. */
  lemma {:induction false} RunKeepsInv(r: Reconciler, evs: seq<Event>)
    requires Inv(r)
    ensures Inv(Run(r, evs))
    ensures Run(r, evs).totalChecks <= r.totalChecks + |evs|
    decreases |evs|
  {
    if evs != [] {
      var r1 := match evs[0]
        case WsPrice(p) => UpdateWsPrice(r, p)
        case Check(f) => CheckDataIntegrity(r, f);
      RunKeepsInv(r1, evs[1..]);
    }
  }

  /** With the mismatches within the checks, the rate is a percentage. */
  lemma MismatchRateBounds(r: Reconciler)
    requires Inv(r)
    ensures 0.0 <= MismatchRate(r) <= 100.0
  {
    if r.totalChecks > 0 {
      var t := r.totalChecks as real;
      var rate := MismatchRate(r);
      assert rate * t == r.mismatchCount as real * 100.0;
      assert 0.0 * t <= rate * t <= 100.0 * t;
      ScaleBounds(rate, t, 0.0, 100.0);
    }
  }

  /** The periodic tolerance is the stricter one: a stream price that the
      periodic check would not flag passes the pre-order check. */
  lemma ToleranceNesting(rest: real, ws: real)
    requires rest > 0.0
    requires Abs(rest - ws) <= MonitorTolerance * rest
    ensures VerifyBeforeOrder(Reply(Some(rest)), ws) == Ok(Verdict(true, Some(rest)))
  {
  }

  /** A stream price 0.6% away from the REST price is rejected, one 0.3%
      away accepted, and one exactly 0.5% away accepted; no reply rejects,
      and a reply without a number raises. */
  lemma VerifyExamples()
    ensures VerifyBeforeOrder(Reply(Some(100.6)), 100.0) == Ok(Verdict(false, Some(100.6)))
    ensures VerifyBeforeOrder(Reply(Some(100.3)), 100.0) == Ok(Verdict(true, Some(100.3)))
    ensures VerifyBeforeOrder(Reply(Some(200.0)), 199.0) == Ok(Verdict(true, Some(200.0)))
    ensures VerifyBeforeOrder(NoReply, 100.0) == Ok(Verdict(false, None))
    ensures VerifyBeforeOrder(Reply(None), 100.0) == Err(ConversionFailed)
  {
  }

  /** A stream price recorded before a check is the one it compares with:
      100.2 against a REST price of 100.0 is a 0.2% mismatch. */
  lemma MismatchAfterWsUpdate(r: Reconciler)
    requires Inv(r)
    ensures CheckDataIntegrity(UpdateWsPrice(r, 100.2), Reply(Some(100.0))).mismatchCount == r.mismatchCount + 1
    ensures CheckDataIntegrity(UpdateWsPrice(r, 100.05), Reply(Some(100.0))).mismatchCount == r.mismatchCount
  {
  }
}

=== FILE: records.dfy ===
/** The two wire records produced by the stream decoder (models/trade.py and
    models/order_book.py). Numeric fields arrive as text; the decoder's
    `float(...)` outcome for each text is carried with it. */
module Records {
  import opened Base

  /** A numeric text field as decoded from the wire. `Missing` is a JSON null
      or absent key, `Blank` the empty string (both falsy in Python), and
      `Text` any other string together with what `float(...)` makes of it. */
  datatype NumText = Missing | Blank | Text(parsed: Option<real>)

  predicate Falsy(f: NumText)
  {
    f.Missing? || f.Blank?
  }

  /** `float(f)`: `None` when the conversion raises. */
  function ParseNum(f: NumText): (r: Option<real>)
    ensures Falsy(f) ==> r.None?
  {
    match f
    case Text(p) => p
    case _ => None
  }

  /** One aggregate-trade event (`aggTrade`). */
  datatype Trade = Trade(
    eventType: string,
    eventTime: int,
    symbol: string,
    aggregateTradeId: int,
    price: NumText,
    quantity: NumText,
    firstTradeId: int,
    lastTradeId: int,
    tradeTime: int,
    isBuyerMaker: bool)

  /** One book level, `["price", "quantity", ...]`. */
  type Level = seq<NumText>

  /** One depth-update event (`depthUpdate`). An absent level list is
      represented as the empty list: the validator rejects both alike,
      while slicing an absent list in the normalizer would raise. */
  datatype OrderBook = OrderBook(
    eventType: string,
    eventTime: int,
    symbol: string,
    firstUpdateId: int,
    finalUpdateId: int,
    bids: seq<Level>,
    asks: seq<Level>)

  /** `(float(l[0]), float(l[1]))`: `None` when the level is too short or
      either text does not convert. */
  function ParseLevel(l: Level): (r: Option<(real, real)>)
    ensures r.Some? <==> |l| >= 2 && ParseNum(l[0]).Some? && ParseNum(l[1]).Some?
    ensures r.Some? ==> r.value == (ParseNum(l[0]).value, ParseNum(l[1]).value)
  {
    if |l| < 2 then None
    else match (ParseNum(l[0]), ParseNum(l[1]))
      case (Some(p), Some(q)) => Some((p, q))
      case _ => None
  }

  /** `[(float(l[0]), float(l[1])) for l in levels]`: `None` when any level
      raises. */
  function ParseLevels(levels: seq<Level>): (r: Option<seq<(real, real)>>)
    ensures r.Some? <==> forall i :: 0 <= i < |levels| ==> ParseLevel(levels[i]).Some?
    ensures r.Some? ==> |r.value| == |levels|
    ensures r.Some? ==> forall i :: 0 <= i < |levels| ==> r.value[i] == ParseLevel(levels[i]).value
    decreases |levels|
  {
    if levels == [] then Some([])
    else match (ParseLevel(levels[0]), ParseLevels(levels[1..]))
      case (Some(l), Some(rest)) => Some([l] + rest)
      case _ => None
  }
}

=== FILE: settings.dfy ===
/** Configuration records and their checks (config/settings.py). */
module Settings {
  import opened Base

  /** `BinanceConfig`, without the credentials (read from the environment). */
  datatype BinanceConfig = BinanceConfig(testnet: bool, futuresWsUrl: string, testnetWsUrl: string)

  const FuturesWsUrl: string := "wss://fstream.binance.com/stream"
  const TestnetWsUrl: string := "wss://stream.binancefuture.com/stream"

  function DefaultBinance(testnet: bool): (c: BinanceConfig)
    ensures c.testnet == testnet
  {
    BinanceConfig(testnet, FuturesWsUrl, TestnetWsUrl)
  }

  /** `websocket_url`: the testnet stream endpoint exactly when `testnet`. */
  function WebsocketUrl(c: BinanceConfig): (url: string)
    ensures c.testnet ==> url == c.testnetWsUrl
    ensures !c.testnet ==> url == c.futuresWsUrl
  {
    if c.testnet then c.testnetWsUrl else c.futuresWsUrl
  }

  datatype TradingConfig = TradingConfig(
    defaultSymbol: string,
    supportedSymbols: set<string>,
    minTradeAmountUsdt: real,
    priceSpikeWindowSec: real,
    priceSpikeThreshold: real,
    imbalanceThreshold: real,
    initialCapital: real,
    leverage: int,
    positionSize: real,
    stopLossPct: real,
    tradingFeePct: real)

  function DefaultTrading(): TradingConfig
  {
    TradingConfig("BTCUSDT", {"BTCUSDT", "ETHUSDT"}, 10000.0, 5.0, 0.001, 0.65,
                  100000.0, 10, 1000000.0, 0.05, 0.0005)
  }

  /** The three ranges `__post_init__` enforces. */
  predicate SpikeThresholdOk(c: TradingConfig) { 0.0 < c.priceSpikeThreshold < 1.0 }

  predicate ImbalanceThresholdOk(c: TradingConfig) { 0.5 < c.imbalanceThreshold < 1.0 }

  predicate LeverageOk(c: TradingConfig) { 1 <= c.leverage <= 125 }

  /** `TradingConfig(...)`: construction raises `ValueError` with the
      message of the first range that fails, in the order spike threshold,
      imbalance threshold, leverage. */
  function CheckTrading(c: TradingConfig): (r: Result<TradingConfig, string>)
    ensures r.Ok? <==> SpikeThresholdOk(c) && ImbalanceThresholdOk(c) && LeverageOk(c)
    ensures r.Ok? ==> r.value == c
    ensures !SpikeThresholdOk(c) ==> r == Err("price_spike_threshold must be between 0 and 1")
    ensures SpikeThresholdOk(c) && !ImbalanceThresholdOk(c) ==>
              r == Err("imbalance_threshold must be between 0.5 and 1")
    ensures SpikeThresholdOk(c) && ImbalanceThresholdOk(c) && !LeverageOk(c) ==>
              r == Err("leverage must be between 1 and 125")
  {
    if c.priceSpikeThreshold <= 0.0 || c.priceSpikeThreshold >= 1.0 then
      Err("price_spike_threshold must be between 0 and 1")
    else if c.imbalanceThreshold <= 0.5 || c.imbalanceThreshold >= 1.0 then
      Err("imbalance_threshold must be between 0.5 and 1")
    else if c.leverage < 1 || c.leverage > 125 then
      Err("leverage must be between 1 and 125")
    else Ok(c)
  }

  /** `DataConfig`. The default stream set is given in one fixed iteration
      order, since the stream URL lists the streams in that order. */
  datatype DataConfig = DataConfig(
    wsPingIntervalSec: real,
    wsPingTimeoutSec: real,
    wsReconnectMaxAttempts: int,
    wsInitialBackoffSec: real,
    wsMaxBackoffSec: real,
    validationEnabled: bool,
    duplicateCheckEnabled: bool,
    maxRecentTradeIds: int,
    orderbookDepth: int,
    largeTradeThresholdUsdt: real,
    hotStorageMaxTrades: int,
    hotStorageMaxOrderbooks: int,
    hotStorageTtlSec: int,
    defaultStreams: seq<string>)

  function DefaultData(): DataConfig
  {
    DataConfig(20.0, 10.0, 10, 1.0, 60.0, true, true, 1000, 5, 10000.0, 10000, 1000, 3600,
               ["depth", "aggTrade"])
  }

  /** The backwards-compatible aliases on `Settings`. */
  const MinTradeAmount: real := DefaultTrading().minTradeAmountUsdt
  const PriceSpikeWindow: real := DefaultTrading().priceSpikeWindowSec
  const PriceSpikeThreshold: real := DefaultTrading().priceSpikeThreshold
  const ImbalanceThreshold: real := DefaultTrading().imbalanceThreshold

  // ----- properties -----

  /** The shipped trading defaults pass every range check. */
  lemma DefaultTradingAccepted()
    ensures CheckTrading(DefaultTrading()) == Ok(DefaultTrading())
    ensures PriceSpikeThreshold == 0.001 && ImbalanceThreshold == 0.65
  {
  }

  /** Each bound is exclusive where the message says "between" for the
      thresholds, and inclusive for leverage. */
  lemma CheckTradingBoundaries()
    ensures CheckTrading(DefaultTrading().(priceSpikeThreshold := 0.0)).Err?
    ensures CheckTrading(DefaultTrading().(priceSpikeThreshold := 1.0)).Err?
    ensures CheckTrading(DefaultTrading().(imbalanceThreshold := 0.5)).Err?
    ensures CheckTrading(DefaultTrading().(imbalanceThreshold := 1.0)).Err?
    ensures CheckTrading(DefaultTrading().(leverage := 1)).Ok?
    ensures CheckTrading(DefaultTrading().(leverage := 125)).Ok?
    ensures CheckTrading(DefaultTrading().(leverage := 126)).Err?
    ensures CheckTrading(DefaultTrading().(leverage := 0)).Err?
  {
  }

  /** The shipped data defaults satisfy what the connector, normalizer and
      store rely on: a backoff range, a reconnect budget, a depth the
      validator fully inspects, positive caps and TTL. */
  lemma DefaultDataSound()
    ensures 0.0 < DefaultData().wsInitialBackoffSec <= DefaultData().wsMaxBackoffSec
    ensures DefaultData().wsReconnectMaxAttempts == 10
    ensures 1 <= DefaultData().orderbookDepth <= 5
    ensures DefaultData().hotStorageMaxTrades == 10000 && DefaultData().hotStorageMaxOrderbooks == 1000
    ensures DefaultData().hotStorageTtlSec == 3600 && DefaultData().maxRecentTradeIds == 1000
  {
  }

  /** The two endpoints differ, so the URL tells the environment. */
  lemma UrlRevealsTestnet(c: BinanceConfig)
    requires c == DefaultBinance(c.testnet)
    ensures WebsocketUrl(c) == TestnetWsUrl <==> c.testnet
  {
    assert TestnetWsUrl[9] != FuturesWsUrl[9];
  }
}

=== FILE: signal_engine.dfy ===
/** The first-generation signal rules (core/signal_engine_v1.py): a
    min-notional filter over incoming trades, a price-change direction over
    the recent stored trades, the entry signal derived from it, and an exit
    predicate on book imbalance. */
module SignalEngine {
  import opened Base
  import opened Records
  import Settings

  /** `deque(maxlen=1000)` of stored trades. */
  const HistoryCap: nat := 1000

  /** One stored trade, `(timestamp, amount_usdt, price)`, the timestamp in
      seconds. */
  datatype Sample = Sample(timestamp: real, amountUsdt: real, price: real)

  datatype Direction = Up | Down

  /** The entry signals `"LONG"` and `"SHORT"`. */
  datatype Signal = Long | Short

  /** `(direction, change)` as returned by `_check_price_change`. */
  datatype PriceChange = PriceChange(direction: Option<Direction>, change: Option<real>)

  datatype Engine = Engine(
    minTradeAmount: real,
    spikeWindowSec: real,
    spikeThreshold: real,
    imbalanceThreshold: real,
    history: seq<Sample>)

  /** `SignalEngine()`: thresholds from the backwards-compatible settings
      aliases, empty history. */
  function New(): (e: Engine)
    ensures e.history == []
    ensures e.minTradeAmount == Settings.MinTradeAmount && e.spikeWindowSec == Settings.PriceSpikeWindow
    ensures e.spikeThreshold == Settings.PriceSpikeThreshold && e.imbalanceThreshold == Settings.ImbalanceThreshold
  {
    Engine(Settings.MinTradeAmount, Settings.PriceSpikeWindow, Settings.PriceSpikeThreshold,
           Settings.ImbalanceThreshold, [])
  }

  /** The history is bounded and holds only trades worth at least the
      minimum notional. */
  ghost predicate Inv(e: Engine)
  {
    && |e.history| <= HistoryCap
    && forall i :: 0 <= i < |e.history| ==> e.history[i].amountUsdt >= e.minTradeAmount
  }

  /** The stored sample of a trade: `(trade_time / 1000, notional, price)`. */
  function TradeSample(t: Trade, amount: real, price: real): Sample
  {
    Sample(t.tradeTime as real / 1000.0, amount, price)
  }

  /** `update_trade`: store `(trade_time/1000, price*qty, price)` when the
      notional reaches the minimum; a price or quantity that `float` rejects
      raises. The method returns nothing in every case. */
  function UpdateTrade(e: Engine, t: Trade): (r: Result<Engine, Fault>)
    ensures r.Err? <==> ParseNum(t.price).None? || ParseNum(t.quantity).None?
    ensures r.Err? ==> r.error == ConversionFailed
    ensures r.Ok? ==> r.value.(history := e.history) == e
    ensures r.Ok? ==>
              var p := ParseNum(t.price).value;
              var amount := p * ParseNum(t.quantity).value;
              && (amount < e.minTradeAmount ==> r.value == e)
              && (amount >= e.minTradeAmount ==>
                    r.value.history == Push(e.history, TradeSample(t, amount, p), HistoryCap))
  {
    if ParseNum(t.price).None? || ParseNum(t.quantity).None? then Err(ConversionFailed)
    else
      var price := ParseNum(t.price).value;
      var amount := price * ParseNum(t.quantity).value;
      assert amount == ParseNum(t.price).value * ParseNum(t.quantity).value;
      if amount >= e.minTradeAmount then
        Ok(e.(history := Push(e.history, TradeSample(t, amount, price), HistoryCap)))
      else Ok(e)
  }

  /** A stored trade is recent when it is at most `windowSec` seconds old. */
  function InWindow(now: real, windowSec: real): Sample -> bool
  {
    (s: Sample) => now - s.timestamp <= windowSec
  }

  /** The stored trades inside the spike window, in stored order. */
  function Recent(e: Engine, now: real): seq<Sample>
  {
    Filter(e.history, InWindow(now, e.spikeWindowSec))
  }

  /** `_check_price_change` at wall-clock time `now` (seconds): the relative
      move from the first to the last recent price, classified against the
      threshold; nothing with fewer than two recent trades, and a division
      by zero when the first recent price is 0. */
  function CheckPriceChange(e: Engine, now: real): (r: Result<PriceChange, Fault>)
    ensures |Recent(e, now)| < 2 ==> r == Ok(PriceChange(None, None))
    ensures r.Err? <==> |Recent(e, now)| >= 2 && Recent(e, now)[0].price == 0.0
    ensures r.Err? ==> r.error == ZeroDivision
    ensures r.Ok? && |Recent(e, now)| >= 2 ==>
              var w := Recent(e, now);
              r.value.change.Some? && r.value.change.value * w[0].price == w[|w| - 1].price - w[0].price
    ensures r.Ok? ==> (r.value.direction == Some(Up) <==>
                         r.value.change.Some? && r.value.change.value >= e.spikeThreshold)
    ensures r.Ok? ==> (r.value.direction == Some(Down) <==>
                         r.value.change.Some? && -e.spikeThreshold >= r.value.change.value
                         && r.value.change.value < e.spikeThreshold)
  {
    if |e.history| < 2 then Ok(PriceChange(None, None))
    else
      var recent := Recent(e, now);
      if |recent| < 2 then Ok(PriceChange(None, None))
      else
        var start := recent[0].price;
        var end := recent[|recent| - 1].price;
        if start == 0.0 then Err(ZeroDivision)
        else
          var change := (end - start) / start;
          if change >= e.spikeThreshold then Ok(PriceChange(Some(Up), Some(change)))
          else if change <= -e.spikeThreshold then Ok(PriceChange(Some(Down), Some(change)))
          else Ok(PriceChange(None, Some(change)))
  }

  /** `update_orderbook`: LONG on an upward move, SHORT on a downward one.
      The order book passed in is never read, so it is not a parameter. */
  function UpdateOrderbook(e: Engine, now: real): (r: Result<Option<Signal>, Fault>)
    ensures r.Err? <==> CheckPriceChange(e, now).Err?
    ensures r.Ok? ==> (r.value == Some(Long) <==> CheckPriceChange(e, now).value.direction == Some(Up))
    ensures r.Ok? ==> (r.value == Some(Short) <==> CheckPriceChange(e, now).value.direction == Some(Down))
  {
    match CheckPriceChange(e, now)
    case Err(f) => Err(f)
    case Ok(pc) =>
      match pc.direction
      case Some(Up) => Ok(Some(Long))
      case Some(Down) => Ok(Some(Short))
      case None => Ok(None)
  }

  /** `check_exit_signal(state, side)`: a long position exits when bids hold
      less than half of the book imbalance scale, a short one when they hold
      more; any other side never exits. */
  function CheckExitSignal(imbalance: real, side: string): (r: bool)
    ensures r ==> side == "LONG" || side == "SHORT"
    ensures side == "LONG" ==> (r <==> imbalance < 0.5)
    ensures side == "SHORT" ==> (r <==> imbalance > 0.5)
  {
    if side == "LONG" && imbalance < 0.5 then true
    else if side == "SHORT" && imbalance > 0.5 then true
    else false
  }

  // ----- properties -----

  /** Every update keeps the history bounded and free of small trades. */
  lemma UpdateTradeKeepsInv(e: Engine, t: Trade)
    requires Inv(e)
    ensures UpdateTrade(e, t).Ok? ==> Inv(UpdateTrade(e, t).value)
  {
    var r := UpdateTrade(e, t);
    if r.Ok? && r.value != e {
      var h := e.history;
      var h1 := r.value.history;
      var x := h1[|h1| - 1];
      assert x.amountUsdt >= e.minTradeAmount;
      if |h| < HistoryCap {
        assert h1 == h + [x];
      } else {
        assert h1 == h[1..] + [x];
      }
      forall i | 0 <= i < |h1|
        ensures h1[i].amountUsdt >= e.minTradeAmount
      {
        if i < |h1| - 1 {
          if |h| < HistoryCap {
            assert h1[i] == h[i];
          } else {
            assert h1[i] == h[i + 1];
          }
        }
      }
    }
  }

  /** With a positive first recent price and a positive threshold, the
      direction says how far the last recent price moved: UP exactly when
      it rose by at least the threshold fraction, DOWN exactly when it fell
      by at least that fraction, and never both. */
  lemma DirectionMeansMove(e: Engine, now: real)
    requires e.spikeThreshold > 0.0
    requires |Recent(e, now)| >= 2 && Recent(e, now)[0].price > 0.0
    ensures CheckPriceChange(e, now).Ok?
    ensures var w := Recent(e, now);
            var start := w[0].price;
            var end := w[|w| - 1].price;
            var d := CheckPriceChange(e, now).value.direction;
            && (d == Some(Up) <==> end >= start * (1.0 + e.spikeThreshold))
            && (d == Some(Down) <==> end <= start * (1.0 - e.spikeThreshold))
            && (d.None? <==> start * (1.0 - e.spikeThreshold) < end < start * (1.0 + e.spikeThreshold))
  {
    var w := Recent(e, now);
    var start := w[0].price;
    var end := w[|w| - 1].price;
    var thr := e.spikeThreshold;
    var c := CheckPriceChange(e, now).value.change.value;
    assert c * start == end - start;
    ScaleOrder(thr, c, start);
    ScaleOrder(c, -thr, start);
    assert start * (1.0 + thr) == start + thr * start;
    assert start * (1.0 - thr) == start - thr * start;
    assert (-thr) * start == -(thr * start);
  }

  /** An engine whose threshold comes from a trading configuration that
      passes its range checks meets the premise of `DirectionMeansMove`:
      UP then always means a rise, DOWN a fall, and an unchanged price
      gives no direction. */
  lemma AcceptedThresholdSeparatesDirections(c: Settings.TradingConfig, e: Engine, now: real)
    requires Settings.CheckTrading(c).Ok?
    requires e.spikeThreshold == c.priceSpikeThreshold
    ensures 0.0 < e.spikeThreshold < 1.0
    ensures CheckPriceChange(e, now).Ok? ==>
              var pc := CheckPriceChange(e, now).value;
              && (pc.direction == Some(Up) ==> pc.change.value > 0.0)
              && (pc.direction == Some(Down) ==> pc.change.value < 0.0)
              && (pc.change == Some(0.0) ==> pc.direction.None?)
  {
  }

  /** The exit rule is symmetric about an even book: a long position exits
      at imbalance `x` exactly when a short one exits at `1 - x`, no
      imbalance exits both sides, and an imbalance of exactly 0.5 exits
      neither. */
  lemma ExitSignalMirror(x: real)
    ensures CheckExitSignal(x, "LONG") == CheckExitSignal(1.0 - x, "SHORT")
    ensures !(CheckExitSignal(x, "LONG") && CheckExitSignal(x, "SHORT"))
    ensures !CheckExitSignal(0.5, "LONG") && !CheckExitSignal(0.5, "SHORT")
  {
  }

  /** Sending a sequence of trades through `update_trade`. */
  function UpdateTrades(e: Engine, ts: seq<Trade>): Result<Engine, Fault>
    decreases |ts|
  {
    if ts == [] then Ok(e)
    else match UpdateTrade(e, ts[0])
      case Err(f) => Err(f)
      case Ok(e1) => UpdateTrades(e1, ts[1..])
  }

  function SpikeTrade(tradeTimeMs: int, price: real, quantity: real): Trade
  {
    Trade("aggTrade", tradeTimeMs, "BTCUSDT", 1, Text(Some(price)), Text(Some(quantity)), 0, 0, tradeTimeMs, false)
  }

  /** The engine after two 20 000-USDT trades one second apart at 100.0 and
      100.2 (default settings). */
  function SpikeEngine(): Engine
  {
    New().(history := [Sample(1.0, 20000.0, 100.0), Sample(2.0, 20040.0, 100.2)])
  }

  /** With the default settings, a 90-USDT trade between the two large ones
      is not stored. */
  lemma SpikeHistory()
    ensures UpdateTrades(New(), [SpikeTrade(1000, 100.0, 200.0), SpikeTrade(1500, 90.0, 1.0),
                                 SpikeTrade(2000, 100.2, 200.0)]) == Ok(SpikeEngine())
  {
    var s1 := Sample(1.0, 20000.0, 100.0);
    var s2 := Sample(2.0, 20040.0, 100.2);
    var e1 := New().(history := [s1]);
    assert New().minTradeAmount == 10000.0;
    assert Push([], s1, HistoryCap) == [s1];
    assert Push([s1], s2, HistoryCap) == [s1, s2];
    var t1 := SpikeTrade(1000, 100.0, 200.0);
    var t2 := SpikeTrade(1500, 90.0, 1.0);
    var t3 := SpikeTrade(2000, 100.2, 200.0);
    assert UpdateTrade(New(), t1) == Ok(e1);
    assert UpdateTrade(e1, t2) == Ok(e1);
    assert UpdateTrade(e1, t3) == Ok(SpikeEngine());
    assert UpdateTrades(SpikeEngine(), []) == Ok(SpikeEngine());
    assert [t1, t2, t3][1..] == [t2, t3] && [t2, t3][1..] == [t3] && [t3][1..] == [];
  }

  /** One second after the second trade the move is +0.2%, at least the
      0.1% threshold: UP and a LONG signal. Five seconds later the first
      trade has left the 5-second window and there is no signal. */
  lemma SpikeSignal()
    ensures CheckPriceChange(SpikeEngine(), 3.0) == Ok(PriceChange(Some(Up), Some(0.002)))
    ensures UpdateOrderbook(SpikeEngine(), 3.0) == Ok(Some(Long))
    ensures CheckPriceChange(SpikeEngine(), 7.0) == Ok(PriceChange(None, None))
  {
    var s1 := Sample(1.0, 20000.0, 100.0);
    var s2 := Sample(2.0, 20040.0, 100.2);
    var e := SpikeEngine();
    assert e.spikeWindowSec == 5.0 && e.spikeThreshold == 0.001;
    assert e.history[..1] == [s1] && [s1][..0] == [];
    assert Filter([s1], InWindow(3.0, 5.0)) == [s1];
    assert Recent(e, 3.0) == [s1, s2];
    assert Filter([s1], InWindow(7.0, 5.0)) == [];
    assert Recent(e, 7.0) == [s2];
  }
}

=== FILE: time_index.dfy ===
/** A timestamp-keyed sorted map (the `SortedDict` behind the hot store's
    time indexes): entries in strictly increasing key order, one value per
    key. */
module TimeIndex {
  import opened Base

  datatype Entry<T> = Entry(key: int, val: T)

  type Index<T> = seq<Entry<T>>

  ghost predicate Sorted<T>(ix: Index<T>)
  {
    forall i, j :: 0 <= i < j < |ix| ==> ix[i].key < ix[j].key
  }

  /** Every key of `ix` lies strictly above `k`. */
  ghost predicate Above<T>(ix: Index<T>, k: int)
  {
    forall e :: e in ix ==> e.key > k
  }

  function Keys<T(==)>(ix: Index<T>): set<int>
  {
    set e | e in ix :: e.key
  }

  /** `ix[k]` when present. */
  function Lookup<T(==)>(ix: Index<T>, k: int): (r: Option<T>)
    ensures r.Some? <==> k in Keys(ix)
    ensures r.Some? ==> Entry(k, r.value) in ix
    decreases |ix|
  {
    if ix == [] then None
    else if ix[0].key == k then Some(ix[0].val)
    else
      var r := Lookup(ix[1..], k);
      assert forall e :: e in ix[1..] ==> e in ix;
      assert forall e :: e in ix && e != ix[0] ==> e in ix[1..];
      r
  }

  lemma SortedCons<T>(e: Entry<T>, ix: Index<T>)
    requires Sorted(ix) && Above(ix, e.key)
    ensures Sorted([e] + ix)
  {
    var s := [e] + ix;
    forall i, j | 0 <= i < j < |s|
      ensures s[i].key < s[j].key
    {
      if i == 0 {
        assert s[j] == ix[j - 1] && s[j] in ix;
      } else {
        assert s[i] == ix[i - 1] && s[j] == ix[j - 1];
      }
    }
  }

  lemma SortedTail<T>(ix: Index<T>)
    requires Sorted(ix) && ix != []
    ensures Sorted(ix[1..]) && Above(ix[1..], ix[0].key)
  {
    forall e | e in ix[1..]
      ensures e.key > ix[0].key
    {
      var j :| 0 <= j < |ix[1..]| && ix[1..][j] == e;
      assert ix[j + 1] == e;
    }
  }

  /** `ix[k] = v`: insert, or overwrite the value under an existing key. */
  function Put<T(==,!new)>(ix: Index<T>, k: int, v: T): (r: Index<T>)
    requires Sorted(ix)
    ensures Sorted(r)
    ensures Entry(k, v) in r
    ensures forall e :: e in r ==> e == Entry(k, v) || e in ix
    ensures forall e :: e in ix && e.key != k ==> e in r
    decreases |ix|
  {
    if ix == [] then [Entry(k, v)]
    else
      SortedTail(ix);
      assert forall e :: e in ix <==> e == ix[0] || e in ix[1..];
      if k < ix[0].key then
        SortedCons(Entry(k, v), ix);
        [Entry(k, v)] + ix
      else if k == ix[0].key then
        SortedCons(Entry(k, v), ix[1..]);
        [Entry(k, v)] + ix[1..]
      else
        var rest := Put(ix[1..], k, v);
        SortedCons(ix[0], rest);
        [ix[0]] + rest
  }

  /** In a sorted index a key names a single entry. */
  lemma {:induction false} SortedLookup<T>(ix: Index<T>, e: Entry<T>)
    requires Sorted(ix) && e in ix
    ensures Lookup(ix, e.key) == Some(e.val)
    decreases |ix|
  {
    if ix[0] != e {
      SortedTail(ix);
      assert e in ix[1..];
      SortedLookup(ix[1..], e);
    }
  }

  /** After `Put`, the key reads the new value, every other key reads what
      it read before, and the key set gains exactly `k`. */
  lemma PutLookup<T(!new)>(ix: Index<T>, k: int, v: T, q: int)
    requires Sorted(ix)
    ensures Lookup(Put(ix, k, v), q) == if q == k then Some(v) else Lookup(ix, q)
    ensures Keys(Put(ix, k, v)) == Keys(ix) + {k}
  {
    var r := Put(ix, k, v);
    if q == k {
      SortedLookup(r, Entry(k, v));
    } else if Lookup(ix, q).Some? {
      SortedLookup(r, Entry(q, Lookup(ix, q).value));
    }
  }

  /** The TTL cleanup: drop every entry whose key is below `cutoff`. */
  function Prune<T(==,!new)>(ix: Index<T>, cutoff: int): (r: Index<T>)
    ensures forall e :: e in r <==> e in ix && e.key >= cutoff
    decreases |ix|
  {
    if ix == [] then []
    else
      var rest := Prune(ix[1..], cutoff);
      assert forall e :: e in ix <==> e == ix[0] || e in ix[1..];
      if ix[0].key < cutoff then rest else [ix[0]] + rest
  }

  lemma {:induction false} PruneKeepsSorted<T(!new)>(ix: Index<T>, cutoff: int)
    requires Sorted(ix)
    ensures Sorted(Prune(ix, cutoff))
    decreases |ix|
  {
    if ix != [] {
      SortedTail(ix);
      PruneKeepsSorted(ix[1..], cutoff);
      if ix[0].key >= cutoff {
        SortedCons(ix[0], Prune(ix[1..], cutoff));
      }
    }
  }

  /** After pruning, keys below the cutoff are gone and the others read as
      before. */
  lemma PruneLookup<T(!new)>(ix: Index<T>, cutoff: int, q: int)
    requires Sorted(ix)
    ensures Lookup(Prune(ix, cutoff), q) == if q < cutoff then None else Lookup(ix, q)
  {
    PruneKeepsSorted(ix, cutoff);
    if q >= cutoff && Lookup(ix, q).Some? {
      SortedLookup(Prune(ix, cutoff), Entry(q, Lookup(ix, q).value));
    }
  }

  /** The values of `ix`, in key order. */
  function Values<T>(ix: Index<T>): (r: seq<T>)
    ensures |r| == |ix| && forall i :: 0 <= i < |ix| ==> r[i] == ix[i].val
  {
    seq(|ix|, i requires 0 <= i < |ix| => ix[i].val)
  }

  /** `bisect_left` on the keys: the position of the first key at or above
      `t`, or `|ix|` when there is none. */
  function FirstAtLeast<T>(ix: Index<T>, t: int): (j: nat)
    ensures j <= |ix|
    ensures forall i :: 0 <= i < j ==> ix[i].key < t
    ensures j < |ix| ==> ix[j].key >= t
    decreases |ix|
  {
    if ix == [] || ix[0].key >= t then 0
    else
      var j := FirstAtLeast(ix[1..], t);
      assert forall i :: 0 < i <= j ==> ix[i] == ix[1..][i - 1];
      1 + j
  }

  /** Values whose key is at least `t`, in index order. */
  function Since<T(==,!new)>(ix: Index<T>, t: int): (r: seq<T>)
    ensures |r| <= |ix|
    ensures forall v :: v in r <==> exists e :: e in ix && e.key >= t && e.val == v
    decreases |ix|
  {
    if ix == [] then []
    else
      var rest := Since(ix[1..], t);
      assert forall e :: e in ix <==> e == ix[0] || e in ix[1..];
      if ix[0].key >= t then [ix[0].val] + rest else rest
  }

  /** One step of `Since` on a sorted index: the suffix grows by the head
      exactly when the head's key is at or above `t`. */
  lemma SinceCons<T>(ix: Index<T>, t: int, rest: seq<T>)
    requires ix != [] && Sorted(ix) && rest == Values(ix[1..][FirstAtLeast(ix[1..], t)..])
    ensures (if ix[0].key >= t then [ix[0].val] + rest else rest) == Values(ix[FirstAtLeast(ix, t)..])
  {
    var tl := ix[1..];
    if ix[0].key >= t {
      HeadAtLeast(ix, t);
      ValuesCons(ix[0], tl);
      assert ix == [ix[0]] + tl;
    } else {
      assert ix[FirstAtLeast(ix, t)..] == tl[FirstAtLeast(tl, t)..];
    }
  }

  /** In a sorted index, the query from `t` is the run of values from the
      first key at or above `t` to the end, in ascending key order. */
  lemma {:induction false} SinceInKeyOrder<T(!new)>(ix: Index<T>, t: int)
    requires Sorted(ix)
    ensures Since(ix, t) == Values(ix[FirstAtLeast(ix, t)..])
    decreases |ix|
  {
    if ix != [] {
      SortedTail(ix);
      SinceInKeyOrder(ix[1..], t);
      SinceCons(ix, t, Since(ix[1..], t));
    }
  }

  /** In a sorted index whose head key is at least `t`, every key is. */
  lemma HeadAtLeast<T>(ix: Index<T>, t: int)
    requires ix != [] && Sorted(ix) && ix[0].key >= t
    ensures FirstAtLeast(ix[1..], t) == 0
  {
    if |ix| > 1 {
      assert ix[0].key < ix[1].key;
    }
  }

  /** Values whose key lies in `[lo, hi]`, in index order; nothing when
      `lo > hi`. */
  function Range<T(==,!new)>(ix: Index<T>, lo: int, hi: int): (r: seq<T>)
    ensures |r| <= |ix|
    ensures forall v :: v in r <==> exists e :: e in ix && lo <= e.key <= hi && e.val == v
    ensures lo > hi ==> r == []
    decreases |ix|
  {
    if ix == [] then []
    else
      var rest := Range(ix[1..], lo, hi);
      assert forall e :: e in ix <==> e == ix[0] || e in ix[1..];
      if lo <= ix[0].key <= hi then [ix[0].val] + rest else rest
  }

  /** One step of `Range` on a sorted index: the slice grows by the head
      exactly when the head's key is in range. */
  lemma RangeCons<T>(ix: Index<T>, lo: int, hi: int, rest: seq<T>)
    requires ix != [] && Sorted(ix) && lo <= hi
    requires rest == Values(ix[1..][FirstAtLeast(ix[1..], lo)..FirstAtLeast(ix[1..], hi + 1)])
    ensures (if lo <= ix[0].key <= hi then [ix[0].val] + rest else rest) ==
            Values(ix[FirstAtLeast(ix, lo)..FirstAtLeast(ix, hi + 1)])
  {
    var tl := ix[1..];
    if lo <= ix[0].key <= hi {
      RangeHead(ix, lo, hi, rest);
    } else if ix[0].key < lo {
      assert ix[FirstAtLeast(ix, lo)..FirstAtLeast(ix, hi + 1)] ==
             tl[FirstAtLeast(tl, lo)..FirstAtLeast(tl, hi + 1)];
    } else {
      HeadAtLeast(ix, lo);
      HeadAtLeast(ix, hi + 1);
    }
  }

  /** In a sorted index, the range query is the run of values from the
      first key at or above `lo` up to, not including, the first key above
      `hi`, in ascending key order. */
  lemma {:induction false} RangeInKeyOrder<T(!new)>(ix: Index<T>, lo: int, hi: int)
    requires Sorted(ix) && lo <= hi
    ensures Range(ix, lo, hi) == Values(ix[FirstAtLeast(ix, lo)..FirstAtLeast(ix, hi + 1)])
    decreases |ix|
  {
    if ix != [] {
      SortedTail(ix);
      RangeInKeyOrder(ix[1..], lo, hi);
      RangeCons(ix, lo, hi, Range(ix[1..], lo, hi));
    }
  }

  lemma RangeHead<T>(ix: Index<T>, lo: int, hi: int, rest: seq<T>)
    requires ix != [] && Sorted(ix) && lo <= ix[0].key <= hi
    requires rest == Values(ix[1..][FirstAtLeast(ix[1..], lo)..FirstAtLeast(ix[1..], hi + 1)])
    ensures [ix[0].val] + rest == Values(ix[FirstAtLeast(ix, lo)..FirstAtLeast(ix, hi + 1)])
  {
    var tl := ix[1..];
    var b := FirstAtLeast(tl, hi + 1);
    HeadAtLeast(ix, lo);
    ValuesCons(ix[0], tl[..b]);
    assert ix[..1 + b] == [ix[0]] + tl[..b];
  }

  lemma ValuesCons<T>(e: Entry<T>, ix: Index<T>)
    ensures Values([e] + ix) == [e.val] + Values(ix)
  {
  }

  /** `x` is the value of some key at or above `t`. */
  ghost predicate MapsFrom<T>(ix: Index<T>, t: int, x: T)
  {
    exists q :: q >= t && Lookup(ix, q) == Some(x)
  }

  /** `x` is the value of some key in `[lo, hi]`. */
  ghost predicate MapsBetween<T>(ix: Index<T>, lo: int, hi: int, x: T)
  {
    exists q :: lo <= q <= hi && Lookup(ix, q) == Some(x)
  }

  /** In a sorted index, `Since` lists exactly the values the index maps
      keys at or above `t` to. */
  lemma SinceByLookup<T(!new)>(ix: Index<T>, t: int)
    requires Sorted(ix)
    ensures forall x :: x in Since(ix, t) <==> MapsFrom(ix, t, x)
  {
    forall x
      ensures x in Since(ix, t) <==> MapsFrom(ix, t, x)
    {
      if x in Since(ix, t) {
        var e :| e in ix && e.key >= t && e.val == x;
        SortedLookup(ix, e);
      }
      if q :| q >= t && Lookup(ix, q) == Some(x) {
        assert Entry(q, x) in ix;
      }
    }
  }

  /** In a sorted index, `Range` lists exactly the values the index maps
      keys in `[lo, hi]` to. */
  lemma RangeByLookup<T(!new)>(ix: Index<T>, lo: int, hi: int)
    requires Sorted(ix)
    ensures forall x :: x in Range(ix, lo, hi) <==> MapsBetween(ix, lo, hi, x)
  {
    forall x
      ensures x in Range(ix, lo, hi) <==> MapsBetween(ix, lo, hi, x)
    {
      if x in Range(ix, lo, hi) {
        var e :| e in ix && lo <= e.key <= hi && e.val == x;
        SortedLookup(ix, e);
      }
      if q :| lo <= q <= hi && Lookup(ix, q) == Some(x) {
        assert Entry(q, x) in ix;
      }
    }
  }

  /** In a sorted index, the values from `lo` on are the values in
      `[lo, hi]` followed by those above `hi`. */
  lemma SinceSplits<T(!new)>(ix: Index<T>, lo: int, hi: int)
    requires Sorted(ix) && lo <= hi
    ensures Since(ix, lo) == Range(ix, lo, hi) + Since(ix, hi + 1)
  {
    var a, b := FirstAtLeast(ix, lo), FirstAtLeast(ix, hi + 1);
    FirstAtLeastMonotone(ix, lo, hi + 1);
    SinceInKeyOrder(ix, lo);
    RangeInKeyOrder(ix, lo, hi);
    SinceInKeyOrder(ix, hi + 1);
    ValuesSplit(ix, a, b);
  }

  /** A later bound never finds an earlier position. */
  lemma FirstAtLeastMonotone<T>(ix: Index<T>, t: int, u: int)
    requires t <= u
    ensures FirstAtLeast(ix, t) <= FirstAtLeast(ix, u)
  {
    var a, b := FirstAtLeast(ix, t), FirstAtLeast(ix, u);
    if b < |ix| {
      assert ix[b].key >= t;
    }
  }

  lemma ValuesSplit<T>(ix: Index<T>, a: nat, b: nat)
    requires a <= b <= |ix|
    ensures Values(ix[a..]) == Values(ix[a..b]) + Values(ix[b..])
  {
    assert ix[a..] == ix[a..b] + ix[b..];
  }

  /** Every entry is filed under its own value's key. */
  ghost predicate KeyedBy<T>(ix: Index<T>, key: T -> int)
  {
    forall e :: e in ix ==> key(e.val) == e.key
  }

  /** In a sorted index whose entries are filed under their own values'
      keys, the values of any slice come in strictly ascending key order. */
  lemma SliceAscending<T>(ix: Index<T>, a: nat, b: nat, key: T -> int)
    requires Sorted(ix) && KeyedBy(ix, key) && a <= b <= |ix|
    ensures Ascending(Values(ix[a..b]), key)
  {
    var v := Values(ix[a..b]);
    forall i, j | 0 <= i < j < |v|
      ensures key(v[i]) < key(v[j])
    {
      assert ix[a + i] in ix && ix[a + j] in ix;
    }
  }

  /** The query from `t` on comes in strictly ascending key order. */
  lemma SinceAscending<T(!new)>(ix: Index<T>, t: int, key: T -> int)
    requires Sorted(ix) && KeyedBy(ix, key)
    ensures Ascending(Since(ix, t), key)
  {
    SinceInKeyOrder(ix, t);
    SliceAscending(ix, FirstAtLeast(ix, t), |ix|, key);
    assert ix[FirstAtLeast(ix, t)..|ix|] == ix[FirstAtLeast(ix, t)..];
  }

  /** The range query comes in strictly ascending key order. */
  lemma RangeAscending<T(!new)>(ix: Index<T>, lo: int, hi: int, key: T -> int)
    requires Sorted(ix) && KeyedBy(ix, key)
    ensures Ascending(Range(ix, lo, hi), key)
  {
    if lo <= hi {
      RangeInKeyOrder(ix, lo, hi);
      SliceAscending(ix, FirstAtLeast(ix, lo), FirstAtLeast(ix, hi + 1), key);
    }
  }

  /** Pruning at `cutoff` does not change a query from `t >= cutoff` on. */
  lemma {:induction false} SinceAfterPrune<T(!new)>(ix: Index<T>, cutoff: int, t: int)
    requires cutoff <= t
    ensures Since(Prune(ix, cutoff), t) == Since(ix, t)
    decreases |ix|
  {
    if ix != [] {
      SinceAfterPrune(ix[1..], cutoff, t);
    }
  }
}

=== FILE: validator.dfy ===
/** The data-quality gate (data_collector/data_validator.py): an ordered,
    short-circuiting chain of checks on raw trades and order books, a bounded
    set of recently seen trade ids, the running maximum timestamp of each
    record type, and per-kind error counters. */
module Validator {
  import opened Base
  import opened Records

  datatype ErrorKind =
    | NullValue
    | NegativePrice
    | NegativeQuantity
    | InvalidTimestamp
    | OutOfOrder
    | Duplicate
    | EmptyOrderbook
    | InvalidSymbol

  /** Every error kind, once each (the enum's iteration order). */
  const AllKinds: seq<ErrorKind> :=
    [NullValue, NegativePrice, NegativeQuantity, InvalidTimestamp,
     OutOfOrder, Duplicate, EmptyOrderbook, InvalidSymbol]

  /** The validation verdict; the human-readable message is not modelled. */
  datatype ValidationResult = ValidationResult(isValid: bool, errorType: Option<ErrorKind>)

  /** Capacity of the duplicate-detection set. */
  const MaxTradeIds: nat := 1000

  /** Only levels among the first five of each side are checked. */
  const CheckedLevels: nat := 5

  const DefaultSymbols: set<string> := {"BTCUSDT"}

  datatype Validator = Validator(
    expectedSymbols: set<string>,
    recentTradeIds: set<int>,
    lastTradeTimestamp: int,
    lastOrderbookTimestamp: int,
    totalValidated: nat,
    totalErrors: nat,
    errorCounts: map<ErrorKind, nat>)

  // ----- error counters -----

  function Count(c: map<ErrorKind, nat>, k: ErrorKind): nat
  {
    if k in c then c[k] else 0
  }

  function Bump(c: map<ErrorKind, nat>, k: ErrorKind): (r: map<ErrorKind, nat>)
    ensures forall k' :: Count(r, k') == if k' == k then Count(c, k) + 1 else Count(c, k')
  {
    c[k := Count(c, k) + 1]
  }

  function ZeroCounts(): (r: map<ErrorKind, nat>)
    ensures forall k :: Count(r, k) == 0
  {
    map[]
  }

  /** The sum of the counters of the kinds in `ks`. */
  function SumCounts(c: map<ErrorKind, nat>, ks: seq<ErrorKind>): nat
    decreases |ks|
  {
    if ks == [] then 0 else Count(c, ks[0]) + SumCounts(c, ks[1..])
  }

  lemma {:induction false} SumCountsBump(c: map<ErrorKind, nat>, ks: seq<ErrorKind>, k: ErrorKind)
    requires forall i, j :: 0 <= i < j < |ks| ==> ks[i] != ks[j]
    ensures SumCounts(Bump(c, k), ks) == SumCounts(c, ks) + (if k in ks then 1 else 0)
    decreases |ks|
  {
    if ks != [] {
      SumCountsBump(c, ks[1..], k);
      assert k in ks[1..] ==> ks[0] != k;
      assert k in ks <==> k == ks[0] || k in ks[1..];
    }
  }

  /** Every kind is counted once in the total. */
  lemma BumpAll(c: map<ErrorKind, nat>, k: ErrorKind)
    ensures SumCounts(Bump(c, k), AllKinds) == SumCounts(c, AllKinds) + 1
  {
    SumCountsBump(c, AllKinds, k);
  }

  lemma {:induction false} SumCountsZero(ks: seq<ErrorKind>)
    ensures SumCounts(ZeroCounts(), ks) == 0
    decreases |ks|
  {
    if ks != [] {
      SumCountsZero(ks[1..]);
    }
  }

  /** The bookkeeping every call keeps: errors never exceed calls, the
      per-kind counters add up to the error total, and the id set stays
      within capacity. */
  ghost predicate Inv(v: Validator)
  {
    && v.totalErrors <= v.totalValidated
    && SumCounts(v.errorCounts, AllKinds) == v.totalErrors
    && |v.recentTradeIds| <= MaxTradeIds
  }

  /** `DataValidator(expected_symbols)`; `None` or an empty set selects the default. */
  function New(expected: Option<set<string>>): (v: Validator)
    ensures Inv(v)
    ensures v.expectedSymbols == if expected.None? || expected.value == {} then DefaultSymbols else expected.value
    ensures v.recentTradeIds == {} && v.totalValidated == 0 && v.totalErrors == 0
    ensures v.lastTradeTimestamp == 0 && v.lastOrderbookTimestamp == 0
  {
    SumCountsZero(AllKinds);
    Validator(
      if expected.None? || expected.value == {} then DefaultSymbols else expected.value,
      {}, 0, 0, 0, 0, ZeroCounts())
  }

  /** `_record_error`: one more error in total and in the counter of `k`,
      every other counter and field as before, and the failing verdict of
      kind `k`. */
  function RecordError(v: Validator, k: ErrorKind): (r: (Validator, ValidationResult))
    ensures r.1 == ValidationResult(false, Some(k))
    ensures r.0.totalErrors == v.totalErrors + 1
    ensures Count(r.0.errorCounts, k) == Count(v.errorCounts, k) + 1
    ensures forall k' :: k' != k ==> Count(r.0.errorCounts, k') == Count(v.errorCounts, k')
    ensures SumCounts(r.0.errorCounts, AllKinds) == SumCounts(v.errorCounts, AllKinds) + 1
    ensures r.0.(totalErrors := v.totalErrors, errorCounts := v.errorCounts) == v
  {
    BumpAll(v.errorCounts, k);
    (v.(totalErrors := v.totalErrors + 1, errorCounts := Bump(v.errorCounts, k)),
     ValidationResult(false, Some(k)))
  }

  // ----- trades -----

  /** The trade fields convert and are both positive. */
  predicate PositiveAmounts(t: Trade)
  {
    && ParseNum(t.price).Some? && ParseNum(t.price).value > 0.0
    && ParseNum(t.quantity).Some? && ParseNum(t.quantity).value > 0.0
  }

  /** Everything a trade must satisfy to be accepted, stated without order. */
  predicate AcceptableTrade(v: Validator, t: Trade)
  {
    && PositiveAmounts(t)
    && t.tradeTime > 0
    && t.symbol in v.expectedSymbols
    && t.aggregateTradeId !in v.recentTradeIds
  }

  /** The ordered check chain of `validate_trade`; `None` when every check
      passes. Both conversions happen before either sign check, so an
      unconvertible quantity wins over a non-positive price. */
  function TradeCheck(v: Validator, t: Trade): (r: Option<ErrorKind>)
    ensures r.None? <==> AcceptableTrade(v, t)
    ensures r == Some(NullValue) <==> ParseNum(t.price).None? || ParseNum(t.quantity).None?
    ensures r == Some(NegativePrice) <==>
      ParseNum(t.price).Some? && ParseNum(t.quantity).Some? && ParseNum(t.price).value <= 0.0
    ensures r == Some(NegativeQuantity) <==>
      && ParseNum(t.price).Some? && ParseNum(t.quantity).Some?
      && ParseNum(t.price).value > 0.0 && ParseNum(t.quantity).value <= 0.0
    ensures r == Some(InvalidTimestamp) <==> PositiveAmounts(t) && t.tradeTime <= 0
    ensures r == Some(InvalidSymbol) <==>
      PositiveAmounts(t) && t.tradeTime > 0 && t.symbol !in v.expectedSymbols
    ensures r == Some(Duplicate) <==>
      && PositiveAmounts(t) && t.tradeTime > 0 && t.symbol in v.expectedSymbols
      && t.aggregateTradeId in v.recentTradeIds
  {
    if Falsy(t.price) || Falsy(t.quantity) then Some(NullValue)
    else match (ParseNum(t.price), ParseNum(t.quantity))
      case (Some(price), Some(quantity)) =>
        if price <= 0.0 then Some(NegativePrice)
        else if quantity <= 0.0 then Some(NegativeQuantity)
        else if t.tradeTime <= 0 then Some(InvalidTimestamp)
        else if t.symbol !in v.expectedSymbols then Some(InvalidSymbol)
        else if t.aggregateTradeId in v.recentTradeIds then Some(Duplicate)
        else None
      case _ => Some(NullValue)
  }

  /** `_add_trade_id`: insert, then on overflow drop one member. Python's
      `set.pop()` picks an arbitrary member; the choice is the `victim`
      argument when it is a member, and the new id otherwise. */
  function AddTradeId(ids: set<int>, id: int, victim: int): (r: set<int>)
    ensures r <= ids + {id}
    ensures |ids| <= MaxTradeIds ==> |r| <= MaxTradeIds
    ensures |ids + {id}| <= MaxTradeIds ==> r == ids + {id}
    ensures |ids + {id}| > MaxTradeIds ==> |r| == |ids + {id}| - 1
  {
    var s := ids + {id};
    if |s| > MaxTradeIds then
      if victim in s then s - {victim} else s - {id}
    else s
  }

  /** The `victim` argument reaches exactly the outcomes of `set.pop()`:
      every member can be the one evicted, and nothing else is ever removed. */
  lemma AddTradeIdIsPop(ids: set<int>, id: int)
    requires |ids + {id}| > MaxTradeIds
    ensures forall x :: x in ids + {id} ==> AddTradeId(ids, id, x) == ids + {id} - {x}
    ensures forall victim :: exists x :: x in ids + {id} && AddTradeId(ids, id, victim) == ids + {id} - {x}
  {
    forall victim
      ensures exists x :: x in ids + {id} && AddTradeId(ids, id, victim) == ids + {id} - {x}
    {
      if victim in ids + {id} {
        assert AddTradeId(ids, id, victim) == ids + {id} - {victim};
      } else {
        assert AddTradeId(ids, id, victim) == ids + {id} - {id};
      }
    }
  }

  /** `validate_trade`. Rejection touches only the counters; acceptance
      records the id, keeping every earlier id except at most the one
      evicted on overflow, and raises the trade watermark, even for a trade
      that arrives out of order. */
  function ValidateTrade(v: Validator, t: Trade, victim: int): (r: (Validator, ValidationResult))
    ensures r.0.totalValidated == v.totalValidated + 1
    ensures r.1.isValid <==> AcceptableTrade(v, t)
    ensures r.1.errorType != Some(OutOfOrder)
    ensures r.0.expectedSymbols == v.expectedSymbols
    ensures r.0.lastOrderbookTimestamp == v.lastOrderbookTimestamp
    ensures !r.1.isValid ==>
      && r.1.errorType == TradeCheck(v, t)
      && r.0.recentTradeIds == v.recentTradeIds
      && r.0.lastTradeTimestamp == v.lastTradeTimestamp
      && r.0.totalErrors == v.totalErrors + 1
      && r.0.errorCounts == Bump(v.errorCounts, r.1.errorType.value)
    ensures r.1.isValid ==>
      && r.1.errorType.None?
      && r.0.totalErrors == v.totalErrors
      && r.0.errorCounts == v.errorCounts
      && r.0.lastTradeTimestamp == RMax(v.lastTradeTimestamp, t.tradeTime)
      && r.0.recentTradeIds <= v.recentTradeIds + {t.aggregateTradeId}
      && (|v.recentTradeIds| < MaxTradeIds ==> t.aggregateTradeId in r.0.recentTradeIds)
      && (|v.recentTradeIds + {t.aggregateTradeId}| <= MaxTradeIds ==>
            r.0.recentTradeIds == v.recentTradeIds + {t.aggregateTradeId})
      && (|v.recentTradeIds + {t.aggregateTradeId}| > MaxTradeIds ==>
            |r.0.recentTradeIds| == |v.recentTradeIds + {t.aggregateTradeId}| - 1)
  {
    var v1 := v.(totalValidated := v.totalValidated + 1);
    match TradeCheck(v, t)
    case Some(k) => RecordError(v1, k)
    case None =>
      (v1.(recentTradeIds := AddTradeId(v.recentTradeIds, t.aggregateTradeId, victim),
           lastTradeTimestamp := RMax(v.lastTradeTimestamp, t.tradeTime)),
       ValidationResult(true, None))
  }

  // ----- order books -----

  /** One checked level: `NULL_VALUE` when the level is too short or a
      field does not convert, `NEGATIVE_PRICE` when both convert but the
      price is not positive or the quantity is negative. */
  function LevelFault(l: Level): (r: Option<ErrorKind>)
    ensures r.None? <==> ParseLevel(l).Some? && ParseLevel(l).value.0 > 0.0 && ParseLevel(l).value.1 >= 0.0
    ensures r == Some(NullValue) <==> |l| < 2 || ParseNum(l[0]).None? || ParseNum(l[1]).None?
    ensures r == Some(NegativePrice) <==>
      && |l| >= 2 && ParseNum(l[0]).Some? && ParseNum(l[1]).Some?
      && (ParseNum(l[0]).value <= 0.0 || ParseNum(l[1]).value < 0.0)
  {
    match ParseLevel(l)
    case None => Some(NullValue)
    case Some((price, qty)) => if price <= 0.0 || qty < 0.0 then Some(NegativePrice) else None
  }

  /** The fault of the first faulty level, in order. */
  function LevelsCheck(levels: seq<Level>): (r: Option<ErrorKind>)
    ensures r.None? <==> forall i :: 0 <= i < |levels| ==> LevelFault(levels[i]).None?
    ensures r.Some? ==> exists i :: 0 <= i < |levels| && LevelFault(levels[i]) == r &&
                                   forall j :: 0 <= j < i ==> LevelFault(levels[j]).None?
    decreases |levels|
  {
    if levels == [] then None
    else if LevelFault(levels[0]).Some? then LevelFault(levels[0])
    else
      var rest := LevelsCheck(levels[1..]);
      assert forall i :: 0 < i < |levels| ==> levels[i] == levels[1..][i - 1];
      rest
  }

  /** The levels the validator looks at: the first five bids, then the
      first five asks. */
  function CheckedLevelsOf(b: OrderBook): seq<Level>
  {
    PySliceTo(b.bids, CheckedLevels) + PySliceTo(b.asks, CheckedLevels)
  }

  /** Everything an order book must satisfy to be accepted, stated without order. */
  predicate AcceptableBook(v: Validator, b: OrderBook)
  {
    && b.bids != [] && b.asks != []
    && b.eventTime > 0
    && b.symbol in v.expectedSymbols
    && forall l :: l in CheckedLevelsOf(b) ==> LevelFault(l).None?
  }

  /** The ordered check chain of `validate_orderbook`. */
  function BookCheck(v: Validator, b: OrderBook): (r: Option<ErrorKind>)
    ensures r.None? <==> AcceptableBook(v, b)
    ensures r == Some(EmptyOrderbook) <==> b.bids == [] || b.asks == []
    ensures r == Some(InvalidTimestamp) <==> b.bids != [] && b.asks != [] && b.eventTime <= 0
    ensures r == Some(InvalidSymbol) <==>
      b.bids != [] && b.asks != [] && b.eventTime > 0 && b.symbol !in v.expectedSymbols
    ensures r.Some? ==> r.value in {EmptyOrderbook, InvalidTimestamp, InvalidSymbol, NegativePrice, NullValue}
    ensures b.bids != [] && b.asks != [] && b.eventTime > 0 && b.symbol in v.expectedSymbols ==>
      r == LevelsCheck(PySliceTo(b.bids, CheckedLevels) + PySliceTo(b.asks, CheckedLevels))
  {
    if b.bids == [] || b.asks == [] then Some(EmptyOrderbook)
    else if b.eventTime <= 0 then Some(InvalidTimestamp)
    else if b.symbol !in v.expectedSymbols then Some(InvalidSymbol)
    else
      var levels := CheckedLevelsOf(b);
      assert (forall l :: l in levels ==> LevelFault(l).None?) <==>
             (forall i :: 0 <= i < |levels| ==> LevelFault(levels[i]).None?);
      LevelsCheck(levels)
  }

  /** `validate_orderbook`. The dedup set and the trade watermark are never
      touched; acceptance raises the order-book watermark. */
  function ValidateOrderbook(v: Validator, b: OrderBook): (r: (Validator, ValidationResult))
    ensures r.0.totalValidated == v.totalValidated + 1
    ensures r.1.isValid <==> AcceptableBook(v, b)
    ensures r.1.errorType != Some(OutOfOrder)
    ensures r.0.expectedSymbols == v.expectedSymbols
    ensures r.0.recentTradeIds == v.recentTradeIds
    ensures r.0.lastTradeTimestamp == v.lastTradeTimestamp
    ensures !r.1.isValid ==>
      && r.1.errorType == BookCheck(v, b)
      && r.0.lastOrderbookTimestamp == v.lastOrderbookTimestamp
      && r.0.totalErrors == v.totalErrors + 1
      && r.0.errorCounts == Bump(v.errorCounts, r.1.errorType.value)
    ensures r.1.isValid ==>
      && r.1.errorType.None?
      && r.0.totalErrors == v.totalErrors
      && r.0.errorCounts == v.errorCounts
      && r.0.lastOrderbookTimestamp == RMax(v.lastOrderbookTimestamp, b.eventTime)
  {
    var v1 := v.(totalValidated := v.totalValidated + 1);
    match BookCheck(v, b)
    case Some(k) => RecordError(v1, k)
    case None =>
      (v1.(lastOrderbookTimestamp := RMax(v.lastOrderbookTimestamp, b.eventTime)),
       ValidationResult(true, None))
  }

  // ----- statistics -----

  /** `get_error_rate`: the fraction of calls that were rejected. */
  function ErrorRate(v: Validator): (r: real)
    ensures v.totalValidated == 0 ==> r == 0.0
    ensures v.totalValidated > 0 ==> r * (v.totalValidated as real) == v.totalErrors as real
    ensures v.totalErrors <= v.totalValidated ==> 0.0 <= r <= 1.0
  {
    if v.totalValidated == 0 then 0.0
    else (v.totalErrors as real) / (v.totalValidated as real)
  }

  /** `reset_stats`: the counters restart; the id set and both watermarks stay. */
  function ResetStats(v: Validator): (r: Validator)
    ensures Inv(v) ==> Inv(r)
    ensures r.totalValidated == 0 && r.totalErrors == 0
    ensures forall k :: Count(r.errorCounts, k) == 0
    ensures r.recentTradeIds == v.recentTradeIds && r.expectedSymbols == v.expectedSymbols
    ensures r.lastTradeTimestamp == v.lastTradeTimestamp
    ensures r.lastOrderbookTimestamp == v.lastOrderbookTimestamp
  {
    SumCountsZero(AllKinds);
    v.(totalValidated := 0, totalErrors := 0, errorCounts := ZeroCounts())
  }

  // ----- properties across calls -----

  /** Every trade validation keeps the counter relations and the id-set bound. */
  lemma ValidateTradeKeepsInv(v: Validator, t: Trade, victim: int)
    requires Inv(v)
    ensures Inv(ValidateTrade(v, t, victim).0)
  {
    var r := ValidateTrade(v, t, victim);
    if !r.1.isValid {
      BumpAll(v.errorCounts, r.1.errorType.value);
    } else {
      assert r.0.recentTradeIds == AddTradeId(v.recentTradeIds, t.aggregateTradeId, victim);
    }
  }

  /** Every order-book validation keeps the counter relations and the id-set bound. */
  lemma ValidateOrderbookKeepsInv(v: Validator, b: OrderBook)
    requires Inv(v)
    ensures Inv(ValidateOrderbook(v, b).0)
  {
    var r := ValidateOrderbook(v, b);
    if !r.1.isValid {
      BumpAll(v.errorCounts, r.1.errorType.value);
    }
  }

  /** Timestamps that go backwards never cause a rejection: the verdict
      does not depend on either watermark. */
  lemma WatermarksNeverReject(v: Validator, t: Trade, b: OrderBook, tradeMark: int, bookMark: int)
    ensures TradeCheck(v.(lastTradeTimestamp := tradeMark, lastOrderbookTimestamp := bookMark), t) == TradeCheck(v, t)
    ensures BookCheck(v.(lastTradeTimestamp := tradeMark, lastOrderbookTimestamp := bookMark), b) == BookCheck(v, b)
  {
  }

  /** An acceptance loses at most one id that was already recorded (the one
      `set.pop()` evicts), so every other earlier id still rejects a
      resubmission afterwards. */
  lemma AcceptLosesAtMostOneId(v: Validator, t: Trade, victim: int)
    requires ValidateTrade(v, t, victim).1.isValid
    ensures |v.recentTradeIds - ValidateTrade(v, t, victim).0.recentTradeIds| <= 1
  {
    var s := v.recentTradeIds + {t.aggregateTradeId};
    var r := ValidateTrade(v, t, victim).0.recentTradeIds;
    assert s == r + (s - r);
    SubsetCard(v.recentTradeIds - r, s - r);
  }

  lemma {:induction false} SubsetCard(a: set<int>, b: set<int>)
    requires a <= b
    ensures |a| <= |b|
  {
    assert b == a + (b - a);
  }

  /** Submitting the same trade twice, while the id set has room, gives one
      acceptance followed by one `DUPLICATE` rejection. */
  lemma DuplicateResubmission(v: Validator, t: Trade, victim1: int, victim2: int)
    requires AcceptableTrade(v, t)
    requires |v.recentTradeIds| < MaxTradeIds
    ensures ValidateTrade(v, t, victim1).1.isValid
    ensures ValidateTrade(ValidateTrade(v, t, victim1).0, t, victim2).1 == ValidationResult(false, Some(Duplicate))
  {
    var v1 := ValidateTrade(v, t, victim1).0;
    assert t.aggregateTradeId in v1.recentTradeIds;
    assert TradeCheck(v1, t) == Some(Duplicate);
  }

  /** The text "0" is not falsy, so a zero price passes the null check and
      is rejected as a non-positive price. */
  lemma ZeroPriceIsNegativePrice(v: Validator, t: Trade)
    requires t.price == Text(Some(0.0)) && t.quantity == Text(Some(1.0))
    ensures ValidateTrade(v, t, 0).1 == ValidationResult(false, Some(NegativePrice))
  {
  }

  /** A malformed sixth level is never looked at. */
  lemma SixthLevelIgnored(v: Validator, b: OrderBook)
    requires AcceptableBook(v, b)
    requires |b.bids| >= 5
    ensures AcceptableBook(v, b.(bids := b.bids[..5] + [[Missing]] + b.bids[5..]))
  {
    var b' := b.(bids := b.bids[..5] + [[Missing]] + b.bids[5..]);
    assert PySliceTo(b'.bids, CheckedLevels) == PySliceTo(b.bids, CheckedLevels);
  }
}
